=== FILE: README.md ===
# GISTEMP rewrite, modelled in Dafny

This project models the core of a Python rewrite of NASA's GISTEMP surface-temperature analysis. The model covers the seven pipeline steps and the helpers they share:

- **Step 0** decodes the fixed-width GHCN v4 station records. It converts hundredths of a degree to degrees and maps the missing-value code -9999 to NaN. It drops the years before the start year, pivots to one row per station with month-major "m_y" columns, reorders those columns by year, and left-merges the station coordinates.
- **Step 1** drops stations whose coordinates are out of range. It applies the station/period omission rules, then blanks every station month with fewer than 20 values over the analysis period.
- **Step 2** builds the 2x2 degree grid (89 x 180 points plus the two poles). For every grid point it computes a normalised map from each nearby station to a weight that falls off linearly with distance.
- **Step 3** turns each station value into an anomaly: the value minus the station's mean for that calendar month over the baseline years.
- **Step 4** works out how bright each station is at night from a brightness grid. It splits the stations into urban and rural and weights the rural neighbours of each urban station. Each urban station with enough neighbours gets its series replaced by the weighted sum of theirs.
- **Step 5** computes sea-surface anomalies against a monthly climatology and removes ice values below a cutoff.
- **Step 6** averages the station anomalies onto the grid and turns the "m_y" column names into dates. It then blends land and ocean using weights based on how many values are missing.

Modelling choices:
- A NaN cell is `None` and a float is a `real`. Sums, counts and means skip missing cells, as pandas does by default (`Values`).
- A Python dict is an association list in insertion order. Assigning to an existing key overwrites its value in place (`Dicts`).
- A table is a sequence of rows, each with an index label, Latitude, Longitude and one value per time column (`Tables`).
- An operation that can raise returns a `Result`. The failure carries the exception's name.
- Trigonometry is uninterpreted. A `Trig` value supplies sin, cos, sqrt, atan2 and pi, and `ValidTrig` states the few facts about them that the properties need (`Utilities`).

## Model

| member | source | states |
|---|---|---|
| Utilities.NormalizeDictValues | tools/utilities.py:31-40 | keys and their order are kept; with a nonzero total, every value is divided by the total and the values sum to 1; with a zero total the dict comes back unchanged |
| Utilities.NormalizeKeepsKeys | tools/utilities.py:34-37 | normalising never adds or drops a key |
| Utilities.NormalizeFixesNormalised | testing/test_gistemp.py:210-220 | a dict whose values already sum to 1 comes back equal |
| Utilities.NormalizeChangesUnnormalised | testing/test_gistemp.py:211-223 | a dict with a nonzero total other than 1 comes back different |
| Utilities.NormalizeIdempotent | tools/utilities.py:31-40 | normalising twice gives the same result as normalising once |
| Utilities.Clip | tools/utilities.py:72 | the result lies in the interval, and a value already inside it is unchanged |
| Utilities.HaversineTerm | tools/utilities.py:69-72 | the clipped haversine term lies in [0, 1] |
| Utilities.Haversine | tools/utilities.py:69-76 | for a non-negative radius the distance lies in [0, pi * radius]; a point is at distance 0 from itself |
| Utilities.HaversineSymmetric | tools/utilities.py:69-76 | the distance does not depend on which point comes first |
| Utilities.SiteDistance | tools/utilities.py:92-95 | the distance is NaN exactly when one of the four coordinates is NaN, and otherwise lies in [0, pi * radius] |
| Utilities.SiteDistanceToSelf | testing/test_gistemp.py:228-233 | a location with known coordinates is at distance 0 from itself |
| Utilities.DistanceMatrix | tools/utilities.py:97-107 | one row per point of the first table; row i holds the distances from point i to every point of the second table |
| Utilities.CalculateDistances | tools/utilities.py:92-110 | the filled matrix is len(first) by len(second); entry [i][j] is the distance between point i and point j, within [0, pi * radius], and NaN only when a coordinate is NaN |
| Utilities.DistanceMatrixDiagonal | tools/utilities.py:92-110 | a table measured against itself has 0 on the diagonal wherever the coordinates are known |
| Nearby.IncludedIffWithinRadius | steps/step2.py:95-102 | a station is kept exactly when its distance is known, the radius is positive and the distance is at most the radius |
| Nearby.WeightBounds | steps/step2.py:96 | inside the radius the falloff weight lies in [0, 1]; it is 1 exactly at distance 0 and 0 exactly on the boundary, which is still kept |
| Nearby.Kept | steps/step2.py:102 | the kept positions are ascending and are exactly the positions whose distance is within the radius |
| Nearby.NearbyMapKeys | steps/step2.py:102-110 | an id is a key of the normalised map exactly when some station with that id is kept |
| Nearby.NearbyPairsDistinct | steps/step2.py:105-107 | with distinct station ids, the kept pairs have distinct keys |
| Nearby.RawNearbyValue | steps/step2.py:105-107 | with distinct ids, a kept station carries its own falloff weight in the map before normalisation |
| Nearby.NearbyMapSumsToOne | steps/step2.py:110 | when the raw weights have a positive total, the normalised weights sum to 1 |
| Nearby.NearbyMapEmpty | steps/step2.py:102-110 | with no station inside the radius the map is empty |
| Step2.AxisValues | steps/step2.py:41-42 | the latitudes are 88, 86, ..., -88 (89 values) and the longitudes 0, 2, ..., 358 (180 values) |
| Step2.Product | steps/step2.py:48 | the product has len(xs) * len(ys) pairs |
| Step2.ProductIndex | steps/step2.py:48 | pair i * len(ys) + j is (xs[i], ys[j]): the first factor varies slowest |
| Step2.GridLayout | steps/step2.py:41-52 | the grid has 16022 rows; row 180 i + j is at latitude 88 - 2 i and longitude 2 j; the north pole and then the south pole come last |
| Step2.GridPoles | steps/step2.py:45-48 | exactly the last two rows lie at latitude +-90, and both are at longitude 0 |
| Step2.FindNearbyStations | steps/step2.py:93-119 | one output row per grid row, with the grid row's coordinates and the normalised map of the stations within the radius in that distance row |
| Step2.Step2 | steps/step2.py:132-145 | every grid point, in grid order, with the normalised map from its grid-to-station distance row |
| Step2.NearbyKeysWithinRadius | steps/step2.py:95-110 | a station id is in a grid point's map exactly when some station with that id lies within the radius of the point |
| Step4.LineEntries | steps/step4.py:50-55 | one (i, j) -> value entry per line, in order |
| Step4.ReadNightFile | steps/step4.py:42-57 | the response text is split into lines as `str.splitlines` does; a non-200 status gives an empty dict; a line with fewer than three tokens raises; otherwise every line's entry is in the dict, and a later line overwrites an earlier one |
| Text.SplitLines | steps/step4.py:50 | no piece holds a line break (`\n`, `\r`, `\x0b`, `\x0c`, `\x1c`-`\x1e`, `\x85`, U+2028 or U+2029) |
| Text.SplitLinesJoin | steps/step4.py:50 | lines without breaks, each ended by `\n`, split back into the same lines, with no empty line after the last break |
| Text.SplitLinesCrLf | steps/step4.py:50 | `\r\n` ends a single line rather than two |
| Step4.NightFileLookup | steps/step4.py:50-55 | each key maps to the value on the last line that carries it |
| Step4.NightLineRoundTrip | steps/step4.py:52-55 | a line written as "i j v" from three tokens without spaces reads back as the entry (i, j) -> v |
| Step4.RoundHalfEven | steps/step4.py:92-93 | the result is within 0.5 of the input, and a tie goes to the even integer |
| Step4.RoundNearest | steps/step4.py:92-93 | when exactly one integer is nearest, rounding gives that integer |
| Step4.SearchIndexI | steps/step4.py:92-97 | the column index is below 43200; when the rounded formula is below 43200 it is the index, and anything larger wraps to 1 |
| Step4.SearchIndexJ | steps/step4.py:93-96 | the row index is at most 21600; below 21600 it is the rounded formula, and anything larger is clamped to 21600 |
| Step4.SearchI | steps/step4.py:92-97 | the text key reads back through int() as the column index |
| Step4.SearchJ | steps/step4.py:93-96 | the text key reads back through int() as the row index |
| Step4.SearchIndicesInRange | steps/step4.py:92-97 | inside the grid the indices are the rounded formulas; longitude 180 wraps to column 1 and latitude -90 is clamped to row 21600 |
| Step4.Brightness | steps/step4.py:100-103 | 0 when the key is absent or its value is not an integer; otherwise the stored integer |
| Step4.BrightnessOfStoredInt | steps/step4.py:100-103 | a value stored as the text of an integer reads back as that integer |
| Step4.ProcessInvFile | steps/step4.py:83-114 | with status 200, one record per inventory line, in order, carrying its id, coordinates and brightness; otherwise nothing |
| Step4.BrightnessFromFile | steps/step4.py:50-55 | a station whose indices appear on line "i j v" of the file, and on no later line, gets brightness v |
| Step4.UrbanRuralPartition | steps/step4.py:171-175 | every station is urban (brightness above the threshold) or rural, never both, and the two selections together hold every station as often as the input does |
| Step4.AllUrbanWeights | steps/step4.py:178-197 | one weight map per urban station, in order: entry i belongs to the i-th urban station |
| Step4.FindNearbyRuralStations | steps/step4.py:170-210 | every entry is an urban station of the input with its map of at least the minimum number of entries |
| Step4.RetainedInOrder | steps/step4.py:204-210 | the retained entries keep the order of the full list: entry k is the entry at the k-th retained position |
| Step4.RetainedIffEnoughNeighbours | steps/step4.py:204-208 | an urban station is kept exactly when its map has at least the minimum number of entries, whatever their weights |
| Step4.UrbanWeightKeys | steps/step4.py:178-195 | the neighbours of an urban station are the rural stations within the radius |
| Step4.RetainedKeysAreRural | steps/step4.py:174-195 | every neighbour of a kept urban station is a rural station |
| Step4.AdjustedSeries | steps/step4.py:263-277 | one value per column; what each column holds is stated by Step4.AdjustReplacesUrban and Step4.AdjustLeavesOthers |
| Step4.AdjustUrbanAnomalies | steps/step4.py:234-279 | raises exactly when a kept urban station needs a time column or a neighbour that the rural rows lack (`KeyError`), or a neighbour's label names several rural rows (`ValueError` from `multiply`); otherwise returns every station, each kept urban station with its time columns replaced |
| Step4.LoopErrorMeaning | steps/step4.py:252-277 | the loop's first failing entry decides the error: none exactly when every lookup succeeds and every neighbour label is unique among the rural rows; `KeyError` only when a lookup fails, `ValueError` only when a label repeats |
| Step4.AdjustLeavesOthers | testing/test_gistemp.py:166-170 | stations that are not kept urban stations come back unchanged, and so does every column outside the analysis period |
| Step4.AdjustReplacesUrban | steps/step4.py:259-277 | a kept urban station's time column becomes the weighted sum, under its last-listed weights, of the rural values, with an exact 0 made missing |
| Step4.AdjustedValueOfUniformNeighbours | steps/step4.py:266-274 | with normalised weights and every neighbour holding the same nonzero value v, the adjusted value is v |
| Step4.AdjustedValueOfMissingNeighbours | steps/step4.py:271-274 | with no neighbour value present, the adjusted value is missing |
| Step4.Step4Succeeds | steps/step4.py:311-334 | with distinct station labels and the weights from the same table, the adjustment fails only when an analysis-period column is absent |
| Step3.BaselineValues | steps/step3.py:31-35 | one value per baseline year, the value of column "m_y" of that year |
| Step3.BaselineValueAt | steps/step3.py:32-35 | with each column named once, the baseline value of a year is that column's cell |
| Step3.StationAverages | steps/step3.py:31-35 | twelve means, month m at position m - 1, each the mean of the present baseline values of that month |
| Step3.CalculateMonthlyAverages | steps/step3.py:31-40 | raises exactly when a baseline column is absent; otherwise gives one row of twelve means per station |
| Step3.MonthlyAverageMeaning | steps/step3.py:31-35 | a month's average is missing exactly when the station has no present baseline value for it; otherwise its count times the average is their sum |
| Step3.AnomalyRow | steps/step3.py:63-74 | label and coordinates are kept, and each value becomes itself minus the average of its column's month |
| Step3.CalculateStationAnomalies | steps/step3.py:58-79 | raises exactly when a column's month is not 1 to 12; otherwise the same columns and stations, with each row's anomalies |
| Step3.Step3 | steps/step3.py:99-107 | fails exactly when a baseline column is absent or a month is invalid; otherwise each row becomes its anomalies against its own monthly means |
| Step3.Step3AnomalySub | steps/step3.py:74 | each cell of the result is the original cell minus its month's baseline mean |
| Step3.Step3Anomaly | steps/step3.py:74 | an anomaly is present exactly when the value is present and its month has baseline data, and it then adds back to the value |
| Step3.Step3Missing | steps/step3.py:74 | a missing value stays missing, and a month without baseline data comes out all missing |
| Step3.Step3BaselineAnomalies | steps/step3.py:31-74 | over the baseline years, the month's anomalies are the original values shifted by the baseline mean |
| Step3.Step3BaselineCell | steps/step3.py:74 | one baseline year's anomaly is that year's value minus the mean |
| Step3.Step3BaselineMeanZero | steps/step3.py:31-74 | over the baseline years of a month with data, the anomalies average to 0 |
| Step1.FilterCoordinates | steps/step1.py:34-41 | keeps exactly the rows with latitude in [-90, 90] and longitude in [-180, 180], in their order and as often as they occur (row k is the input row at the k-th valid position); the count is rows in minus rows out |
| Step1.FilterCoordinatesKeepsValid | steps/step1.py:38 | every input row with valid coordinates appears in the output, at its place among the valid rows |
| Seqs.FilterSelects | steps/step1.py:38 | a boolean-mask selection is the rows at the increasing positions whose row satisfies the mask, in order and with repeats |
| Step1.FilterCoordinatesIdempotent | testing/test_gistemp.py:97-108 | filtering a second time removes nothing |
| Step1.ParsePeriod | steps/step1.py:89-129 | raises `IndexError` exactly when the period holds neither "-" nor "/", and otherwise fails only with `ValueError`; a "year/month" period never contains "-", and a rule without time columns omits nothing |
| Step1.YearBound | steps/step1.py:104-123 | the bound is `int(text)`, the last year omitted for "0-y" and the first for "s-e"; a text that is not an integer raises `ValueError` exactly when there are time columns, and otherwise the rule omits nothing |
| Step1.EverythingPeriod | steps/step1.py:97-101 | "0-9999" omits every time column |
| Step1.ThroughPeriod | steps/step1.py:103-114 | for every year y other than 9999, "0-y" omits exactly the columns of the years up to and including y |
| Step1.FromPeriod | steps/step1.py:116-123 | for every start year s other than 0 and any end, "s-e" omits exactly the columns of the years from s on |
| Step1.MonthPeriod | steps/step1.py:125-130 | "y/m" omits the column named "{int(m)}_{y}", with the year text as written |
| Step1.MonthColumnPeriod | steps/step1.py:125-130 | for every numeric year y and month m, "y/m" omits the column of month m of year y and no other |
| Step1.UnreadableThrough | steps/step1.py:104-114 | an end year that is not an integer raises `ValueError` exactly when there are time columns |
| Step1.UnreadableFrom | steps/step1.py:116-123 | a start year that is not an integer raises `ValueError` exactly when there are time columns |
| Step1.UnreadableMonth | steps/step1.py:127-129 | a month that is not an integer raises `ValueError` |
| Step1.CountBlanked | steps/step1.py:100-123 | at most every column; every column for "0-9999"; none when there is nothing to omit |
| Step1.BlankStation | steps/step1.py:100-130 | every row of the station has the omitted columns blanked and nothing else changes; a station not in the index gains an all-NaN row |
| Step1.DroppedCountsBlanked | steps/step1.py:101-131 | the intended counter equals the number of columns the rule blanks, for a "year/month" rule too when its column exists and the columns are distinct |
| Step1.DroppedAsWrittenAtLeast | steps/step1.py:131 | the program's per-rule count is never below the intended one, and exceeds it exactly for a "year/month" rule |
| Step1.TotalDroppedOvercounts | steps/step1.py:82-137 | the program's total over all rules is never below the intended total, and exceeds it exactly when some rule is a "year/month" rule |
| Step1.BlankedOnce | steps/step1.py:127-130 | with distinct columns, the name of a column blanks exactly one column |
| Step1.NoneBlanked | steps/step1.py:127-130 | a name that matches no column blanks nothing |
| Step1.ApplyRule | steps/step1.py:87-131 | fails exactly when the period cannot be read; otherwise the station is blanked, and the count the program adds is the number of columns blanked for a range rule and the length of the column name for a "year/month" rule |
| Step1.FilterByRules | steps/step1.py:82-137 | fails exactly when some period cannot be read; otherwise keeps the columns and rows; a cell of an existing row is blanked exactly when some rule blanks it; added rows are all NaN; the count is the program's total as it logs it, with the length of the column name for each "year/month" rule |
| Step1.FilterByRulesStep | steps/step1.py:82-131 | one more rule blanks a cell of an existing row exactly when the new rule or an earlier one blanks it |
| Step1.RuleCell | steps/step1.py:100-130 | one rule blanks a cell exactly when it names the station and omits the column |
| Step1.FilterByRulesStepAdded | steps/step1.py:100-130 | rows added by a rule are all NaN |
| Step1.StationRow | steps/step1.py:158-205 | label and coordinates are kept; the series follows the year-major analysis columns, and each month keeps its values when it has at least 20 of them and is blanked otherwise |
| Step1.FilterByStations | steps/step1.py:158-209 | raises exactly when an analysis-period column is absent; otherwise one row per station over the year-major analysis columns |
| Step1.StationMonthAfterFilter | steps/step1.py:173-184 | a station's month values after the filter are the original ones when there are at least 20 present, and all missing otherwise |
| Step1.FilteredMonthsHaveEnoughOrNothing | steps/step1.py:178-184 | after the filter every station month has at least 20 values or none |
| Step1.AllMissingCount | steps/step1.py:182-184 | a series of missing values counts no present value |
| Step1.FilterByStationsIdempotent | steps/step1.py:158-209 | applying the filter to its own output changes nothing |
| Step1.StationRowFixed | steps/step1.py:158-209 | a row already in filtered shape comes back unchanged |
| Step1.Step1 | steps/step1.py:231-234 | fails exactly when a rule's period cannot be read or an analysis column is absent; otherwise gives the year-major analysis columns |
| Step1.Step1Coordinates | testing/test_gistemp.py:103-108 | output row i, for i below the number of valid input rows, has the label and coordinates of the i-th valid input row; later rows (added for rules about absent stations) have no coordinates; so every present coordinate is in range |
| Step1.DroppedAsWrittenOvercounts | steps/step1.py:131 | the counter as written adds 6 for the rule "2021/9", which blanks one value |
| Step6.CalculateGridAnomalies | steps/step6.py:32-87 | one row per grid point, in grid order, with the point's coordinates; each time cell is the sum over rows whose label is in the map, each row multiplied by its weight, with an exact 0 made missing |
| Step6.RowSumIsWeightedSum | steps/step6.py:47-57 | with distinct station labels and a map over station labels only, the row-order sum equals the weight-order weighted sum |
| Step6.GridCellIsComposite | steps/step6.py:47-70 | a grid cell is the composite of its stations; map stations missing from the table add nothing, and the weights are not renormalised |
| Step6.GridCellWithoutData | steps/step6.py:57-70 | a grid point whose stations all miss a column is missing there |
| Step6.RowSumAllMissing | steps/step6.py:57 | rows whose values in the column are all missing sum to 0 |
| Step6.ColumnDate | steps/step6.py:109-116 | a date that converts is the first day of a month between 1 and 12, within the Timestamp range |
| Step6.ColumnDateOfName | steps/step6.py:109-116 | column "m_y" converts exactly when m is 1 to 12 and y-m-01 is in the Timestamp range, and it converts to y-m-01 |
| Step6.TimeColumnDatesIncrease | steps/step6.py:109-116 | the year-major time columns give strictly increasing dates |
| Step6.ColumnDates | steps/step6.py:113-116 | the conversion raises exactly when some column name does not convert; otherwise there is one date per column |
| Step6.ColumnDatesAreFirstOfMonth | steps/step6.py:109-116 | when the conversion succeeds, column "m_y" becomes y-m-01 |
| Step6.DataframeToDataset | steps/step6.py:102-129 | fails exactly when the date conversion fails; otherwise one series per grid point on the converted times |
| Step6.Truncate | steps/step6.py:150-153 | keeps, in order, the times not after the last ocean time, with each series cut to match |
| Step6.TruncateTimes | steps/step6.py:153 | a time survives the cut exactly when it was present and is not after the last time |
| Step6.JoinedTimesMembers | steps/step6.py:165-169 | a time is in the joined axis exactly when it is both a land time and an ocean time |
| Step6.CombineLandOcean | steps/step6.py:150-171 | fails on an empty ocean axis; otherwise one blended series per grid point |
| Step6.CombinedTimes | steps/step6.py:150-169 | the result's times are the land times that are ocean times and not after the last ocean time |
| Step6.CombinedValue | steps/step6.py:156-170 | each combined value is land times its weight plus ocean times its weight, missing read as 0, with an exact 0 made missing |
| Step6.MissingWeightBounds | steps/step6.py:160-162 | with at most `length` missing, a weight lies in [0, 1]; it is 1 exactly when nothing is missing and 0 exactly when everything is |
| Step6.OceanWeightBounds | steps/step6.py:156-161 | the ocean weight lies in [0, 1]; it is 1 exactly without missing values and 0 exactly without present values |
| Step6.LandWeightBounds | steps/step6.py:157-162 | when the cut land series is no longer than the ocean series, the land weight lies in [0, 1] |
| Step6.LandOnlyGivesLand | steps/step6.py:156-170 | a fully present land series against an all-missing ocean series comes through as the land value at the same time, an exact 0 still made missing |
| Step6.LandOnlyWeights | steps/step6.py:156-162 | in that case the land weight is 1 and the ocean weight is 0 |
| Step6.LandWeightCanBeNegative | steps/step6.py:160-162 | a land series with more missing values than the ocean axis has times gets a negative weight, and its value flips sign |
| Step5.AnomalySeries | steps/step5.py:89-95 | one value per time; each is the value minus the baseline climatology of its calendar month |
| Step5.SstAnomaly | steps/step5.py:89-96 | same times and grid points, each series replaced by its anomaly series |
| Step5.SstAnomalyCell | steps/step5.py:92-95 | an anomaly is present exactly when the value is present and its calendar month has baseline data, and it then adds back to the value |
| Step5.SstBaselineMeanZero | steps/step5.py:89-95 | over the baseline times of a month with data, the anomalies of a grid point average to 0 |
| Step5.CutSeries | steps/step5.py:155 | each value is kept when present and at or above the threshold, and made missing otherwise |
| Step5.CutSeriesCount | steps/step5.py:152-161 | the present values before the cut are those after it plus those below the threshold |
| Step5.CutCellsCount | steps/step5.py:152-161 | the same count over the whole field |
| Step5.RemoveIceValues | steps/step5.py:152-171 | raises ZeroDivisionError exactly when the field has no present value; otherwise values below the threshold become missing and the rest are kept, and the reported count is the number of present values below the threshold |
| Step5.Step5 | steps/step5.py:198-209 | the anomalies of the field, then the ice cutoff applied to them; fails exactly when no anomaly is present |
| Step5.Step5CutsAnomalies | steps/step5.py:198-208 | a value survives exactly when its anomaly, not its raw temperature, is present and at or above the threshold |
| Tables.SplitColumnName | steps/step3.py:68 | splitting "m_y" at "_" gives back the month text and the year text |
| Tables.ColumnNameInjective | steps/step0.py:98 | different columns have different names |
| Tables.YearColumns | steps/step1.py:196-202 | twelve columns per year, months 1 to 12 within each year, years in the given order |
| Tables.TimeColumns | steps/step4.py:239-249 | the analysis-period columns: years outer, months inner, 12 per year |
| Tables.TimeColumnPosition | steps/step4.py:246-249 | month m of year y sits at position 12 (y - start) + m - 1 and nowhere else |
| Tables.IndexOfTimeColumn | steps/step4.py:246-249 | looking up column "m_y" by name finds position 12 (y - start) + m - 1 |
| Tables.WeightedSumIgnoresAbsent | steps/step6.py:47-57 | stations of the map that are absent from the table add nothing, and the other weights are used as they are |
| Tables.WeightedSumAllMissing | steps/step4.py:271-274 | with no present value among the weighted stations the sum is 0, so the result is missing |
| Tables.WeightedSumOfConstant | steps/step4.py:266-271 | when every weighted station holds the same value v, the sum is v times the total weight |
| Step0.FieldStarts | steps/step0.py:66 | twelve field starts, field k at column 19 + 8 k |
| Step0.DecodeLine | steps/step0.py:64-66 | decoding succeeds exactly when the year and all twelve values parse; the id is the first 11 characters, the year is characters 11-15, and there are twelve values |
| Step0.DecodeLines | steps/step0.py:59-69 | fails exactly when some non-blank line fails to decode; otherwise one record per non-blank line, in order |
| Step0.BlankLinesSkipped | steps/step0.py:59-61 | blank lines do not change the outcome |
| Step0.DecodeEncode | steps/step0.py:64-66 | a record written in the GHCN fixed-width layout decodes back to itself |
| Step0.ReadWrittenFile | steps/step0.py:53-69 | a file of records written one per line, with a trailing newline, reads back as the same records |
| Step0.Celsius | steps/step0.py:78-82 | -9999 becomes NaN, and any other value v becomes v / 100 |
| Step0.DecodedYearNeverMissing | steps/step0.py:65-78 | a decoded year is never -9999, so the replacement of -9999 by NaN leaves the Year column alone |
| Step0.KeptRecords | steps/step0.py:85-86 | keeps exactly the records from the start year on |
| Step0.InsertByYearOfYear | steps/step0.py:100 | inserting a column puts it after the columns of its own year and leaves the other years untouched |
| Sorting.SortDistinct | steps/step0.py:94 | the pivot index is strictly sorted and holds exactly the distinct station ids |
| Sorting.SortedUnique | steps/step0.py:94 | a set has exactly one strictly sorted arrangement |
| Step0.SortByYear | steps/step0.py:101-104 | the columns ordered by year, with the same multiset of columns and the same order within each year (a stable sort) |
| Step0.SortKeyOfName | steps/step0.py:101 | a column name splits at "_" into two parts, and the second parses as the column's year |
| Step0.OrderedByYearUnique | steps/step0.py:101 | two year-ordered arrangements with the same columns of every year are equal |
| Step0.PivotColumnsSorted | steps/step0.py:95-104 | stably sorting the month-major pivot columns of strictly sorted years gives the year-major layout |
| Step0.PivotRecords | steps/step0.py:95-107 | the columns are the year-major layout of the sorted distinct years; one row per sorted distinct station id, with the pivoted values and no coordinates |
| Step0.PivotCellOfRecord | steps/step0.py:82-95 | with one record per station and year, the pivot cell of a record's month is that month's value in degrees |
| Step0.PivotCellAbsent | steps/step0.py:95 | a station and year with no record gives NaN |
| Step0.MergeLeftFrom | steps/step0.py:119-124 | every output row comes from an input row and takes coordinates from a matching metadata line, or NaN when none matches |
| Step0.MergeLeftKeepsRows | steps/step0.py:119-124 | a left merge keeps every input row: each has a copy in the output with its id and series |
| Step0.MergeLeftOnePerRow | steps/step0.py:119-125 | with distinct metadata ids, one output row per input row, in order, with the same id and series |
| Step0.PivotAndMerge | steps/step0.py:95-126 | year-major columns; every row is a station of the pivot with its pivoted series and coordinates from the metadata |
| Step0.GetGhcnData | steps/step0.py:46-126 | fails exactly when the status is not 200, a line does not decode, or a station and year repeat; otherwise the pivoted and merged table of the records from the start year on |
| Step0.GetGhcnDataValue | steps/step0.py:64-104 | a kept record's month value, in degrees, sits under column "m_year" in every row of its station |
| Step0.GetGhcnDataYears | steps/step0.py:85-104 | every column's year is at least the start year and comes from some record, and every month of every kept record is a column |
| Step0.GetGhcnDataOneRowPerStation | steps/step0.py:95-126 | with distinct metadata ids, the rows are the distinct station ids in sorted order |
| Step0.GetGhcnDataEveryStation | steps/step0.py:85-126 | every station with a kept record has a row |
| Step0.GetGhcnDataFirstLast | testing/test_gistemp.py:80-86 | the first column is month 1 and the last is month 12, and every kept year lies between their years |

## Left out

- Network and file I/O are left out: `requests.get`, the HTTP status and the response text are parameters. The same goes for `read_fwf`, `read_csv` and the drop-rules file (its rules are a parameter). The download in `sst_dataset` and `collect_metadata` are also outside the model.
- Logging, progress bars and printed messages are not modelled; the messages themselves have no effect on results. The percentage that `remove_ice_values` prints is an exception: computing it divides by the number of valid values, so a field with no present value raises `ZeroDivisionError`, and `Step5.RemoveIceValues` models that failure.
- Floating point is modelled as exact real arithmetic. Rounding error, infinities and float32 storage are not modelled. `Step4.RoundHalfEven` models Python's `round` on the exact value.
- Utilities.Haversine: sin, cos, sqrt and atan2 are uninterpreted. Only the facts listed in `ValidTrig` are assumed, so no distance is computed numerically.
- The inventory and metadata files are taken as already-parsed records (`InvRecord`, `Meta`, `StationMeta`). Parsing their floats is not modelled.
- Step0.DecodeLine: integer parsing accepts an optional sign, digits and surrounding whitespace (the characters of `str.isspace`). It does not accept the underscores between digits, or the non-ASCII decimal digits, that Python's `int()` allows.
- Step4.Brightness: the stored value is read with the same integer parser, so a value such as "1_0", which Python's `int()` reads as 10, or one written in non-ASCII decimal digits, gives 0 in the model.
- Step1.ParsePeriod: years and months are read with the same integer parser, so a period such as "0-1_950", or one written in non-ASCII decimal digits, raises `ValueError` in the model where Python's `int()` reads the number.
- Step0.GetGhcnData: the exception path stands in for the source's failure modes, with labels only. A failed download or a parse error leaves `df_GHCN` unbound, so the pivot raises `UnboundLocalError`. A repeated station and year makes the pivot raise `ValueError`. The printed message is not modelled.
- Step0.PivotRecords: pivoting an empty frame is taken to give an empty table.
- `add_brightness_to_df` (steps/step4.py:117-142) is not modelled separately. The stations enter step 4 with their brightness `Value` already attached. `ProcessInvFile` computes that value, and the inner merge on the index is left out.
- Step4.AdjustUrbanAnomalies: every retained urban station is required to be a row of the table. Assigning `df.loc[station, cols]` for an absent label would append a new row in pandas, which is not modelled. A label carried by several rows has every such row replaced, as `.loc` does.
- Step1.BlankStation: when a "year/month" rule names a column the table lacks, pandas adds that column to every row. The model leaves the table's columns unchanged in that case. Duplicate column names, which the last line of `filter_by_stations` removes, are not modelled either.
- `add_polar_coordinates` (steps/step5.py:99-137) is not modelled. It only reshapes the xarray grid by adding two all-NaN pole points.
- Step6.CombineLandOcean: land and ocean are taken as fields over the same grid points, in the same order. xarray's coordinate alignment is not modelled. Only the alignment on the time axis (an inner join) is.
- Step6.DataframeToDataset: `drop_duplicates` and the reshaping by `to_xarray` are not modelled. The model keeps one series per grid row, with times in column order.
- Step3.Step3: follows the code's plain per-station mean over the baseline years. Any further anomaly method described for GISTEMP in general is not part of this model.
- Step2.GridLayout: follows the code's grid of 89 x 180 + 2 = 16022 points. The latitude range stops at -88, so there is no row at -90 except the pole.
- Step6.LandWeightBounds: the land weight is only bounded when the cut land series is no longer than the ocean series. `Step6.LandWeightCanBeNegative` exhibits the negative weight the code computes otherwise, which is why it is stated weaker.
- `main/run.py`, `tools/logger.py` and the parameter files are context only and are not part of this model.

## Findings

| source | as written | input that shows it | evidently intended | confidence | as-written member | corrected member |
|---|---|---|---|---|---|---|
| steps/step1.py:131 | a "year/month" rule adds `len(drop_col)` to the count of removed data points: the length of the column name | the rule "2021/9" blanks the single column "9_2021" but adds 6 | add 1 for the one value blanked | not executed | Step1.DroppedAsWrittenOvercounts | Step1.DroppedCountsBlanked |

=== FILE: dicts.dfy ===
/** Python dictionaries as the pipeline builds them: entries in insertion order,
    where assigning to a present key overwrites its value in place. */
module Dicts {
  import opened Values

  /** A dict as its `(key, value)` entries, in insertion order. */
  type Dict<K, V> = seq<(K, V)>

  predicate DistinctKeys<K(==), V>(d: Dict<K, V>)
  {
    forall i, j :: 0 <= i < j < |d| ==> d[i].0 != d[j].0
  }

  /** `d.keys()` as a set. */
  function Keys<K, V>(d: Dict<K, V>): set<K>
  {
    set i | 0 <= i < |d| :: d[i].0
  }

  /** `d.get(k)`: `None` when `k` is absent. */
  function Get<K(==), V>(d: Dict<K, V>, k: K): (r: Option<V>)
    ensures r.Some? <==> k in Keys(d)
    ensures r.Some? ==> exists i :: 0 <= i < |d| && d[i] == (k, r.value)
  {
    if |d| == 0 then None
    else if d[0].0 == k then Some(d[0].1)
    else
      var r := Get(d[1..], k);
      assert r.Some? ==> exists i :: 1 <= i < |d| && d[i] == (k, r.value) by {
        if r.Some? {
          var i :| 0 <= i < |d[1..]| && d[1..][i] == (k, r.value);
          assert d[i + 1] == (k, r.value);
        }
      }
      r
  }

  /** `d[k] = v`: overwrite in place when `k` is present, append otherwise. */
  function Insert<K(==), V>(d: Dict<K, V>, k: K, v: V): (r: Dict<K, V>)
    ensures |r| == if k in Keys(d) then |d| else |d| + 1
  {
    if |d| == 0 then [(k, v)]
    else if d[0].0 == k then [(k, v)] + d[1..]
    else
      KeysCons(d);
      [d[0]] + Insert(d[1..], k, v)
  }

  /** After `d[k] = v`, `k` maps to `v` and every other key keeps its value. */
  lemma {:induction false} InsertGet<K, V>(d: Dict<K, V>, k: K, v: V, k': K)
    ensures Get(Insert(d, k, v), k') == if k' == k then Some(v) else Get(d, k')
  {
    if |d| > 0 && d[0].0 != k {
      var r := Insert(d, k, v);
      assert r[1..] == Insert(d[1..], k, v);
      InsertGet(d[1..], k, v, k');
    } else if |d| > 0 {
      assert Insert(d, k, v)[1..] == d[1..];
    }
  }

  /** `d[k] = v` adds `k` to the keys and keeps them distinct. */
  lemma {:induction false} InsertKeys<K, V>(d: Dict<K, V>, k: K, v: V)
    ensures Keys(Insert(d, k, v)) == Keys(d) + {k}
    ensures DistinctKeys(d) ==> DistinctKeys(Insert(d, k, v))
  {
    var r := Insert(d, k, v);
    if |d| == 0 {
      assert r == [(k, v)] && r[0].0 == k;
    } else if d[0].0 == k {
      assert forall i :: 0 <= i < |r| ==> r[i].0 == d[i].0;
      assert Keys(r) == Keys(d);
    } else {
      var rest := Insert(d[1..], k, v);
      assert r == [d[0]] + rest;
      assert r[1..] == rest;
      InsertKeys(d[1..], k, v);
      KeysCons(d);
      KeysCons(r);
      if DistinctKeys(d) {
        assert d[0].0 !in Keys(d[1..]);
        ConsDistinct(d[0], rest);
      }
    }
  }

  lemma KeysCons<K, V>(d: Dict<K, V>)
    requires |d| > 0
    ensures Keys(d) == {d[0].0} + Keys(d[1..])
  {
    forall x | x in Keys(d) ensures x in {d[0].0} + Keys(d[1..]) {
      var i :| 0 <= i < |d| && d[i].0 == x;
      if i > 0 {
        assert d[1..][i - 1] == d[i];
      }
    }
  }

  lemma ConsDistinct<K, V>(e: (K, V), rest: Dict<K, V>)
    requires DistinctKeys(rest)
    requires e.0 !in Keys(rest)
    ensures DistinctKeys([e] + rest)
  {
    var r := [e] + rest;
    forall i, j | 0 <= i < j < |r| ensures r[i].0 != r[j].0 {
      if i == 0 {
        assert r[j] == rest[j - 1];
      } else {
        assert r[i] == rest[i - 1] && r[j] == rest[j - 1];
      }
    }
  }

  /** The value paired with `k` last in `ps`, if any: the reference reading of a dict
      comprehension over `ps`, where later entries overwrite earlier ones. */
  function LastValue<K(==), V>(ps: seq<(K, V)>, k: K): Option<V>
  {
    if |ps| == 0 then None
    else if ps[|ps| - 1].0 == k then Some(ps[|ps| - 1].1)
    else LastValue(ps[..|ps| - 1], k)
  }

  function PairKeys<K, V>(ps: seq<(K, V)>): set<K>
  {
    set i | 0 <= i < |ps| :: ps[i].0
  }

  /** `{k: v for (k, v) in ps}`: insert the pairs one after another. */
  function FromPairs<K(==,!new), V>(ps: seq<(K, V)>): (d: Dict<K, V>)
    ensures DistinctKeys(d)
    ensures Keys(d) == PairKeys(ps)
    ensures forall k :: Get(d, k) == LastValue(ps, k)
    ensures |d| <= |ps|
  {
    if |ps| == 0 then []
    else
      var init := ps[..|ps| - 1];
      var last := ps[|ps| - 1];
      var prev := FromPairs(init);
      var d := Insert(prev, last.0, last.1);
      InsertKeys(prev, last.0, last.1);
      assert forall k :: Get(d, k) == LastValue(ps, k) by {
        forall k ensures Get(d, k) == LastValue(ps, k) {
          InsertGet(prev, last.0, last.1, k);
        }
      }
      assert PairKeys(ps) == PairKeys(init) + {last.0} by {
        forall x | x in PairKeys(ps) ensures x in PairKeys(init) + {last.0} {
          var i :| 0 <= i < |ps| && ps[i].0 == x;
          if i < |ps| - 1 {
            assert init[i] == ps[i];
          }
        }
        forall x | x in PairKeys(init) ensures x in PairKeys(ps) {
          var i :| 0 <= i < |init| && init[i].0 == x;
          assert ps[i] == init[i];
        }
      }
      d
  }

  /** Adding one more pair to a comprehension is one more assignment. */
  lemma FromPairsSnoc<K(!new), V>(ps: seq<(K, V)>, p: (K, V))
    ensures FromPairs(ps + [p]) == Insert(FromPairs(ps), p.0, p.1)
  {
    assert (ps + [p])[..|ps|] == ps;
  }

  /** With distinct keys in `ps`, each key maps to its one value. */
  lemma {:induction false} LastValueDistinct<K, V>(ps: seq<(K, V)>, i: nat)
    requires i < |ps|
    requires DistinctKeys(ps)
    ensures LastValue(ps, ps[i].0) == Some(ps[i].1)
  {
    if i < |ps| - 1 {
      assert ps[|ps| - 1].0 != ps[i].0;
      LastValueDistinct(ps[..|ps| - 1], i);
    }
  }

  /** `sum(d.values())`. */
  function Total<K>(d: Dict<K, real>): real
  {
    if |d| == 0 then 0.0 else d[0].1 + Total(d[1..])
  }

  /** Entries whose key is in `keep`, in the same order. */
  function Restrict<K>(d: Dict<K, real>, keep: set<K>): (r: Dict<K, real>)
    ensures |r| <= |d|
    ensures forall i :: 0 <= i < |r| ==> r[i].0 in keep
  {
    if |d| == 0 then []
    else if d[0].0 in keep then [d[0]] + Restrict(d[1..], keep)
    else Restrict(d[1..], keep)
  }
}

=== FILE: nearby.dfy ===
/** Neighbour weighting shared by the grid (step 2) and the urban adjustment (step 4):
    distances above the radius become NaN, every distance gets the linear falloff weight
    `1 - d / radius`, the entries whose weight is `<= 1` are kept under their station id,
    and the resulting dict is normalised. */
module Nearby {
  import opened Values
  import opened Dicts
  import opened Utilities

  /** Whether `np.where(weights <= 1.0)` keeps a station at distance `d`: NaN distances,
      distances above the radius and the NaN or infinite weights of a zero radius drop out. */
  predicate Included(d: Option<real>, radius: real)
  {
    d.Some? && !(d.value > radius) && radius != 0.0 && 1.0 - d.value / radius <= 1.0
  }

  /** The linear falloff weight `1 - d / radius`. */
  function Weight(d: real, radius: real): real
    requires radius != 0.0
  {
    1.0 - d / radius
  }

  /** For a distance that cannot be negative, a station is kept exactly when the radius
      is positive and the distance is at most the radius; NaN distances are never kept. */
  lemma IncludedIffWithinRadius(d: Option<real>, radius: real)
    requires d.Some? ==> d.value >= 0.0
    ensures Included(d, radius) <==> d.Some? && radius > 0.0 && d.value <= radius
  {
    if d.Some? && radius > 0.0 && d.value <= radius {
      assert d.value / radius >= 0.0;
    }
  }

  /** Inside the radius the weight lies in `[0, 1]`; it is 1 exactly at distance 0 and
      0 exactly on the boundary, which is still kept. */
  lemma WeightBounds(d: real, radius: real)
    requires radius > 0.0 && 0.0 <= d <= radius
    ensures 0.0 <= Weight(d, radius) <= 1.0
    ensures Weight(d, radius) == 1.0 <==> d == 0.0
    ensures Weight(d, radius) == 0.0 <==> d == radius
    ensures Included(Some(d), radius)
  {
    assert d / radius <= 1.0;
    assert d / radius >= 0.0;
    IncludedIffWithinRadius(Some(d), radius);
  }

  /** The indices `j` that `np.where(weights[i] <= 1.0)` returns for one row, ascending. */
  function Kept(ds: seq<Option<real>>, radius: real, lo: nat): (ks: seq<nat>)
    requires lo <= |ds|
    ensures forall k :: 0 <= k < |ks| ==> lo <= ks[k] < |ds| && Included(ds[ks[k]], radius)
    ensures forall j :: lo <= j < |ds| && Included(ds[j], radius) ==> j in ks
    ensures forall a, b :: 0 <= a < b < |ks| ==> ks[a] < ks[b]
    decreases |ds| - lo
  {
    if lo == |ds| then []
    else if Included(ds[lo], radius) then [lo] + Kept(ds, radius, lo + 1)
    else Kept(ds, radius, lo + 1)
  }

  /** The `(id, weight)` pairs of the kept stations, in station order: the pairs the dict
      comprehension runs over. */
  function NearbyPairs(ids: seq<string>, ds: seq<Option<real>>, radius: real): (ps: seq<(string, real)>)
    requires |ids| == |ds|
  {
    var ks := Kept(ds, radius, 0);
    seq(|ks|, k requires 0 <= k < |ks| => (ids[ks[k]], Weight(ds[ks[k]].value, radius)))
  }

  /** The raw (unnormalised) map of one row: later duplicates of a station id overwrite. */
  function RawNearby(ids: seq<string>, ds: seq<Option<real>>, radius: real): Dict<string, real>
    requires |ids| == |ds|
  {
    FromPairs(NearbyPairs(ids, ds, radius))
  }

  /** The normalised station-to-weight map of one row of the distance matrix. */
  function NearbyMap(ids: seq<string>, ds: seq<Option<real>>, radius: real): Dict<string, real>
    requires |ids| == |ds|
  {
    NormalizeDictValues(RawNearby(ids, ds, radius))
  }

  /** A station id is a key of the map iff some station with that id is kept. */
  lemma NearbyMapKeys(ids: seq<string>, ds: seq<Option<real>>, radius: real, id: string)
    requires |ids| == |ds|
    ensures id in Keys(NearbyMap(ids, ds, radius)) <==>
              exists j :: 0 <= j < |ids| && ids[j] == id && Included(ds[j], radius)
  {
    var ks := Kept(ds, radius, 0);
    var ps := NearbyPairs(ids, ds, radius);
    NormalizeKeepsKeys(RawNearby(ids, ds, radius));
    if id in PairKeys(ps) {
      var k :| 0 <= k < |ps| && ps[k].0 == id;
      assert ids[ks[k]] == id && Included(ds[ks[k]], radius);
    }
    if exists j :: 0 <= j < |ids| && ids[j] == id && Included(ds[j], radius) {
      var j :| 0 <= j < |ids| && ids[j] == id && Included(ds[j], radius);
      var k :| 0 <= k < |ks| && ks[k] == j;
      assert ps[k].0 == id;
    }
  }

  predicate DistinctStrings(ids: seq<string>)
  {
    forall i, j :: 0 <= i < j < |ids| ==> ids[i] != ids[j]
  }

  /** With distinct station ids, the kept pairs have distinct keys. */
  lemma NearbyPairsDistinct(ids: seq<string>, ds: seq<Option<real>>, radius: real)
    requires |ids| == |ds|
    requires DistinctStrings(ids)
    ensures DistinctKeys(NearbyPairs(ids, ds, radius))
  {
    var ks := Kept(ds, radius, 0);
    var ps := NearbyPairs(ids, ds, radius);
    forall a, b | 0 <= a < b < |ps| ensures ps[a].0 != ps[b].0 {
      assert ks[a] < ks[b];
    }
  }

  /** With distinct station ids, a kept station carries its own falloff weight in the
      raw map. */
  lemma RawNearbyValue(ids: seq<string>, ds: seq<Option<real>>, radius: real, j: nat)
    requires |ids| == |ds| && j < |ids|
    requires DistinctStrings(ids)
    requires Included(ds[j], radius)
    ensures Get(RawNearby(ids, ds, radius), ids[j]) == Some(Weight(ds[j].value, radius))
  {
    var ks := Kept(ds, radius, 0);
    var ps := NearbyPairs(ids, ds, radius);
    NearbyPairsDistinct(ids, ds, radius);
    var k :| 0 <= k < |ks| && ks[k] == j;
    assert ps[k] == (ids[j], Weight(ds[j].value, radius));
    LastValueDistinct(ps, k);
  }

  /** A map with a positive raw total sums to 1. */
  lemma NearbyMapSumsToOne(ids: seq<string>, ds: seq<Option<real>>, radius: real)
    requires |ids| == |ds|
    requires Total(RawNearby(ids, ds, radius)) > 0.0
    ensures Total(NearbyMap(ids, ds, radius)) == 1.0
  {
  }

  /** With no station inside the radius the map is empty. */
  lemma NearbyMapEmpty(ids: seq<string>, ds: seq<Option<real>>, radius: real)
    requires |ids| == |ds|
    requires forall j :: 0 <= j < |ids| ==> !Included(ds[j], radius)
    ensures NearbyMap(ids, ds, radius) == []
  {
    KeptNone(ds, radius, 0);
  }

  lemma {:induction false} KeptNone(ds: seq<Option<real>>, radius: real, lo: nat)
    requires lo <= |ds|
    requires forall j :: lo <= j < |ds| ==> !Included(ds[j], radius)
    ensures Kept(ds, radius, lo) == []
    decreases |ds| - lo
  {
    if lo < |ds| {
      KeptNone(ds, radius, lo + 1);
    }
  }
}

=== FILE: ranges.dfy ===
/** Integer ranges as `range(start, stop, step)` and `np.arange(start, stop, step)` produce
    them when every bound and step is a whole number. */
module Ranges {

  /** `np.arange(start, stop, step)`: `start`, `start + step`, ... while strictly before `stop`. */
  function Arange(start: int, stop: int, step: int): (r: seq<int>)
    requires step != 0
    ensures forall k :: 0 <= k < |r| ==> r[k] == start + k * step
    ensures step > 0 ==> (forall k :: 0 <= k < |r| ==> r[k] < stop) && start + |r| * step >= stop
    ensures step < 0 ==> (forall k :: 0 <= k < |r| ==> r[k] > stop) && start + |r| * step <= stop
    decreases if step > 0 then stop - start else start - stop
  {
    if (step > 0 && start >= stop) || (step < 0 && start <= stop) then []
    else
      var rest := Arange(start + step, stop, step);
      var r := [start] + rest;
      MulSucc(|rest|, step);
      forall k | 1 <= k < |r| ensures r[k] == start + k * step {
        MulSucc(k - 1, step);
        assert r[k] == rest[k - 1];
      }
      r
  }

  lemma MulSucc(k: int, step: int)
    ensures (k + 1) * step == k * step + step
  {
  }

  /** `range(lo, hi + 1)`: the whole numbers from `lo` to `hi` inclusive. */
  function Inclusive(lo: int, hi: int): (r: seq<int>)
    ensures |r| == if lo <= hi then hi - lo + 1 else 0
    ensures forall k :: 0 <= k < |r| ==> r[k] == lo + k
  {
    var r := Arange(lo, hi + 1, 1);
    assert |r| == if lo <= hi then hi - lo + 1 else 0 by {
      if lo <= hi {
        assert r[|r| - 1] < hi + 1;
      }
    }
    r
  }
}

=== FILE: seqs.dfy ===
/** Boolean-mask row selection, `df[mask]`: the rows that satisfy a condition, in order. */
module Seqs {

  function Filter<T(!new)>(s: seq<T>, p: T -> bool): (r: seq<T>)
    ensures |r| <= |s|
    ensures forall k :: 0 <= k < |r| ==> p(r[k])
    ensures forall x :: x in r <==> x in s && p(x)
  {
    if |s| == 0 then []
    else
      var rest := Filter(s[1..], p);
      assert forall x :: x in s <==> x == s[0] || x in s[1..];
      if p(s[0]) then [s[0]] + rest else rest
  }

  /** A condition and its negation split the rows between them: every row lands in
      exactly one of the two selections, as often as it occurs. */
  lemma {:induction false} FilterPartition<T(!new)>(s: seq<T>, p: T -> bool, q: T -> bool)
    requires forall x :: q(x) <==> !p(x)
    ensures multiset(Filter(s, p)) + multiset(Filter(s, q)) == multiset(s)
    ensures |Filter(s, p)| + |Filter(s, q)| == |s|
  {
    if |s| > 0 {
      FilterPartition(s[1..], p, q);
      assert s == [s[0]] + s[1..];
    }
  }

  /** Selecting from a concatenation selects from each part. */
  lemma {:induction false} FilterAppend<T(!new)>(a: seq<T>, b: seq<T>, p: T -> bool)
    ensures Filter(a + b, p) == Filter(a, p) + Filter(b, p)
  {
    if |a| == 0 {
      assert a + b == b;
    } else {
      assert (a + b)[1..] == a[1..] + b;
      FilterAppend(a[1..], b, p);
    }
  }

  /** A selection that keeps every row returns the rows unchanged. */
  lemma {:induction false} FilterAll<T(!new)>(s: seq<T>, p: T -> bool)
    requires forall k :: 0 <= k < |s| ==> p(s[k])
    ensures Filter(s, p) == s
  {
    if |s| > 0 {
      FilterAll(s[1..], p);
    }
  }

  /** A slice lying inside the right operand of a concatenation is a slice of that operand. */
  lemma SliceOfRight<T>(a: seq<T>, b: seq<T>, i: nat, j: nat)
    requires |a| <= i <= j <= |a| + |b|
    ensures (a + b)[i..j] == b[i - |a| .. j - |a|]
  {
    assert forall x :: 0 <= x < j - i ==> (a + b)[i..j][x] == b[i - |a| .. j - |a|][x];
  }

  /** The left operand of a concatenation is its prefix. */
  lemma SliceOfLeft<T>(a: seq<T>, b: seq<T>)
    ensures (a + b)[..|a|] == a
  {
  }

  lemma ConcatAssoc<T>(a: seq<T>, b: seq<T>, c: seq<T>)
    ensures a + (b + c) == (a + b) + c
  {
  }

  /** The positions from `lo` on whose element satisfies `p`, in increasing order. */
  function Selected<T(!new)>(s: seq<T>, p: T -> bool, lo: nat): (ks: seq<nat>)
    requires lo <= |s|
    ensures forall k :: 0 <= k < |ks| ==> lo <= ks[k] < |s| && p(s[ks[k]])
    ensures forall a, b :: 0 <= a < b < |ks| ==> ks[a] < ks[b]
    decreases |s| - lo
  {
    if lo == |s| then []
    else if p(s[lo]) then [lo] + Selected(s, p, lo + 1)
    else Selected(s, p, lo + 1)
  }

  /** Every position from `lo` on that satisfies `p` is selected. */
  lemma {:induction false} SelectedComplete<T(!new)>(s: seq<T>, p: T -> bool, lo: nat, j: nat)
    requires lo <= j < |s| && p(s[j])
    ensures j in Selected(s, p, lo)
    decreases |s| - lo
  {
    if j > lo {
      SelectedComplete(s, p, lo + 1, j);
    }
  }

  /** The selection keeps its elements in order and as often as they occur: element `k`
      of `Filter(s[lo..], p)` is the element at the `k`-th selected position. */
  lemma {:induction false} FilterSelects<T(!new)>(s: seq<T>, p: T -> bool, lo: nat)
    requires lo <= |s|
    ensures |Filter(s[lo..], p)| == |Selected(s, p, lo)|
    ensures forall k :: 0 <= k < |Selected(s, p, lo)| ==> Filter(s[lo..], p)[k] == s[Selected(s, p, lo)[k]]
    decreases |s| - lo
  {
    if lo < |s| {
      var t := s[lo..];
      var rest := Filter(s[lo + 1..], p);
      var ks := Selected(s, p, lo + 1);
      FilterSelects(s, p, lo + 1);
      assert t[1..] == s[lo + 1..] && t[0] == s[lo];
      if p(s[lo]) {
        assert Filter(t, p) == [s[lo]] + rest;
        assert Selected(s, p, lo) == [lo] + ks;
        IndexMapCons(s, lo, rest, ks);
      } else {
        assert Filter(t, p) == rest;
      }
    }
  }

  /** An index map extended at the front by one position extends its image by that
      position's element. */
  lemma IndexMapCons<T>(s: seq<T>, lo: nat, rest: seq<T>, ks: seq<nat>)
    requires lo < |s| && |rest| == |ks|
    requires forall k :: 0 <= k < |ks| ==> ks[k] < |s| && rest[k] == s[ks[k]]
    ensures forall k :: 0 <= k < |ks| + 1 ==> ([lo] + ks)[k] < |s| && ([s[lo]] + rest)[k] == s[([lo] + ks)[k]]
  {
    forall k | 0 <= k < |ks| + 1 ensures ([lo] + ks)[k] < |s| && ([s[lo]] + rest)[k] == s[([lo] + ks)[k]] {
      if k > 0 {
        assert ([lo] + ks)[k] == ks[k - 1];
        assert ([s[lo]] + rest)[k] == rest[k - 1];
      }
    }
  }
}

=== FILE: sorting.dfy ===
/** Sorting of distinct keys, as `DataFrame.pivot` orders its index and its columns. */
module Sorting {

  /** `less` is a strict total order on `T`. */
  ghost predicate StrictTotalOrder<T(!new)>(less: (T, T) -> bool)
  {
    && (forall a :: !less(a, a))
    && (forall a, b, c :: less(a, b) && less(b, c) ==> less(a, c))
    && (forall a, b :: a == b || less(a, b) || less(b, a))
  }

  predicate StrictlySorted<T>(s: seq<T>, less: (T, T) -> bool)
  {
    forall i, j :: 0 <= i < j < |s| ==> less(s[i], s[j])
  }

  function Elems<T>(s: seq<T>): set<T>
  {
    set x | x in s
  }

  /** Insert `x` into a strictly sorted sequence, unless it is already there. */
  function InsertSorted<T(==,!new)>(x: T, s: seq<T>, less: (T, T) -> bool): (r: seq<T>)
    requires StrictTotalOrder(less)
    requires StrictlySorted(s, less)
    ensures StrictlySorted(r, less)
    ensures Elems(r) == Elems(s) + {x}
  {
    if |s| == 0 then [x]
    else if x == s[0] then s
    else if less(x, s[0]) then
      ElemsCons(x, s);
      [x] + s
    else
      var rest := InsertSorted(x, s[1..], less);
      InsertAfterHead(x, s, less, rest);
      [s[0]] + rest
  }

  /** An element after the head of `s` is inserted into the tail; the head stays first. */
  lemma InsertAfterHead<T(!new)>(x: T, s: seq<T>, less: (T, T) -> bool, rest: seq<T>)
    requires StrictTotalOrder(less) && StrictlySorted(s, less)
    requires |s| > 0 && x != s[0] && !less(x, s[0])
    requires StrictlySorted(rest, less) && Elems(rest) == Elems(s[1..]) + {x}
    ensures StrictlySorted([s[0]] + rest, less)
    ensures Elems([s[0]] + rest) == Elems(s) + {x}
  {
    assert Elems(s) == {s[0]} + Elems(s[1..]) by {
      assert s == [s[0]] + s[1..];
    }
    forall y | y in rest ensures less(s[0], y) {
      assert y in Elems(rest);
      if y != x {
        var j :| 0 <= j < |s[1..]| && s[1..][j] == y;
        assert s[j + 1] == y;
      }
    }
    var r := [s[0]] + rest;
    ElemsCons(s[0], rest);
    forall j | 1 <= j < |r| ensures r[j] in rest {
      assert r[j] == rest[j - 1];
    }
  }

  lemma ElemsCons<T>(a: T, s: seq<T>)
    ensures Elems([a] + s) == {a} + Elems(s)
  {
  }

  /** The distinct elements of `s` in increasing order. */
  function SortDistinct<T(==,!new)>(s: seq<T>, less: (T, T) -> bool): (r: seq<T>)
    requires StrictTotalOrder(less)
    ensures StrictlySorted(r, less)
    ensures Elems(r) == Elems(s)
  {
    if |s| == 0 then []
    else
      assert s == s[..|s| - 1] + [s[|s| - 1]];
      assert Elems(s) == Elems(s[..|s| - 1]) + {s[|s| - 1]};
      InsertSorted(s[|s| - 1], SortDistinct(s[..|s| - 1], less), less)
  }

  /** A strictly sorted sequence has no repeated element. */
  lemma SortedDistinct<T(!new)>(s: seq<T>, less: (T, T) -> bool, i: int, j: int)
    requires StrictTotalOrder(less)
    requires StrictlySorted(s, less)
    requires 0 <= i < |s| && 0 <= j < |s| && i != j
    ensures s[i] != s[j]
  {
  }

  lemma ElemsEmpty<T>(s: seq<T>)
    ensures |s| == 0 <==> Elems(s) == {}
  {
    if |s| > 0 {
      assert s[0] in Elems(s);
    }
  }

  /** A set has one strictly sorted arrangement: two strictly sorted sequences with the
      same elements are equal. */
  lemma {:induction false} SortedUnique<T(!new)>(a: seq<T>, b: seq<T>, less: (T, T) -> bool)
    requires StrictTotalOrder(less)
    requires StrictlySorted(a, less) && StrictlySorted(b, less)
    requires Elems(a) == Elems(b)
    ensures a == b
  {
    if |a| == 0 {
      ElemsEmpty(a);
      ElemsEmpty(b);
    } else {
      assert a[0] in Elems(b);
      assert |b| > 0;
      assert b[0] in Elems(a);
      var i :| 0 <= i < |a| && a[i] == b[0];
      var j :| 0 <= j < |b| && b[j] == a[0];
      if i > 0 || j > 0 {
        assert false;
      }
      assert a[0] == b[0];
      assert Elems(a[1..]) == Elems(b[1..]) by {
        forall x | x in Elems(a[1..]) ensures x in Elems(b[1..]) {
          var p :| 0 <= p < |a[1..]| && a[1..][p] == x;
          assert less(a[0], x);
          assert x in Elems(b);
          var q :| 0 <= q < |b| && b[q] == x;
          assert q != 0;
          assert b[1..][q - 1] == x;
        }
        forall x | x in Elems(b[1..]) ensures x in Elems(a[1..]) {
          var p :| 0 <= p < |b[1..]| && b[1..][p] == x;
          assert less(b[0], x);
          assert x in Elems(a);
          var q :| 0 <= q < |a| && a[q] == x;
          assert q != 0;
          assert a[1..][q - 1] == x;
        }
      }
      SortedUnique(a[1..], b[1..], less);
      assert a == [a[0]] + a[1..] && b == [b[0]] + b[1..];
    }
  }

  lemma IntLessIsStrictTotalOrder()
    ensures StrictTotalOrder((a: int, b: int) => a < b)
  {
  }
}

=== FILE: step0.dfy ===
/** Step 0: the GHCN monthly file decoded into one row per station and one column per
    month of each year, joined with the station coordinates. */
module Step0 {
  import opened Values
  import opened Text
  import opened Seqs
  import opened Ranges
  import opened Sorting
  import opened Tables

  // ---------------------------------------------------------------------------
  // Decoding the fixed-width records

  /** The GHCN code for a month without a value. */
  const MissingCode: int := -9999

  /** One line of the GHCN monthly file: station id, year, and the twelve monthly values
      in hundredths of a degree Celsius, as written. */
  datatype Record = Record(id: string, year: int, raw: seq<int>)

  /** `range(19, 115, 8)`: the first character of each of the twelve value fields. */
  function FieldStarts(): (r: seq<int>)
    ensures |r| == 12
    ensures forall k :: 0 <= k < 12 ==> r[k] == 19 + 8 * k
  {
    Arange(19, 115, 8)
  }

  /** `int(line[i:j])`, which raises `ValueError` on anything but an integer. */
  function IntField(line: string, i: nat, j: nat): (r: Result<int>)
    ensures r.Success? <==> ParseInt(Slice(line, i, j)).Some?
    ensures r.Success? ==> ParseInt(Slice(line, i, j)) == Some(r.value)
  {
    match ParseInt(Slice(line, i, j))
    case Some(v) => Success(v)
    case None => Failure("ValueError")
  }

  /** The twelve value fields of a line, each five characters wide. */
  function RawFields(line: string): (rs: seq<Result<int>>)
    ensures |rs| == 12
    ensures forall k :: 0 <= k < 12 ==> rs[k] == IntField(line, 19 + 8 * k, 24 + 8 * k)
  {
    var starts := FieldStarts();
    seq(12, k requires 0 <= k < 12 => IntField(line, starts[k], starts[k] + 5))
  }

  /** One non-blank line: the id is characters 0 to 10, the year characters 11 to 14, and
      the values the fields of `RawFields`; any field that is not an integer raises. */
  function DecodeLine(line: string): (r: Result<Record>)
    ensures r.Success? <==>
              IntField(line, 11, 15).Success? && forall k :: 0 <= k < 12 ==> RawFields(line)[k].Success?
    ensures r.Success? ==> r.value.id == Slice(line, 0, 11) && r.value.year == IntField(line, 11, 15).value
    ensures r.Success? ==> |r.value.raw| == 12 && forall k :: 0 <= k < 12 ==> r.value.raw[k] == RawFields(line)[k].value
  {
    var fields := Collect(RawFields(line));
    CollectFields(RawFields(line));
    match IntField(line, 11, 15)
    case Failure(e) => Failure(e)
    case Success(year) =>
      match fields
      case Failure(e) => Failure(e)
      case Success(raw) => Success(Record(Slice(line, 0, 11), year, raw))
  }

  /** All twelve values, or the first error among them. */
  lemma CollectFields(rs: seq<Result<int>>)
    requires |rs| == 12
    ensures Collect(rs).Success? <==> forall k :: 0 <= k < 12 ==> rs[k].Success?
    ensures Collect(rs).Success? ==> |Collect(rs).value| == 12 && forall k :: 0 <= k < 12 ==> Collect(rs).value[k] == rs[k].value
  {
  }

  /** `line.strip()` is not empty. */
  predicate NonBlank(line: string)
  {
    |Strip(line)| > 0
  }

  /** `f` applied in order to the elements that satisfy `p`, stopping at the first failure. */
  function CollectKept<T(!new), U>(xs: seq<T>, p: T -> bool, f: T -> Result<U>): (r: Result<seq<U>>)
    ensures r.Failure? <==> exists x :: x in xs && p(x) && f(x).Failure?
    ensures r.Success? ==> |r.value| == |Filter(xs, p)|
    ensures r.Success? ==> forall k :: 0 <= k < |r.value| ==> Success(r.value[k]) == f(Filter(xs, p)[k])
  {
    var kept := Filter(xs, p);
    var rs := seq(|kept|, k requires 0 <= k < |kept| => f(kept[k]));
    var r := Collect(rs);
    if r.Failure? then
      var k :| 0 <= k < |rs| && rs[k].Failure?;
      assert kept[k] in kept;
      r
    else
      assert forall x :: x in xs && p(x) ==> f(x).Success? by {
        forall x | x in xs && p(x) ensures f(x).Success? {
          assert x in kept;
          var k :| 0 <= k < |kept| && kept[k] == x;
          assert rs[k].Success?;
        }
      }
      r
  }

  /** When every element is kept and maps to a value, the values come out in order. */
  lemma CollectKeptAll<T(!new), U>(xs: seq<T>, p: T -> bool, f: T -> Result<U>, vs: seq<U>)
    requires |vs| == |xs|
    requires forall i :: 0 <= i < |xs| ==> p(xs[i]) && f(xs[i]) == Success(vs[i])
    ensures CollectKept(xs, p, f) == Success(vs)
  {
    FilterAll(xs, p);
    var r := CollectKept(xs, p, f);
    assert forall x :: x in xs && p(x) ==> f(x).Success? by {
      forall x | x in xs && p(x) ensures f(x).Success? {
        var i :| 0 <= i < |xs| && xs[i] == x;
      }
    }
    assert r.value == vs;
  }

  /** The loop over `file_data.split("\n")`: blank lines are skipped, every other line is
      decoded in order, and the first line that cannot be decoded raises. */
  function DecodeLines(lines: seq<string>): (r: Result<seq<Record>>)
    ensures r.Failure? <==> exists line :: line in lines && NonBlank(line) && DecodeLine(line).Failure?
    ensures r.Success? ==> |r.value| == |Filter(lines, NonBlank)|
    ensures r.Success? ==> forall k :: 0 <= k < |r.value| ==> Success(r.value[k]) == DecodeLine(Filter(lines, NonBlank)[k])
  {
    CollectKept(lines, NonBlank, DecodeLine)
  }

  /** The records of a downloaded file. */
  function ReadRecords(content: string): Result<seq<Record>>
  {
    DecodeLines(SplitOn(content, '\n'))
  }

  // ---------------------------------------------------------------------------
  // The layout the decoder reads, and the round trip

  /** `s` right-aligned in a field of `width` characters. */
  function PadLeft(s: string, width: nat): (r: string)
    requires |s| <= width
    ensures |r| == width
  {
    seq(width - |s|, _ => ' ') + s
  }

  /** Each value right-aligned in five characters. */
  function Padded(raw: seq<int>): (cells: seq<string>)
    requires forall k :: 0 <= k < |raw| ==> |IntToStr(raw[k])| <= 5
    ensures |cells| == |raw| && forall k :: 0 <= k < |raw| ==> |cells[k]| == 5
  {
    seq(|raw|, k requires 0 <= k < |raw| => PadLeft(IntToStr(raw[k]), 5))
  }

  /** The value fields of a line: each five-character value, then its three flag
      characters. */
  function Fields(cells: seq<string>, flags: seq<string>): (s: string)
    requires |cells| == |flags|
    requires forall k :: 0 <= k < |cells| ==> |cells[k]| == 5 && |flags[k]| == 3
    ensures |s| == 8 * |cells|
  {
    if |cells| == 0 then "" else cells[0] + flags[0] + Fields(cells[1..], flags[1..])
  }

  /** Whether a record fits the fixed-width layout: an 11-character id, a year of at most
      four characters and twelve values of at most five. */
  predicate Fits(r: Record)
  {
    |r.id| == 11 && |IntToStr(r.year)| <= 4 && |r.raw| == 12
    && forall k :: 0 <= k < 12 ==> |IntToStr(r.raw[k])| <= 5
  }

  /** The line a record is written as, with the element code (4 characters) and the
      flags of each value (3 characters) given. */
  function EncodeLine(r: Record, element: string, flags: seq<string>): (line: string)
    requires Fits(r) && |element| == 4 && |flags| == 12
    requires forall k :: 0 <= k < 12 ==> |flags[k]| == 3
    ensures |line| == 115
  {
    r.id + PadLeft(IntToStr(r.year), 4) + element + Fields(Padded(r.raw), flags)
  }

  /** Field `k` sits at characters `8k` to `8k + 4` of the value fields. */
  lemma {:induction false} FieldAt(cells: seq<string>, flags: seq<string>, k: nat)
    requires |cells| == |flags| && k < |cells|
    requires forall j :: 0 <= j < |cells| ==> |cells[j]| == 5 && |flags[j]| == 3
    ensures Fields(cells, flags)[8 * k .. 8 * k + 5] == cells[k]
  {
    var rest := Fields(cells[1..], flags[1..]);
    assert Fields(cells, flags) == (cells[0] + flags[0]) + rest;
    if k == 0 {
      assert Fields(cells, flags) == cells[0] + (flags[0] + rest);
      SliceOfLeft(cells[0], flags[0] + rest);
    } else {
      FieldAt(cells[1..], flags[1..], k - 1);
      SliceOfRight(cells[0] + flags[0], rest, 8 * k, 8 * k + 5);
    }
  }

  /** `int` reads back a right-aligned integer. */
  lemma ParsePadded(n: int, width: nat)
    requires |IntToStr(n)| <= width
    ensures ParseInt(PadLeft(IntToStr(n), width)) == Some(n)
  {
    var s := IntToStr(n);
    var pad := seq(width - |s|, _ => ' ');
    assert PadLeft(s, width) == pad + s;
    StripPadded(pad, s);
    ParseSignedToStr(n);
    assert ParseInt(PadLeft(s, width)) == ParseSigned(s);
  }

  /** Field `k` of a written line reads back as value `k`. */
  lemma EncodedField(r: Record, element: string, flags: seq<string>, k: nat)
    requires Fits(r) && |element| == 4 && |flags| == 12
    requires forall j :: 0 <= j < 12 ==> |flags[j]| == 3
    requires k < 12
    ensures IntField(EncodeLine(r, element, flags), 19 + 8 * k, 24 + 8 * k) == Success(r.raw[k])
  {
    var line := EncodeLine(r, element, flags);
    var cells := Padded(r.raw);
    var fields := Fields(cells, flags);
    assert line == r.id + PadLeft(IntToStr(r.year), 4) + element + fields;
    FieldAt(cells, flags, k);
    assert cells[k] == PadLeft(IntToStr(r.raw[k]), 5);
    assert line[19 + 8 * k .. 24 + 8 * k] == fields[8 * k .. 8 * k + 5];
    ParsePadded(r.raw[k], 5);
  }

  /** The id and the year of a written line read back. */
  lemma EncodedHead(r: Record, element: string, flags: seq<string>)
    requires Fits(r) && |element| == 4 && |flags| == 12
    requires forall j :: 0 <= j < 12 ==> |flags[j]| == 3
    ensures Slice(EncodeLine(r, element, flags), 0, 11) == r.id
    ensures IntField(EncodeLine(r, element, flags), 11, 15) == Success(r.year)
  {
    var line := EncodeLine(r, element, flags);
    assert line[0..11] == r.id;
    assert line[11..15] == PadLeft(IntToStr(r.year), 4);
    ParsePadded(r.year, 4);
  }

  /** Decoding a written record gives the record back, whatever the element code and the
      flags. */
  lemma DecodeEncode(r: Record, element: string, flags: seq<string>)
    requires Fits(r) && |element| == 4 && |flags| == 12
    requires forall k :: 0 <= k < 12 ==> |flags[k]| == 3
    ensures DecodeLine(EncodeLine(r, element, flags)) == Success(r)
  {
    var line := EncodeLine(r, element, flags);
    EncodedHead(r, element, flags);
    forall k | 0 <= k < 12 ensures RawFields(line)[k] == Success(r.raw[k]) {
      EncodedField(r, element, flags, k);
    }
    var d := DecodeLine(line);
    assert d.value.raw == r.raw;
  }

  /** A written line is never blank: its year has a digit. */
  lemma EncodedNonBlank(r: Record, element: string, flags: seq<string>)
    requires Fits(r) && |element| == 4 && |flags| == 12
    requires forall k :: 0 <= k < 12 ==> |flags[k]| == 3
    ensures NonBlank(EncodeLine(r, element, flags))
  {
    var line := EncodeLine(r, element, flags);
    var y := IntToStr(r.year);
    assert line[15 - 1] == y[|y| - 1];
    assert IsDigit(y[|y| - 1]) || y[|y| - 1] == '-';
    assert !IsSpace(line[14]);
  }

  /** Blank lines change nothing: decoding reads only the non-blank lines. */
  lemma BlankLinesSkipped(lines: seq<string>)
    ensures DecodeLines(lines) == DecodeLines(Filter(lines, NonBlank))
  {
    FilterAll(Filter(lines, NonBlank), NonBlank);
  }

  /** The lines of a file written record by record. */
  function EncodeAll(recs: seq<Record>, element: string, flags: seq<string>): (lines: seq<string>)
    requires forall i :: 0 <= i < |recs| ==> Fits(recs[i])
    requires |element| == 4 && |flags| == 12 && forall k :: 0 <= k < 12 ==> |flags[k]| == 3
    ensures |lines| == |recs|
  {
    seq(|recs|, i requires 0 <= i < |recs| => EncodeLine(recs[i], element, flags))
  }

  /** A written line holds no newline when its id, element code and flags hold none. */
  lemma EncodedNewlineFree(r: Record, element: string, flags: seq<string>)
    requires Fits(r) && |element| == 4 && |flags| == 12
    requires forall k :: 0 <= k < 12 ==> |flags[k]| == 3 && Free(flags[k], '\n')
    requires Free(r.id, '\n') && Free(element, '\n')
    ensures Free(EncodeLine(r, element, flags), '\n')
  {
    var cells := Padded(r.raw);
    forall k | 0 <= k < 12 ensures Free(cells[k], '\n') {
      assert cells[k] == PadLeft(IntToStr(r.raw[k]), 5);
    }
    FieldsNewlineFree(cells, flags);
  }

  lemma {:induction false} FieldsNewlineFree(cells: seq<string>, flags: seq<string>)
    requires |cells| == |flags|
    requires forall k :: 0 <= k < |cells| ==> |cells[k]| == 5 && |flags[k]| == 3
    requires forall k :: 0 <= k < |cells| ==> Free(cells[k], '\n') && Free(flags[k], '\n')
    ensures Free(Fields(cells, flags), '\n')
  {
    if |cells| > 0 {
      FieldsNewlineFree(cells[1..], flags[1..]);
    }
  }

  /** Splitting a written file at newlines gives its lines and one empty last line. */
  lemma SplitWrittenFile(recs: seq<Record>, element: string, flags: seq<string>)
    requires forall i :: 0 <= i < |recs| ==> Fits(recs[i]) && Free(recs[i].id, '\n')
    requires |element| == 4 && |flags| == 12 && Free(element, '\n')
    requires forall k :: 0 <= k < 12 ==> |flags[k]| == 3 && Free(flags[k], '\n')
    ensures var parts := EncodeAll(recs, element, flags) + [""];
            SplitOn(Join(parts, '\n'), '\n') == parts
  {
    var lines := EncodeAll(recs, element, flags);
    var parts := lines + [""];
    forall k | 0 <= k < |parts| ensures Free(parts[k], '\n') {
      if k < |lines| {
        EncodedNewlineFree(recs[k], element, flags);
      }
    }
    SplitJoin(parts, '\n');
  }

  /** Only the empty last line of a written file is blank. */
  lemma WrittenLinesNonBlank(recs: seq<Record>, element: string, flags: seq<string>)
    requires forall i :: 0 <= i < |recs| ==> Fits(recs[i])
    requires |element| == 4 && |flags| == 12
    requires forall k :: 0 <= k < 12 ==> |flags[k]| == 3
    ensures Filter(EncodeAll(recs, element, flags) + [""], NonBlank) == EncodeAll(recs, element, flags)
  {
    var lines := EncodeAll(recs, element, flags);
    FilterAppend(lines, [""], NonBlank);
    forall i | 0 <= i < |lines| ensures NonBlank(lines[i]) {
      EncodedNonBlank(recs[i], element, flags);
    }
    FilterAll(lines, NonBlank);
    assert Filter([""], NonBlank) == [];
  }

  /** Written lines, none of them blank, decode to their records. */
  lemma DecodeWrittenLines(recs: seq<Record>, element: string, flags: seq<string>)
    requires forall i :: 0 <= i < |recs| ==> Fits(recs[i])
    requires |element| == 4 && |flags| == 12
    requires forall k :: 0 <= k < 12 ==> |flags[k]| == 3
    ensures DecodeLines(EncodeAll(recs, element, flags)) == Success(recs)
  {
    var lines := EncodeAll(recs, element, flags);
    forall i | 0 <= i < |lines| ensures NonBlank(lines[i]) && DecodeLine(lines[i]) == Success(recs[i]) {
      EncodedNonBlank(recs[i], element, flags);
      DecodeEncode(recs[i], element, flags);
    }
    CollectKeptAll(lines, NonBlank, DecodeLine, recs);
  }

  /** A file of written records, one per line and ending with a newline, reads back as
      exactly those records. */
  lemma ReadWrittenFile(recs: seq<Record>, element: string, flags: seq<string>)
    requires forall i :: 0 <= i < |recs| ==> Fits(recs[i]) && Free(recs[i].id, '\n')
    requires |element| == 4 && |flags| == 12 && Free(element, '\n')
    requires forall k :: 0 <= k < 12 ==> |flags[k]| == 3 && Free(flags[k], '\n')
    ensures ReadRecords(Join(EncodeAll(recs, element, flags) + [""], '\n')) == Success(recs)
  {
    var parts := EncodeAll(recs, element, flags) + [""];
    SplitWrittenFile(recs, element, flags);
    BlankLinesSkipped(parts);
    WrittenLinesNonBlank(recs, element, flags);
    DecodeWrittenLines(recs, element, flags);
  }

  // ---------------------------------------------------------------------------
  // Column order: `pivot` lays the columns out month by month, and the stable sort on
  // the year of each column name turns that into year by year

  /** Python's `int(x.split("_")[1])` recovers the year of a column name. */
  lemma SortKeyOfName(c: Col)
    ensures |SplitOn(ColumnName(c), '_')| == 2
    ensures ParseInt(SplitOn(ColumnName(c), '_')[1]) == Some(c.year)
  {
    SplitColumnName(c);
    ParseIntToStr(c.year);
  }

  /** The columns of year `y`, in their order in `cs`. */
  function OfYear(cs: seq<Col>, y: int): (r: seq<Col>)
    ensures |r| <= |cs|
  {
    if |cs| == 0 then [] else (if cs[0].year == y then [cs[0]] else []) + OfYear(cs[1..], y)
  }

  /** `OfYear` selects exactly the columns of year `y`. */
  lemma {:induction false} OfYearMembers(cs: seq<Col>, y: int)
    ensures forall x :: x in OfYear(cs, y) <==> x in cs && x.year == y
  {
    if |cs| > 0 {
      OfYearMembers(cs[1..], y);
      assert cs == [cs[0]] + cs[1..];
    }
  }

  lemma {:induction false} OfYearAppend(a: seq<Col>, b: seq<Col>, y: int)
    ensures OfYear(a + b, y) == OfYear(a, y) + OfYear(b, y)
  {
    if |a| > 0 {
      OfYearAppend(a[1..], b, y);
      assert (a + b)[1..] == a[1..] + b;
    } else {
      assert a + b == b;
    }
  }

  /** Years never decrease along `cs`. */
  predicate YearOrdered(cs: seq<Col>)
  {
    forall i, j :: 0 <= i < j < |cs| ==> cs[i].year <= cs[j].year
  }

  /** `c` goes after every element whose year is not larger. */
  function InsertByYear(c: Col, s: seq<Col>): (r: seq<Col>)
    ensures multiset(r) == multiset(s) + multiset{c}
  {
    if |s| == 0 then [c]
    else if c.year < s[0].year then [c] + s
    else
      assert s == [s[0]] + s[1..];
      [s[0]] + InsertByYear(c, s[1..])
  }

  lemma {:induction false} InsertByYearOrdered(c: Col, s: seq<Col>)
    requires YearOrdered(s)
    ensures YearOrdered(InsertByYear(c, s))
  {
    var r := InsertByYear(c, s);
    if |s| > 0 && c.year >= s[0].year {
      var rest := InsertByYear(c, s[1..]);
      InsertByYearOrdered(c, s[1..]);
      assert r == [s[0]] + rest;
      forall j | 1 <= j < |r| ensures s[0].year <= r[j].year {
        var x := rest[j - 1];
        assert x in multiset(rest);
        if x != c {
          assert x in multiset(s[1..]);
          var i :| 0 <= i < |s[1..]| && s[1..][i] == x;
          assert s[i + 1] == x;
        }
      }
    }
  }

  /** A year with no column in `s` has none in `OfYear`. */
  lemma OfYearAbsent(s: seq<Col>, y: int)
    requires forall i :: 0 <= i < |s| ==> s[i].year != y
    ensures OfYear(s, y) == []
  {
    OfYearNone(s, y);
  }

  /** Inserting `c` adds it at the end of its year and leaves the other years alone. */
  lemma {:induction false} InsertByYearOfYear(c: Col, s: seq<Col>, y: int)
    requires YearOrdered(s)
    ensures OfYear(InsertByYear(c, s), y) == OfYear(s, y) + (if c.year == y then [c] else [])
  {
    if |s| == 0 {
      assert InsertByYear(c, s) == [c];
    } else if c.year < s[0].year {
      InsertInFront(c, s, y);
    } else {
      InsertByYearOfYear(c, s[1..], y);
      InsertLater(c, s, y);
    }
  }

  /** A column earlier than every column goes first, and its year has no other column. */
  lemma InsertInFront(c: Col, s: seq<Col>, y: int)
    requires YearOrdered(s) && |s| > 0 && c.year < s[0].year
    ensures OfYear(InsertByYear(c, s), y) == OfYear(s, y) + (if c.year == y then [c] else [])
  {
    var r := InsertByYear(c, s);
    assert r[1..] == s;
    if c.year == y {
      OfYearAbsent(s, y);
    }
  }

  /** A column not earlier than the first goes after it. */
  lemma InsertLater(c: Col, s: seq<Col>, y: int)
    requires |s| > 0 && c.year >= s[0].year
    requires OfYear(InsertByYear(c, s[1..]), y) == OfYear(s[1..], y) + (if c.year == y then [c] else [])
    ensures OfYear(InsertByYear(c, s), y) == OfYear(s, y) + (if c.year == y then [c] else [])
  {
    var h := if s[0].year == y then [s[0]] else [];
    var r := InsertByYear(c, s);
    assert r[1..] == InsertByYear(c, s[1..]);
    ConcatAssoc(h, OfYear(s[1..], y), if c.year == y then [c] else []);
  }

  /** `sorted(cs, key=year)`, an insertion sort from the front. The result is ordered by
      year, a permutation of `cs`, and stable: the columns of each year keep their order. */
  function SortByYear(cs: seq<Col>): (r: seq<Col>)
    ensures YearOrdered(r)
    ensures multiset(r) == multiset(cs)
    ensures forall y :: OfYear(r, y) == OfYear(cs, y)
  {
    if |cs| == 0 then []
    else
      var init, last := cs[..|cs| - 1], cs[|cs| - 1];
      var sorted := SortByYear(init);
      InsertByYearOrdered(last, sorted);
      assert cs == init + [last];
      assert forall y :: OfYear(InsertByYear(last, sorted), y) == OfYear(cs, y) by {
        forall y ensures OfYear(InsertByYear(last, sorted), y) == OfYear(cs, y) {
          InsertByYearOfYear(last, sorted, y);
          OfYearAppend(init, [last], y);
        }
      }
      InsertByYear(last, sorted)
  }

  /** The first column of an ordered arrangement has the smallest year. */
  lemma FirstYearSmallest(a: seq<Col>, x: Col)
    requires YearOrdered(a) && x in a
    ensures a[0].year <= x.year
  {
    var i :| 0 <= i < |a| && a[i] == x;
  }

  /** Two ordered arrangements with the same columns for each year start with the same
      column. */
  lemma SameHead(a: seq<Col>, b: seq<Col>)
    requires YearOrdered(a) && YearOrdered(b) && |a| > 0 && |b| > 0
    requires forall y :: OfYear(a, y) == OfYear(b, y)
    ensures a[0] == b[0]
  {
    var ka, kb := a[0].year, b[0].year;
    OfYearHead(a);
    OfYearHead(b);
    OfYearMembers(a, kb);
    OfYearMembers(b, ka);
    FirstYearSmallest(a, b[0]);
    FirstYearSmallest(b, a[0]);
    assert OfYear(a, ka)[0] == a[0];
    assert OfYear(b, ka)[0] == b[0];
  }

  lemma OfYearHead(s: seq<Col>)
    requires |s| > 0
    ensures s[0] in OfYear(s, s[0].year)
  {
  }

  /** Dropping a shared first column keeps the per-year selections equal. */
  lemma OfYearTail(a: seq<Col>, b: seq<Col>, y: int)
    requires |a| > 0 && |b| > 0 && a[0] == b[0]
    requires OfYear(a, y) == OfYear(b, y)
    ensures OfYear(a[1..], y) == OfYear(b[1..], y)
  {
    var h := if a[0].year == y then [a[0]] else [];
    assert OfYear(a, y) == h + OfYear(a[1..], y);
    assert OfYear(b, y) == h + OfYear(b[1..], y);
    assert OfYear(a[1..], y) == (h + OfYear(a[1..], y))[|h|..];
    assert OfYear(b[1..], y) == (h + OfYear(b[1..], y))[|h|..];
  }

  /** An ordered arrangement is fixed by the order within each year. */
  lemma {:induction false} OrderedByYearUnique(a: seq<Col>, b: seq<Col>)
    requires YearOrdered(a) && YearOrdered(b)
    requires forall y :: OfYear(a, y) == OfYear(b, y)
    ensures a == b
    decreases |a|
  {
    if |a| > 0 {
      OfYearHead(a);
    }
    if |b| > 0 {
      OfYearHead(b);
    }
    if |a| > 0 && |b| > 0 {
      SameHead(a, b);
      forall y ensures OfYear(a[1..], y) == OfYear(b[1..], y) {
        OfYearTail(a, b, y);
      }
      OrderedByYearUnique(a[1..], b[1..]);
      assert a == [a[0]] + a[1..] && b == [b[0]] + b[1..];
    }
  }

  /** Strict order of years. */
  predicate YearLess(a: int, b: int)
  {
    a < b
  }

  lemma YearLessIsStrictTotalOrder()
    ensures StrictTotalOrder(YearLess)
  {
  }

  /** Month `m` of every year, in year order: one block of the pivoted columns. */
  function MonthRow(years: seq<int>, m: int): (r: seq<Col>)
    ensures |r| == |years|
    ensures forall i :: 0 <= i < |years| ==> r[i] == Col(m, years[i])
  {
    if |years| == 0 then [] else [Col(m, years[0])] + MonthRow(years[1..], m)
  }

  /** Months `m` to 12, each with every year: the layout `pivot` gives its columns, with the
      value columns "1" to "12" outside and the sorted years inside. */
  function MonthMajor(years: seq<int>, m: int): (r: seq<Col>)
    requires 1 <= m <= 13
    ensures |r| == (13 - m) * |years|
    decreases 13 - m
  {
    if m == 13 then [] else MonthRow(years, m) + MonthMajor(years, m + 1)
  }

  function PivotColumns(years: seq<int>): (r: seq<Col>)
    ensures |r| == 12 * |years|
  {
    MonthMajor(years, 1)
  }

  /** Months `m` to 12 of year `y`. */
  function MonthsFrom(m: int, y: int): (r: seq<Col>)
    requires 1 <= m <= 13
    ensures |r| == 13 - m
    ensures forall i :: 0 <= i < |r| ==> r[i] == Col(m + i, y)
    decreases 13 - m
  {
    if m == 13 then [] else [Col(m, y)] + MonthsFrom(m + 1, y)
  }

  lemma {:induction false} OfYearOfMonthRow(years: seq<int>, m: int, y: int)
    requires StrictlySorted(years, YearLess)
    ensures OfYear(MonthRow(years, m), y) == if y in years then [Col(m, y)] else []
  {
    if |years| > 0 {
      var r := MonthRow(years, m);
      OfYearOfMonthRow(years[1..], m, y);
      assert r[1..] == MonthRow(years[1..], m);
      assert y in years <==> y == years[0] || y in years[1..];
      if y == years[0] {
        assert y !in years[1..];
      }
    }
  }

  lemma {:induction false} OfYearOfMonthMajor(years: seq<int>, m: int, y: int)
    requires StrictlySorted(years, YearLess) && 1 <= m <= 13
    ensures OfYear(MonthMajor(years, m), y) == if y in years then MonthsFrom(m, y) else []
    decreases 13 - m
  {
    if m < 13 {
      OfYearOfMonthMajor(years, m + 1, y);
      OfYearOfMonthRow(years, m, y);
      OfYearAppend(MonthRow(years, m), MonthMajor(years, m + 1), y);
    }
  }

  lemma {:induction false} OfYearOfYearColumns(years: seq<int>, y: int)
    requires StrictlySorted(years, YearLess)
    ensures OfYear(YearColumns(years), y) == if y in years then MonthsOf(y) else []
  {
    if |years| > 0 {
      var rest := YearColumns(years[1..]);
      OfYearOfYearColumns(years[1..], y);
      assert YearColumns(years) == MonthsOf(years[0]) + rest;
      OfYearAppend(MonthsOf(years[0]), rest, y);
      OfYearOfMonths(years[0], y);
      assert y in years <==> y == years[0] || y in years[1..];
      if y == years[0] {
        assert y !in years[1..];
      }
    }
  }

  lemma OfYearOfMonths(x: int, y: int)
    ensures OfYear(MonthsOf(x), y) == if x == y then MonthsOf(y) else []
  {
    var cs := MonthsOf(x);
    if x == y {
      OfYearAll(cs, y);
    } else {
      OfYearNone(cs, y);
    }
  }

  lemma {:induction false} OfYearAll(cs: seq<Col>, y: int)
    requires forall i :: 0 <= i < |cs| ==> cs[i].year == y
    ensures OfYear(cs, y) == cs
  {
    if |cs| > 0 {
      OfYearAll(cs[1..], y);
      assert cs == [cs[0]] + cs[1..];
    }
  }

  lemma {:induction false} OfYearNone(cs: seq<Col>, y: int)
    requires forall i :: 0 <= i < |cs| ==> cs[i].year != y
    ensures OfYear(cs, y) == []
  {
    if |cs| > 0 {
      OfYearNone(cs[1..], y);
    }
  }

  lemma {:induction false} YearColumnsOrdered(years: seq<int>)
    requires StrictlySorted(years, YearLess)
    ensures YearOrdered(YearColumns(years))
  {
    var cs := YearColumns(years);
    forall i, j | 0 <= i < j < |cs| ensures cs[i].year <= cs[j].year {
      assert cs[i].year == years[i / 12] && cs[j].year == years[j / 12];
      assert i / 12 <= j / 12;
      if i / 12 < j / 12 {
        assert YearLess(years[i / 12], years[j / 12]);
      }
    }
  }

  /** Sorting the pivoted columns by year gives the year-major layout every later step
      expects: each year in ascending order, with its months 1 to 12. */
  lemma PivotColumnsSorted(years: seq<int>)
    requires StrictlySorted(years, YearLess)
    ensures SortByYear(PivotColumns(years)) == YearColumns(years)
  {
    var a := SortByYear(PivotColumns(years));
    var b := YearColumns(years);
    YearColumnsOrdered(years);
    forall y ensures OfYear(a, y) == OfYear(b, y) {
      PivotOfYear(years, y);
    }
    OrderedByYearUnique(a, b);
  }

  /** Each year has the same columns, in the same order, in both layouts. */
  lemma PivotOfYear(years: seq<int>, y: int)
    requires StrictlySorted(years, YearLess)
    ensures OfYear(PivotColumns(years), y) == OfYear(YearColumns(years), y)
  {
    OfYearOfMonthMajor(years, 1, y);
    OfYearOfYearColumns(years, y);
    assert MonthsFrom(1, y) == MonthsOf(y);
  }

  // ---------------------------------------------------------------------------
  // Values: the missing code and the conversion to degrees Celsius

  /** `replace(-9999, NaN)` then `divide(100)` on one monthly value. */
  function Celsius(v: int): (x: Option<real>)
    ensures x.None? <==> v == MissingCode
    ensures x.Some? ==> x.value * 100.0 == v as real
  {
    if v == MissingCode then None else Some(v as real / 100.0)
  }

  function Pow10(n: nat): (p: nat)
    ensures p > 0
  {
    if n == 0 then 1 else 10 * Pow10(n - 1)
  }

  lemma {:induction false} DigitsValueBelow(s: string)
    requires AllDigits(s)
    ensures DigitsValue(s) < Pow10(|s|)
  {
    if |s| > 0 {
      var init := s[..|s| - 1];
      DigitsValueBelow(init);
      assert DigitsValue(init) + 1 <= Pow10(|init|);
      assert (DigitsValue(init) + 1) * 10 <= Pow10(|init|) * 10;
    }
  }

  /** `replace(-9999, NaN)` also runs over the Year column, but a four-character field can
      never hold -9999: the smallest year it can give is -999. */
  lemma DecodedYearNeverMissing(line: string)
    requires DecodeLine(line).Success?
    ensures DecodeLine(line).value.year > MissingCode
  {
    var t := Slice(line, 11, 15);
    assert |t| <= 4;
    ParseShortField(t);
  }

  /** An integer read from at most four characters is above -9999. */
  lemma ParseShortField(t: string)
    requires |t| <= 4 && ParseInt(t).Some?
    ensures ParseInt(t).value > MissingCode
  {
    var u := Strip(t);
    assert |u| <= |t|;
    ParseSignedShort(u);
  }

  lemma ParseSignedShort(u: string)
    requires |u| <= 4 && ParseSigned(u).Some?
    ensures ParseSigned(u).value > MissingCode
  {
    if u[0] == '-' {
      var body := u[1..];
      DigitsValueBelow(body);
      assert Pow10(|body|) <= 1000 by {
        assert Pow10(0) == 1 && Pow10(1) == 10 && Pow10(2) == 100 && Pow10(3) == 1000;
      }
    }
  }

  // ---------------------------------------------------------------------------
  // The year filter and the pivot

  /** `df_GHCN.loc[df_GHCN["Year"] >= start_year]`, in file order. */
  function KeptRecords(recs: seq<Record>, startYear: int): (r: seq<Record>)
    ensures forall x :: x in r <==> x in recs && x.year >= startYear
    ensures |r| <= |recs|
  {
    if |recs| == 0 then []
    else (if recs[0].year >= startYear then [recs[0]] else []) + KeptRecords(recs[1..], startYear)
  }

  /** No two records share a station and a year; `pivot` raises `ValueError` otherwise. */
  predicate UniqueKeys(recs: seq<Record>)
  {
    forall i, j :: 0 <= i < j < |recs| ==> recs[i].id != recs[j].id || recs[i].year != recs[j].year
  }

  function StationIds(recs: seq<Record>): (ids: seq<string>)
    ensures |ids| == |recs| && forall i :: 0 <= i < |recs| ==> ids[i] == recs[i].id
  {
    seq(|recs|, i requires 0 <= i < |recs| => recs[i].id)
  }

  function RecordYears(recs: seq<Record>): (ys: seq<int>)
    ensures |ys| == |recs| && forall i :: 0 <= i < |recs| ==> ys[i] == recs[i].year
  {
    seq(|recs|, i requires 0 <= i < |recs| => recs[i].year)
  }

  lemma LexLessIsStrictTotalOrder()
    ensures StrictTotalOrder(LexLess)
  {
    forall a ensures !LexLess(a, a) {
      LexLessIrreflexive(a);
    }
    forall a, b, c | LexLess(a, b) && LexLess(b, c) ensures LexLess(a, c) {
      LexLessTransitive(a, b, c);
    }
    forall a, b ensures a == b || LexLess(a, b) || LexLess(b, a) {
      LexLessTotal(a, b);
    }
  }

  /** The pivot's index: each station once, in string order. */
  function PivotIds(recs: seq<Record>): (ids: seq<string>)
    ensures StrictlySorted(ids, LexLess)
    ensures forall id :: id in ids <==> exists i :: 0 <= i < |recs| && recs[i].id == id
  {
    LexLessIsStrictTotalOrder();
    var ids := SortDistinct(StationIds(recs), LexLess);
    assert forall id :: id in ids <==> id in Elems(StationIds(recs));
    ids
  }

  /** The years of the pivot's columns: each year once, ascending. */
  function PivotYears(recs: seq<Record>): (ys: seq<int>)
    ensures StrictlySorted(ys, YearLess)
    ensures forall y :: y in ys <==> exists i :: 0 <= i < |recs| && recs[i].year == y
  {
    YearLessIsStrictTotalOrder();
    var ys := SortDistinct(RecordYears(recs), YearLess);
    assert forall y :: y in ys <==> y in Elems(RecordYears(recs));
    ys
  }

  /** The first record of station `id` for year `y`. */
  function Lookup(recs: seq<Record>, id: string, y: int): (r: Option<Record>)
    ensures r.Some? ==> r.value in recs && r.value.id == id && r.value.year == y
    ensures r.None? <==> forall i :: 0 <= i < |recs| ==> recs[i].id != id || recs[i].year != y
  {
    if |recs| == 0 then None
    else if recs[0].id == id && recs[0].year == y then Some(recs[0])
    else
      assert forall i :: 1 <= i < |recs| ==> recs[i] == recs[1..][i - 1];
      Lookup(recs[1..], id, y)
  }

  /** The value of station `id` in column `c` after the pivot: month `c.month` of its record
      for year `c.year` in degrees Celsius, or NaN when it has no such record. */
  function PivotCell(recs: seq<Record>, id: string, c: Col): Option<real>
  {
    match Lookup(recs, id, c.year)
    case None => None
    case Some(r) => if 1 <= c.month <= |r.raw| then Celsius(r.raw[c.month - 1]) else None
  }

  function PivotSeries(recs: seq<Record>, id: string, cols: seq<Col>): (xs: seq<Option<real>>)
    ensures |xs| == |cols|
    ensures forall k :: 0 <= k < |cols| ==> xs[k] == PivotCell(recs, id, cols[k])
  {
    seq(|cols|, k requires 0 <= k < |cols| => PivotCell(recs, id, cols[k]))
  }

  /** `pivot(index="Station_ID", columns="Year")`, the columns renamed "m_y" and sorted by
      year, then `reset_index`: one row per station in string order, with coordinates not yet
      attached. The columns come out year by year, months 1 to 12 within each year. */
  function PivotRecords(recs: seq<Record>): (t: Table)
    ensures t.cols == YearColumns(PivotYears(recs))
    ensures WellFormed(t) && |t.rows| == |PivotIds(recs)|
    ensures forall i :: 0 <= i < |t.rows| ==>
              && t.rows[i].id == PivotIds(recs)[i]
              && t.rows[i].lat.None? && t.rows[i].lon.None?
              && t.rows[i].series == PivotSeries(recs, t.rows[i].id, t.cols)
  {
    var ids := PivotIds(recs);
    var years := PivotYears(recs);
    var cols := SortByYear(PivotColumns(years));
    PivotColumnsSorted(years);
    Table(cols, seq(|ids|, i requires 0 <= i < |ids| => Row(ids[i], None, None, PivotSeries(recs, ids[i], cols))))
  }

  /** Each monthly value of a record lands, converted, in its station's row under the
      column of its month and year. */
  lemma PivotCellOfRecord(recs: seq<Record>, i: nat, m: int)
    requires UniqueKeys(recs) && i < |recs| && |recs[i].raw| == 12 && 1 <= m <= 12
    ensures PivotCell(recs, recs[i].id, Col(m, recs[i].year)) == Celsius(recs[i].raw[m - 1])
  {
    var r := Lookup(recs, recs[i].id, recs[i].year);
    var j :| 0 <= j < |recs| && recs[j] == r.value;
    SameKeySameRecord(recs, i, j);
  }

  lemma SameKeySameRecord(recs: seq<Record>, i: nat, j: nat)
    requires UniqueKeys(recs) && i < |recs| && j < |recs|
    requires recs[i].id == recs[j].id && recs[i].year == recs[j].year
    ensures i == j
  {
  }

  /** A station with no record for a year has NaN in every month of that year. */
  lemma PivotCellAbsent(recs: seq<Record>, id: string, c: Col)
    requires forall i :: 0 <= i < |recs| ==> recs[i].id != id || recs[i].year != c.year
    ensures PivotCell(recs, id, c).None?
  {
  }

  // ---------------------------------------------------------------------------
  // The station coordinates

  /** A row of the station metadata file: id, latitude and longitude. */
  datatype Meta = Meta(id: string, lat: Option<real>, lon: Option<real>)

  /** The metadata rows of station `id`, in file order. */
  function Matches(meta: seq<Meta>, id: string): (ms: seq<Meta>)
    ensures forall m :: m in ms <==> m in meta && m.id == id
    ensures |ms| <= |meta|
  {
    if |meta| == 0 then []
    else (if meta[0].id == id then [meta[0]] else []) + Matches(meta[1..], id)
  }

  /** One left row of the merge: a copy per matching metadata row, or the row itself with
      NaN coordinates when nothing matches. */
  function Attach(row: Row, ms: seq<Meta>): (rs: seq<Row>)
    ensures |rs| == if |ms| == 0 then 1 else |ms|
    ensures forall j :: 0 <= j < |rs| ==> rs[j].id == row.id && rs[j].series == row.series
    ensures |ms| == 0 ==> rs[0].lat.None? && rs[0].lon.None?
    ensures |ms| > 0 ==> forall j :: 0 <= j < |rs| ==> rs[j].lat == ms[j].lat && rs[j].lon == ms[j].lon
  {
    if |ms| == 0 then [Row(row.id, None, None, row.series)]
    else seq(|ms|, j requires 0 <= j < |ms| => Row(row.id, ms[j].lat, ms[j].lon, row.series))
  }

  /** Some metadata row has this id. */
  predicate HasMeta(meta: seq<Meta>, id: string)
  {
    exists m :: m in meta && m.id == id
  }

  /** A merged row carries the coordinates of a metadata row of its station, or NaN when
      the station has none. */
  predicate CoordinatesFrom(x: Row, meta: seq<Meta>)
  {
    if HasMeta(meta, x.id) then Meta(x.id, x.lat, x.lon) in meta else x.lat.None? && x.lon.None?
  }

  /** A merged row keeps the id and the values of some left row. */
  predicate FromLeft(x: Row, rows: seq<Row>)
  {
    exists i :: 0 <= i < |rows| && x.id == rows[i].id && x.series == rows[i].series
  }

  /** `pd.merge(left, meta, on="Station_ID", how="left")`: the left rows in order, each
      repeated once per matching metadata row and given its coordinates; a station without
      metadata keeps NaN coordinates. */
  function MergeLeft(rows: seq<Row>, meta: seq<Meta>): (r: seq<Row>)
    ensures |r| >= |rows|
  {
    if |rows| == 0 then []
    else Attach(rows[0], Matches(meta, rows[0].id)) + MergeLeft(rows[1..], meta)
  }

  /** Every merged row comes from a left row and takes its coordinates from the metadata,
      or NaN when the station has none. */
  lemma {:induction false} MergeLeftFrom(rows: seq<Row>, meta: seq<Meta>)
    ensures forall x :: x in MergeLeft(rows, meta) ==> FromLeft(x, rows) && CoordinatesFrom(x, meta)
  {
    if |rows| > 0 {
      var rest := MergeLeft(rows[1..], meta);
      MergeLeftFrom(rows[1..], meta);
      MergeLeftCons(rows, meta);
      AttachFrom(rows, meta);
      forall x | x in rest ensures FromLeft(x, rows) {
        assert FromLeft(x, rows[1..]);
        var i :| 0 <= i < |rows[1..]| && x.id == rows[1..][i].id && x.series == rows[1..][i].series;
        assert rows[i + 1] == rows[1..][i];
      }
    }
  }

  lemma AttachFrom(rows: seq<Row>, meta: seq<Meta>)
    requires |rows| > 0
    ensures forall x :: x in Attach(rows[0], Matches(meta, rows[0].id)) ==> FromLeft(x, rows) && CoordinatesFrom(x, meta)
  {
    var ms := Matches(meta, rows[0].id);
    var head := Attach(rows[0], ms);
    assert |ms| == 0 <==> !HasMeta(meta, rows[0].id) by {
      if |ms| > 0 {
        assert ms[0] in ms;
      }
    }
    forall x | x in head ensures FromLeft(x, rows) && CoordinatesFrom(x, meta) {
      var j :| 0 <= j < |head| && head[j] == x;
      if |ms| > 0 {
        assert ms[j] in ms;
      }
    }
  }

  lemma MergeLeftCons(rows: seq<Row>, meta: seq<Meta>)
    requires |rows| > 0
    ensures MergeLeft(rows, meta) == Attach(rows[0], Matches(meta, rows[0].id)) + MergeLeft(rows[1..], meta)
  {
  }

  /** Each station id appears once in the metadata. */
  predicate DistinctMeta(meta: seq<Meta>)
  {
    forall i, j :: 0 <= i < j < |meta| ==> meta[i].id != meta[j].id
  }

  /** With each station described once, the merge keeps one row per left row, in order. */
  lemma {:induction false} MergeLeftOnePerRow(rows: seq<Row>, meta: seq<Meta>)
    requires DistinctMeta(meta)
    ensures |MergeLeft(rows, meta)| == |rows|
    ensures forall i :: 0 <= i < |rows| ==>
              MergeLeft(rows, meta)[i].id == rows[i].id && MergeLeft(rows, meta)[i].series == rows[i].series
  {
    if |rows| > 0 {
      MergeLeftOnePerRow(rows[1..], meta);
      var ms := Matches(meta, rows[0].id);
      MatchesDistinct(meta, rows[0].id);
      var head := Attach(rows[0], ms);
      var rest := MergeLeft(rows[1..], meta);
      assert |head| == 1;
      var r := MergeLeft(rows, meta);
      MergeLeftCons(rows, meta);
      assert r == head + rest;
      forall i | 0 <= i < |rows| ensures r[i].id == rows[i].id && r[i].series == rows[i].series {
        if i > 0 {
          assert r[i] == rest[i - 1];
          assert rows[1..][i - 1] == rows[i];
        }
      }
    }
  }

  lemma {:induction false} MatchesNone(meta: seq<Meta>, id: string)
    requires forall i :: 0 <= i < |meta| ==> meta[i].id != id
    ensures Matches(meta, id) == []
  {
    if |meta| > 0 {
      MatchesNone(meta[1..], id);
    }
  }

  /** With distinct ids, a station matches at most one metadata row. */
  lemma {:induction false} MatchesDistinct(meta: seq<Meta>, id: string)
    requires DistinctMeta(meta)
    ensures |Matches(meta, id)| <= 1
  {
    if |meta| > 0 {
      MatchesDistinct(meta[1..], id);
      if meta[0].id == id {
        assert forall i :: 0 <= i < |meta[1..]| ==> meta[1..][i].id != id by {
          forall i | 0 <= i < |meta[1..]| ensures meta[1..][i].id != id {
            assert meta[1..][i] == meta[i + 1];
          }
        }
        MatchesNone(meta[1..], id);
      }
    }
  }

  // ---------------------------------------------------------------------------
  // get_GHCN_data

  /** The pivoted kept records merged with the metadata: the columns of the kept years,
      each row the series of a kept station with the coordinates of its metadata. */
  function PivotAndMerge(kept: seq<Record>, meta: seq<Meta>): (t: Table)
    ensures t.cols == YearColumns(PivotYears(kept))
    ensures WellFormed(t)
    ensures forall x :: x in t.rows ==>
              && x.id in PivotIds(kept)
              && x.series == PivotSeries(kept, x.id, t.cols)
              && CoordinatesFrom(x, meta)
  {
    var pivot := PivotRecords(kept);
    var rows := MergeLeft(pivot.rows, meta);
    MergeLeftFrom(pivot.rows, meta);
    MergedFromPivot(kept, meta);
    MergedWidths(pivot, rows, meta);
    Table(pivot.cols, rows)
  }

  /** Each merged row is the pivoted row of a kept station. */
  lemma MergedFromPivot(kept: seq<Record>, meta: seq<Meta>)
    ensures var pivot := PivotRecords(kept);
            forall x :: x in MergeLeft(pivot.rows, meta) ==>
              x.id in PivotIds(kept) && x.series == PivotSeries(kept, x.id, pivot.cols)
  {
    var pivot := PivotRecords(kept);
    MergeLeftFrom(pivot.rows, meta);
    forall x | x in MergeLeft(pivot.rows, meta)
      ensures x.id in PivotIds(kept) && x.series == PivotSeries(kept, x.id, pivot.cols)
    {
      assert FromLeft(x, pivot.rows);
      var i :| 0 <= i < |pivot.rows| && x.id == pivot.rows[i].id && x.series == pivot.rows[i].series;
    }
  }

  /** The merged rows are as wide as the pivot's columns. */
  lemma MergedWidths(pivot: Table, rows: seq<Row>, meta: seq<Meta>)
    requires WellFormed(pivot) && rows == MergeLeft(pivot.rows, meta)
    ensures WellFormed(Table(pivot.cols, rows))
  {
    MergeLeftFrom(pivot.rows, meta);
    forall i | 0 <= i < |rows| ensures |rows[i].series| == |pivot.cols| {
      assert rows[i] in rows;
      assert FromLeft(rows[i], pivot.rows);
      var j :| 0 <= j < |pivot.rows| && rows[i].id == pivot.rows[j].id && rows[i].series == pivot.rows[j].series;
    }
  }

  /** `get_GHCN_data` with the download as `status` and `content` and the metadata file read
      into `meta`. A failed download, a line that cannot be decoded (both leave the frame
      unbound) or a station listed twice for a kept year raise; otherwise the result has one
      row per kept station and merge match, the columns of the kept years, and the
      coordinates of the metadata. */
  function GetGhcnData(status: int, content: string, meta: seq<Meta>, startYear: int): (r: Result<Table>)
    ensures r.Failure? <==>
              || status != 200
              || ReadRecords(content).Failure?
              || !UniqueKeys(KeptRecords(ReadRecords(content).value, startYear))
    ensures r.Success? ==> r.value == PivotAndMerge(KeptRecords(ReadRecords(content).value, startYear), meta)
  {
    if status != 200 then Failure("UnboundLocalError")
    else
      match ReadRecords(content)
      case Failure(_) => Failure("UnboundLocalError")
      case Success(recs) =>
        var kept := KeptRecords(recs, startYear);
        if !UniqueKeys(kept) then Failure("ValueError")
        else Success(PivotAndMerge(kept, meta))
  }

  /** Every decoded record has its twelve values. */
  lemma DecodedHasTwelve(content: string, rec: Record)
    requires ReadRecords(content).Success? && rec in ReadRecords(content).value
    ensures |rec.raw| == 12
  {
    var recs := ReadRecords(content).value;
    var i :| 0 <= i < |recs| && recs[i] == rec;
    assert Success(recs[i]) == DecodeLine(Filter(SplitOn(content, '\n'), NonBlank)[i]);
  }

  /** Month `m` of year `y` is column `12 p + m - 1` of the year-major layout, `p` being the
      position of `y` among the years. */
  lemma YearColumnAt(years: seq<int>, p: nat, m: int)
    requires p < |years| && 1 <= m <= 12
    ensures 12 * p + m - 1 < |YearColumns(years)|
    ensures YearColumns(years)[12 * p + m - 1] == Col(m, years[p])
  {
    var k := 12 * p + m - 1;
    assert k / 12 == p && k % 12 == m - 1;
  }

  /** Every monthly value of every kept record reaches the table: in each row of its station,
      under the column of its month and year, converted to degrees Celsius. */
  lemma GetGhcnDataValue(status: int, content: string, meta: seq<Meta>, startYear: int,
                         rec: Record, m: int, x: Row)
    requires GetGhcnData(status, content, meta, startYear).Success?
    requires rec in ReadRecords(content).value && rec.year >= startYear && 1 <= m <= 12
    requires x in GetGhcnData(status, content, meta, startYear).value.rows && x.id == rec.id
    ensures var t := GetGhcnData(status, content, meta, startYear).value;
            exists k :: 0 <= k < |t.cols| && t.cols[k] == Col(m, rec.year) && x.series[k] == Celsius(rec.raw[m - 1])
  {
    var kept := KeptRecords(ReadRecords(content).value, startYear);
    DecodedHasTwelve(content, rec);
    assert rec in kept;
    assert GetGhcnData(status, content, meta, startYear).value == PivotAndMerge(kept, meta);
    MergedValue(kept, meta, rec, m, x);
  }

  /** The same at the level of the kept records. */
  lemma MergedValue(kept: seq<Record>, meta: seq<Meta>, rec: Record, m: int, x: Row)
    requires UniqueKeys(kept) && rec in kept && |rec.raw| == 12 && 1 <= m <= 12
    requires x in PivotAndMerge(kept, meta).rows && x.id == rec.id
    ensures var t := PivotAndMerge(kept, meta);
            exists k :: 0 <= k < |t.cols| && t.cols[k] == Col(m, rec.year) && x.series[k] == Celsius(rec.raw[m - 1])
  {
    var t := PivotAndMerge(kept, meta);
    var i :| 0 <= i < |kept| && kept[i] == rec;
    PivotCellOfRecord(kept, i, m);
    var years := PivotYears(kept);
    var p := YearPosition(kept, i);
    YearColumnAt(years, p, m);
    var k := 12 * p + m - 1;
    assert t.cols[k] == Col(m, rec.year);
    assert x.series == PivotSeries(kept, x.id, t.cols);
    assert x.series[k] == PivotCell(kept, x.id, t.cols[k]);
  }

  /** The position of a record's year among the pivot's years. */
  lemma YearPosition(recs: seq<Record>, i: nat) returns (p: nat)
    requires i < |recs|
    ensures p < |PivotYears(recs)| && PivotYears(recs)[p] == recs[i].year
  {
    assert recs[i].year in PivotYears(recs);
    p :| 0 <= p < |PivotYears(recs)| && PivotYears(recs)[p] == recs[i].year;
  }

  /** A column's year is the year of some kept record. */
  lemma ColumnOfKeptYear(recs: seq<Record>, startYear: int, k: nat)
    requires k < |YearColumns(PivotYears(KeptRecords(recs, startYear)))|
    ensures var c := YearColumns(PivotYears(KeptRecords(recs, startYear)))[k];
            c.year >= startYear && exists rec :: rec in recs && rec.year == c.year
  {
    var kept := KeptRecords(recs, startYear);
    var years := PivotYears(kept);
    assert YearColumns(years)[k].year == years[k / 12];
    assert years[k / 12] in years;
    var i :| 0 <= i < |kept| && kept[i].year == years[k / 12];
    assert kept[i] in kept;
  }

  /** Each kept record's year has all twelve of its months among the columns. */
  lemma KeptYearHasColumns(recs: seq<Record>, startYear: int, rec: Record, m: int)
    requires rec in recs && rec.year >= startYear && 1 <= m <= 12
    ensures Col(m, rec.year) in YearColumns(PivotYears(KeptRecords(recs, startYear)))
  {
    var kept := KeptRecords(recs, startYear);
    var years := PivotYears(kept);
    assert rec in kept;
    var i :| 0 <= i < |kept| && kept[i] == rec;
    assert rec.year in years;
    var p :| 0 <= p < |years| && years[p] == rec.year;
    YearColumnAt(years, p, m);
  }

  /** The columns hold exactly the months of the kept years: each column's year is at least
      `startYear` and is the year of some record, and each record from `startYear` on has all
      twelve of its months among the columns. */
  predicate ColumnsOfRecords(cols: seq<Col>, recs: seq<Record>, startYear: int)
  {
    && (forall k :: 0 <= k < |cols| ==>
          cols[k].year >= startYear && exists rec :: rec in recs && rec.year == cols[k].year)
    && (forall rec, m :: rec in recs && rec.year >= startYear && 1 <= m <= 12 ==> Col(m, rec.year) in cols)
  }

  /** Nothing before `startYear` survives, and each kept year has all twelve months. */
  lemma GetGhcnDataYears(status: int, content: string, meta: seq<Meta>, startYear: int)
    requires GetGhcnData(status, content, meta, startYear).Success?
    ensures ColumnsOfRecords(GetGhcnData(status, content, meta, startYear).value.cols, ReadRecords(content).value, startYear)
  {
    var recs := ReadRecords(content).value;
    KeptColumns(recs, startYear);
  }

  /** The same at the level of the decoded records. */
  lemma KeptColumns(recs: seq<Record>, startYear: int)
    ensures ColumnsOfRecords(YearColumns(PivotYears(KeptRecords(recs, startYear))), recs, startYear)
  {
    forall k | 0 <= k < |YearColumns(PivotYears(KeptRecords(recs, startYear)))| {
      ColumnOfKeptYear(recs, startYear, k);
    }
    forall rec, m | rec in recs && rec.year >= startYear && 1 <= m <= 12 {
      KeptYearHasColumns(recs, startYear, rec, m);
    }
  }

  /** The merge keeps every left row: each one has at least one merged copy, at index `j`. */
  lemma {:induction false} MergeLeftKeepsRows(rows: seq<Row>, meta: seq<Meta>, i: nat) returns (j: nat)
    requires i < |rows|
    ensures j < |MergeLeft(rows, meta)|
    ensures MergeLeft(rows, meta)[j].id == rows[i].id && MergeLeft(rows, meta)[j].series == rows[i].series
  {
    MergeLeftCons(rows, meta);
    var head := Attach(rows[0], Matches(meta, rows[0].id));
    if i == 0 {
      j := 0;
    } else {
      var j' := MergeLeftKeepsRows(rows[1..], meta, i - 1);
      j := |head| + j';
      assert MergeLeft(rows, meta)[j] == MergeLeft(rows[1..], meta)[j'];
      assert rows[1..][i - 1] == rows[i];
    }
  }

  /** With each station described once in the metadata, the table has exactly one row per
      kept station, in string order of the ids. */
  lemma GetGhcnDataOneRowPerStation(status: int, content: string, meta: seq<Meta>, startYear: int)
    requires GetGhcnData(status, content, meta, startYear).Success?
    requires DistinctMeta(meta)
    ensures var t := GetGhcnData(status, content, meta, startYear).value;
            var kept := KeptRecords(ReadRecords(content).value, startYear);
            |t.rows| == |PivotIds(kept)| && forall i :: 0 <= i < |t.rows| ==> t.rows[i].id == PivotIds(kept)[i]
  {
    var kept := KeptRecords(ReadRecords(content).value, startYear);
    var pivot := PivotRecords(kept);
    MergeLeftOnePerRow(pivot.rows, meta);
  }

  /** Every kept station has a row, whatever the metadata. */
  lemma GetGhcnDataEveryStation(status: int, content: string, meta: seq<Meta>, startYear: int, rec: Record)
    requires GetGhcnData(status, content, meta, startYear).Success?
    requires rec in ReadRecords(content).value && rec.year >= startYear
    ensures exists x :: x in GetGhcnData(status, content, meta, startYear).value.rows && x.id == rec.id
  {
    var kept := KeptRecords(ReadRecords(content).value, startYear);
    var pivot := PivotRecords(kept);
    assert rec in kept;
    var j :| 0 <= j < |kept| && kept[j] == rec;
    var ids := PivotIds(kept);
    assert rec.id in ids;
    var i :| 0 <= i < |ids| && ids[i] == rec.id;
    var k := MergeLeftKeepsRows(pivot.rows, meta, i);
    assert PivotAndMerge(kept, meta).rows == MergeLeft(pivot.rows, meta);
    assert MergeLeft(pivot.rows, meta)[k] in PivotAndMerge(kept, meta).rows;
  }

  /** The first column is January of the earliest kept year and the last is December of
      the latest: every kept record's year lies between the two. */
  lemma GetGhcnDataFirstLast(status: int, content: string, meta: seq<Meta>, startYear: int, rec: Record)
    requires GetGhcnData(status, content, meta, startYear).Success?
    requires rec in ReadRecords(content).value && rec.year >= startYear
    ensures var cs := GetGhcnData(status, content, meta, startYear).value.cols;
            && |cs| > 0
            && cs[0].month == 1 && cs[|cs| - 1].month == 12
            && cs[0].year <= rec.year <= cs[|cs| - 1].year
  {
    KeptColumnsEnds(ReadRecords(content).value, startYear, rec);
  }

  lemma KeptColumnsEnds(recs: seq<Record>, startYear: int, rec: Record)
    requires rec in recs && rec.year >= startYear
    ensures var cs := YearColumns(PivotYears(KeptRecords(recs, startYear)));
            && |cs| > 0
            && cs[0].month == 1 && cs[|cs| - 1].month == 12
            && cs[0].year <= rec.year <= cs[|cs| - 1].year
  {
    KeptYearListed(recs, startYear, rec);
    YearColumnsEnds(PivotYears(KeptRecords(recs, startYear)), rec.year);
  }

  /** A kept record's year is among the pivot's years. */
  lemma KeptYearListed(recs: seq<Record>, startYear: int, rec: Record)
    requires rec in recs && rec.year >= startYear
    ensures rec.year in PivotYears(KeptRecords(recs, startYear))
  {
    var kept := KeptRecords(recs, startYear);
    assert rec in kept;
    var i :| 0 <= i < |kept| && kept[i] == rec;
  }

  lemma YearColumnsEnds(years: seq<int>, y: int)
    requires StrictlySorted(years, YearLess) && y in years
    ensures var cs := YearColumns(years);
            && |cs| > 0
            && cs[0].month == 1 && cs[|cs| - 1].month == 12
            && cs[0].year <= y <= cs[|cs| - 1].year
  {
    var p :| 0 <= p < |years| && years[p] == y;
    var n := |years|;
    YearColumnAt(years, 0, 1);
    YearColumnAt(years, n - 1, 12);
    assert p > 0 ==> YearLess(years[0], years[p]);
    assert p < n - 1 ==> YearLess(years[p], years[n - 1]);
  }
}

=== FILE: step1.dfy ===
/** Step 1: removal of bad data. Stations whose coordinates fall outside the globe are
    dropped, the omission rules blank periods of named stations, and a station keeps a
    calendar month only when at least 20 of the analysis years have a value for it. */
module Step1 {
  import opened Values
  import opened Text
  import opened Seqs
  import opened Tables

  // ---------------------------------------------------------------------------
  // filter_coordinates

  /** Latitude in `[-90, 90]` and longitude in `[-180, 180]`; a NaN fails every comparison. */
  predicate ValidCoordinates(r: Row)
  {
    && r.lat.Some? && -90.0 <= r.lat.value <= 90.0
    && r.lon.Some? && -180.0 <= r.lon.value <= 180.0
  }

  predicate InvalidCoordinates(r: Row)
  {
    !ValidCoordinates(r)
  }

  /** `filter_coordinates`: the stations with valid coordinates, in their order and as
      often as they occur (row `k` of the result is the row at the `k`-th valid position),
      and the number of stations removed, rows in minus rows out. */
  function FilterCoordinates(t: Table): (r: (Table, nat))
    ensures r.0.cols == t.cols
    ensures WellFormed(t) ==> WellFormed(r.0)
    ensures forall i :: 0 <= i < |r.0.rows| ==> ValidCoordinates(r.0.rows[i])
    ensures forall x :: x in r.0.rows <==> x in t.rows && ValidCoordinates(x)
    ensures |r.0.rows| + r.1 == |t.rows|
    ensures r.1 == |Filter(t.rows, InvalidCoordinates)|
    ensures |r.0.rows| == |Selected(t.rows, ValidCoordinates, 0)|
    ensures forall k :: 0 <= k < |r.0.rows| ==> r.0.rows[k] == t.rows[Selected(t.rows, ValidCoordinates, 0)[k]]
  {
    var kept := Filter(t.rows, ValidCoordinates);
    FilterPartition(t.rows, ValidCoordinates, InvalidCoordinates);
    assert t.rows[0..] == t.rows;
    FilterSelects(t.rows, ValidCoordinates, 0);
    assert forall i :: 0 <= i < |kept| ==> kept[i] in t.rows;
    (Table(t.cols, kept), |t.rows| - |kept|)
  }

  /** Every row with valid coordinates is kept: row `j` of the input comes out as row `k`. */
  lemma FilterCoordinatesKeepsValid(t: Table, j: nat) returns (k: nat)
    requires j < |t.rows| && ValidCoordinates(t.rows[j])
    ensures k < |FilterCoordinates(t).0.rows| && Selected(t.rows, ValidCoordinates, 0)[k] == j
    ensures FilterCoordinates(t).0.rows[k] == t.rows[j]
  {
    var ks := Selected(t.rows, ValidCoordinates, 0);
    SelectedComplete(t.rows, ValidCoordinates, 0, j);
    k :| 0 <= k < |ks| && ks[k] == j;
  }

  /** Filtering a second time removes nothing and leaves the table as it is. */
  lemma FilterCoordinatesIdempotent(t: Table)
    ensures FilterCoordinates(FilterCoordinates(t).0) == (FilterCoordinates(t).0, 0)
  {
    var once := FilterCoordinates(t).0;
    FilterAll(once.rows, ValidCoordinates);
    FilterPartition(once.rows, ValidCoordinates, InvalidCoordinates);
  }

  // ---------------------------------------------------------------------------
  // filter_by_rules

  /** One line of the omission rules: a station and the period to omit. */
  datatype Rule = Rule(station: string, period: string)

  /** What a period omits: every time column, the years up to `last`, the years from
      `first` on, the single column called `name`, or nothing at all. */
  datatype Omission = Everything | Through(last: int) | From(first: int) | Month(name: string) | Nothing

  /** Reading a period. With a "-" it is "start-end": "0-9999" omits everything, "0-y" the
      years up to y, and any other start s the years from s on. Without one it is
      "year/month", naming the column "{int(month)}_{year}" with the year text as
      written. The year bound is converted inside a comprehension over the time columns,
      so a bound that is not an integer raises only when there is a time column. */
  function ParsePeriod(period: string, hasTimeColumns: bool): (r: Result<Omission>)
    ensures r.Success? && r.value.Month? ==> '-' !in period && |r.value.name| >= 2
    ensures r.Success? && r.value.Nothing? ==> !hasTimeColumns
    ensures r.Failure? ==> r.error == "ValueError" || r.error == "IndexError"
    ensures r == Failure("IndexError") <==> '-' !in period && '/' !in period
  {
    if '-' in period then
      SplitAtOccurrence(period, '-');
      var parts := SplitOn(period, '-');
      if parts[0] == "0" then
        if parts[1] == "9999" then Success(Everything)
        else YearBound(parts[1], hasTimeColumns, true)
      else YearBound(parts[0], hasTimeColumns, false)
    else
      var parts := SplitOn(period, '/');
      assert |parts| < 2 <==> '/' !in period by {
        if '/' in period {
          SplitAtOccurrence(period, '/');
        } else {
          assert Free(period, '/');
          SplitFree(period, '/');
        }
      }
      if |parts| < 2 then Failure("IndexError")
      else
        match ParseInt(parts[1])
        case Some(m) => Success(Month(IntToStr(m) + "_" + parts[0]))
        case None => Failure("ValueError")
  }

  /** The year bound of a "start-end" period, `int(text)`: the last year omitted when
      `through`, the first otherwise. A text that is not an integer raises `ValueError`
      exactly when there are time columns to compare it with. */
  function YearBound(text: string, hasTimeColumns: bool, through: bool): (r: Result<Omission>)
    ensures ParseInt(text).Some? && through ==> r == Success(Through(ParseInt(text).value))
    ensures ParseInt(text).Some? && !through ==> r == Success(From(ParseInt(text).value))
    ensures ParseInt(text).None? ==> (r.Failure? <==> hasTimeColumns)
    ensures r.Failure? ==> r.error == "ValueError"
    ensures r.Success? ==> (r.value.Through? || r.value.From? || r.value.Nothing?)
    ensures r.Success? && r.value.Nothing? ==> !hasTimeColumns
  {
    match ParseInt(text)
    case Some(y) => Success(if through then Through(y) else From(y))
    case None => if hasTimeColumns then Failure("ValueError") else Success(Nothing)
  }

  /** Whether an omission blanks column `c`: the year is not after the bound for "0-y",
      not before it for "s-e", and the name matches for "year/month". */
  predicate Blanked(o: Omission, c: Col)
  {
    match o
    case Everything => true
    case Through(y) => !(c.year > y)
    case From(y) => !(c.year < y)
    case Month(name) => ColumnName(c) == name
    case Nothing => false
  }

  // ---------------------------------------------------------------------------
  // The four kinds of period, for every year and month

  /** A period "a-b" whose pieces hold no "-" is read from its two pieces. */
  lemma DashPeriod(a: string, b: string, h: bool)
    requires Free(a, '-') && Free(b, '-')
    ensures ParsePeriod(a + "-" + b, h)
            == if a == "0" then (if b == "9999" then Success(Everything) else YearBound(b, h, true))
               else YearBound(a, h, false)
  {
    SplitPair(a, b, '-');
    assert a + ['-'] + b == a + "-" + b;
  }

  /** A period "y/m" whose pieces hold neither "/" nor "-" names column "{int(m)}_{y}". */
  lemma SlashPeriod(year: string, month: string, h: bool)
    requires Free(year, '/') && Free(month, '/') && Free(year, '-') && Free(month, '-')
    ensures ParsePeriod(year + "/" + month, h)
            == if ParseInt(month).Some? then Success(Month(IntToStr(ParseInt(month).value) + "_" + year))
               else Failure("ValueError")
  {
    SplitPair(year, month, '/');
    JoinedFree(year, month, '/', '-');
    assert year + ['/'] + month == year + "/" + month;
  }

  /** "0-9999" omits every time column. */
  lemma EverythingPeriod(h: bool)
    ensures ParsePeriod("0-9999", h) == Success(Everything)
    ensures forall c :: Blanked(ParsePeriod("0-9999", h).value, c)
  {
    assert Free("0", '-') && Free("9999", '-');
    DashPeriod("0", "9999", h);
    assert "0" + "-" + "9999" == "0-9999";
  }

  /** "0-y" for any year y other than 9999 omits the years up to and including y. */
  lemma ThroughPeriod(y: nat, h: bool)
    requires y != 9999
    ensures ParsePeriod("0-" + IntToStr(y), h) == Success(Through(y))
    ensures forall c :: Blanked(ParsePeriod("0-" + IntToStr(y), h).value, c) <==> c.year <= y
  {
    var e := IntToStr(y);
    ZeroDash(e);
    NatTextDigits(y);
    assert Free(e, '-') && Free("0", '-');
    NotText9999(y);
    DashPeriod("0", e, h);
    ParseIntToStr(y);
    assert ParsePeriod("0-" + e, h) == Success(Through(y));
  }

  /** "s-e" with a start year s other than 0 omits the years from s on, whatever the end. */
  lemma FromPeriod(st: nat, e: string, h: bool)
    requires st != 0 && Free(e, '-')
    ensures ParsePeriod(IntToStr(st) + "-" + e, h) == Success(From(st))
    ensures forall c :: Blanked(ParsePeriod(IntToStr(st) + "-" + e, h).value, c) <==> c.year >= st
  {
    var s := IntToStr(st);
    NatTextDigits(st);
    NumberTextOther(st, 0);
    assert IntToStr(0) == "0";
    DashPeriod(s, e, h);
    ParseIntToStr(st);
  }

  /** "y/m" omits the one column "{int(m)}_{y}", with the year text kept as written. */
  lemma MonthPeriod(year: string, month: string, h: bool)
    requires Free(year, '/') && Free(month, '/') && Free(year, '-') && Free(month, '-')
    requires ParseInt(month).Some?
    ensures ParsePeriod(year + "/" + month, h) == Success(Month(IntToStr(ParseInt(month).value) + "_" + year))
  {
    SlashPeriod(year, month, h);
  }

  /** With a numeric year and month, "y/m" omits the column of that month and no other. */
  lemma MonthColumnPeriod(y: nat, m: nat, h: bool)
    ensures ParsePeriod(IntToStr(y) + "/" + IntToStr(m), h) == Success(Month(ColumnName(Col(m, y))))
    ensures forall c :: Blanked(ParsePeriod(IntToStr(y) + "/" + IntToStr(m), h).value, c) <==> c == Col(m, y)
  {
    NatTextDigits(y);
    NatTextDigits(m);
    ParseIntToStr(m);
    SlashPeriod(IntToStr(y), IntToStr(m), h);
    forall c ensures Blanked(Month(ColumnName(Col(m, y))), c) <==> c == Col(m, y) {
      if ColumnName(c) == ColumnName(Col(m, y)) {
        ColumnNameInjective(c, Col(m, y));
      }
    }
  }

  /** An end year that is not an integer raises `ValueError` exactly when there are time
      columns; without any, the rule omits nothing. */
  lemma UnreadableThrough(e: string, h: bool)
    requires Free(e, '-') && e != "9999" && ParseInt(e).None?
    ensures ParsePeriod("0-" + e, h).Failure? <==> h
    ensures h ==> ParsePeriod("0-" + e, h) == Failure("ValueError")
    ensures !h ==> ParsePeriod("0-" + e, h) == Success(Nothing)
  {
    assert Free("0", '-');
    ZeroDash(e);
    DashPeriod("0", e, h);
  }

  /** Likewise for a start year other than "0" that is not an integer. */
  lemma UnreadableFrom(st: string, e: string, h: bool)
    requires Free(st, '-') && Free(e, '-') && st != "0" && ParseInt(st).None?
    ensures ParsePeriod(st + "-" + e, h).Failure? <==> h
    ensures h ==> ParsePeriod(st + "-" + e, h) == Failure("ValueError")
    ensures !h ==> ParsePeriod(st + "-" + e, h) == Success(Nothing)
  {
    DashPeriod(st, e, h);
  }

  /** A month that is not an integer raises `ValueError`, with or without time columns. */
  lemma UnreadableMonth(year: string, month: string, h: bool)
    requires Free(year, '/') && Free(month, '/') && Free(year, '-') && Free(month, '-')
    requires ParseInt(month).None?
    ensures ParsePeriod(year + "/" + month, h) == Failure("ValueError")
  {
    SlashPeriod(year, month, h);
  }

  lemma ZeroDash(e: string)
    ensures "0" + "-" + e == "0-" + e
  {
  }

  lemma NotText9999(y: int)
    requires y != 9999
    ensures IntToStr(y) != "9999"
  {
    Text9999();
    NumberTextOther(y, 9999);
  }

  lemma Text9999()
    ensures IntToStr(9999) == "9999"
  {
    assert NatToStr(9) == "9";
    assert NatToStr(99) == "99";
    assert NatToStr(999) == "999";
    assert NatToStr(9999) == "9999";
  }

  /** Number of columns an omission blanks. */
  function CountBlanked(cols: seq<Col>, o: Omission): (n: nat)
    ensures n <= |cols|
    ensures o.Everything? ==> n == |cols|
    ensures o.Nothing? ==> n == 0
  {
    if |cols| == 0 then 0 else (if Blanked(o, cols[0]) then 1 else 0) + CountBlanked(cols[1..], o)
  }

  /** The station row with the omitted columns set to missing. */
  function BlankRow(row: Row, cols: seq<Col>, o: Omission): (r: Row)
    requires |row.series| == |cols|
    ensures r.id == row.id && r.lat == row.lat && r.lon == row.lon && |r.series| == |cols|
    ensures forall k :: 0 <= k < |cols| ==> r.series[k] == if Blanked(o, cols[k]) then None else row.series[k]
  {
    Row(row.id, row.lat, row.lon,
        seq(|cols|, k requires 0 <= k < |cols| => if Blanked(o, cols[k]) then None else row.series[k]))
  }

  /** The row `.loc` adds when it is given a station the index lacks: every cell NaN. */
  function EmptyRow(station: string, cols: seq<Col>): (r: Row)
    ensures r.id == station && r.lat.None? && r.lon.None? && |r.series| == |cols|
    ensures forall k :: 0 <= k < |cols| ==> r.series[k].None?
  {
    Row(station, None, None, seq(|cols|, k => None))
  }

  /** `df_filtered.loc[station, columns] = np.nan`: every row of the station is blanked in
      the omitted columns; a station not in the index is added as an empty row. */
  function BlankStation(t: Table, station: string, o: Omission): (r: Table)
    requires WellFormed(t)
    ensures r.cols == t.cols && WellFormed(r)
    ensures |r.rows| == |t.rows| + (if station in Ids(t.rows) then 0 else 1)
    ensures forall i :: 0 <= i < |t.rows| ==>
              r.rows[i] == if t.rows[i].id == station then BlankRow(t.rows[i], t.cols, o) else t.rows[i]
    ensures station !in Ids(t.rows) ==> r.rows[|t.rows|] == EmptyRow(station, t.cols)
  {
    if station in Ids(t.rows) then
      Table(t.cols, seq(|t.rows|, i requires 0 <= i < |t.rows| =>
                          if t.rows[i].id == station then BlankRow(t.rows[i], t.cols, o) else t.rows[i]))
    else
      Table(t.cols, t.rows + [EmptyRow(station, t.cols)])
  }

  /** The data-point counter as written: a "year/month" rule adds the length of the
      column name rather than the one value it blanks. */
  function DroppedAsWritten(cols: seq<Col>, o: Omission): nat
  {
    if o.Month? then |o.name| else CountBlanked(cols, o)
  }

  /** The data-point counter as intended: a "year/month" rule adds the one value it
      blanks, any other rule the number of columns it blanks. */
  function Dropped(cols: seq<Col>, o: Omission): nat
  {
    if o.Month? then 1 else CountBlanked(cols, o)
  }

  /** The intended counter counts exactly the columns a rule blanks, a "year/month" rule
      included when its column exists and the columns are distinct. */
  lemma DroppedCountsBlanked(cols: seq<Col>, o: Omission)
    requires !o.Month? || (DistinctCols(cols) && exists c :: c in cols && ColumnName(c) == o.name)
    ensures Dropped(cols, o) == CountBlanked(cols, o)
  {
    if o.Month? {
      var c :| c in cols && ColumnName(c) == o.name;
      BlankedOnce(cols, c);
    }
  }

  /** The as-written counter never counts less than the intended one, and counts more
      exactly for a "year/month" rule, whose column name has at least two characters. */
  lemma DroppedAsWrittenAtLeast(cols: seq<Col>, o: Omission)
    requires o.Month? ==> |o.name| >= 2
    ensures Dropped(cols, o) <= DroppedAsWritten(cols, o)
    ensures Dropped(cols, o) == DroppedAsWritten(cols, o) <==> !o.Month?
  {
  }

  /** With distinct columns, a column name blanks exactly one column. */
  lemma {:induction false} BlankedOnce(cols: seq<Col>, c: Col)
    requires DistinctCols(cols) && c in cols
    ensures CountBlanked(cols, Month(ColumnName(c))) == 1
  {
    if cols[0] == c {
      assert c !in cols[1..];
      NoneBlanked(cols[1..], c);
    } else {
      if ColumnName(cols[0]) == ColumnName(c) {
        ColumnNameInjective(cols[0], c);
      }
      BlankedOnce(cols[1..], c);
    }
  }

  lemma {:induction false} NoneBlanked(cols: seq<Col>, c: Col)
    requires c !in cols
    ensures CountBlanked(cols, Month(ColumnName(c))) == 0
  {
    if |cols| > 0 {
      if ColumnName(cols[0]) == ColumnName(c) {
        ColumnNameInjective(cols[0], c);
      }
      NoneBlanked(cols[1..], c);
    }
  }

  /** Whether rule `rule` blanks column `c` of station `id`. */
  predicate RuleBlanks(rule: Rule, id: string, c: Col, hasTimeColumns: bool)
  {
    rule.station == id &&
    match ParsePeriod(rule.period, hasTimeColumns)
    case Success(o) => Blanked(o, c)
    case Failure(_) => false
  }

  /** Whether any of the rules blanks column `c` of station `id`. */
  predicate AnyRuleBlanks(rules: seq<Rule>, id: string, c: Col, hasTimeColumns: bool)
  {
    |rules| > 0 && (RuleBlanks(rules[0], id, c, hasTimeColumns) || AnyRuleBlanks(rules[1..], id, c, hasTimeColumns))
  }

  /** Every rule's period can be read. */
  predicate AllRulesRead(rules: seq<Rule>, hasTimeColumns: bool)
  {
    forall j :: 0 <= j < |rules| ==> ParsePeriod(rules[j].period, hasTimeColumns).Success?
  }

  /** All the rules can be read when the first one can and all the others can. */
  lemma AllRulesReadCons(rules: seq<Rule>, hasTimeColumns: bool)
    requires |rules| > 0
    ensures AllRulesRead(rules, hasTimeColumns) <==>
              ParsePeriod(rules[0].period, hasTimeColumns).Success? && AllRulesRead(rules[1..], hasTimeColumns)
  {
    assert forall j :: 1 <= j < |rules| ==> rules[j] == rules[1..][j - 1];
  }

  /** The count of data points removed by all the rules, as the program keeps it. */
  function TotalDropped(cols: seq<Col>, rules: seq<Rule>): nat
    requires AllRulesRead(rules, |cols| > 0)
  {
    if |rules| == 0 then 0
    else DroppedAsWritten(cols, ParsePeriod(rules[0].period, |cols| > 0).value) + TotalDropped(cols, rules[1..])
  }

  /** The same count with the intended counter. */
  function TotalDroppedCorrected(cols: seq<Col>, rules: seq<Rule>): nat
    requires AllRulesRead(rules, |cols| > 0)
  {
    if |rules| == 0 then 0
    else Dropped(cols, ParsePeriod(rules[0].period, |cols| > 0).value) + TotalDroppedCorrected(cols, rules[1..])
  }

  /** Some rule names a single "year/month" column. */
  predicate SomeMonthRule(rules: seq<Rule>, hasTimeColumns: bool)
  {
    exists j :: 0 <= j < |rules| && ParsePeriod(rules[j].period, hasTimeColumns).Success?
                && ParsePeriod(rules[j].period, hasTimeColumns).value.Month?
  }

  /** The program's total is never below the intended one, and is above it exactly when
      some rule is a "year/month" rule. */
  lemma {:induction false} TotalDroppedOvercounts(cols: seq<Col>, rules: seq<Rule>)
    requires AllRulesRead(rules, |cols| > 0)
    ensures TotalDroppedCorrected(cols, rules) <= TotalDropped(cols, rules)
    ensures TotalDroppedCorrected(cols, rules) < TotalDropped(cols, rules) <==> SomeMonthRule(rules, |cols| > 0)
  {
    var h := |cols| > 0;
    if |rules| > 0 {
      var o := ParsePeriod(rules[0].period, h).value;
      assert forall j :: 0 <= j < |rules[1..]| ==> rules[1..][j] == rules[j + 1];
      TotalDroppedOvercounts(cols, rules[1..]);
      DroppedAsWrittenAtLeast(cols, o);
      if SomeMonthRule(rules[1..], h) {
        var j :| 0 <= j < |rules[1..]| && ParsePeriod(rules[1..][j].period, h).Success?
                 && ParsePeriod(rules[1..][j].period, h).value.Month?;
        assert rules[j + 1] == rules[1..][j];
      }
      if SomeMonthRule(rules, h) && !o.Month? {
        var j :| 0 <= j < |rules| && ParsePeriod(rules[j].period, h).Success? && ParsePeriod(rules[j].period, h).value.Month?;
        assert j > 0 && rules[1..][j - 1] == rules[j];
      }
    }
  }

  /** One rule applied: the table and the number of data points the program counts. */
  function ApplyRule(t: Table, rule: Rule): (r: Result<(Table, nat)>)
    requires WellFormed(t)
    ensures r.Failure? <==> ParsePeriod(rule.period, |t.cols| > 0).Failure?
    ensures r.Success? ==>
              var o := ParsePeriod(rule.period, |t.cols| > 0).value;
              && r.value.0 == BlankStation(t, rule.station, o)
              && (o.Month? ==> r.value.1 == |o.name|)
              && (!o.Month? ==> r.value.1 == CountBlanked(t.cols, o))
  {
    match ParsePeriod(rule.period, |t.cols| > 0)
    case Failure(e) => Failure(e)
    case Success(o) => Success((BlankStation(t, rule.station, o), DroppedAsWritten(t.cols, o)))
  }

  /** `filter_by_rules`: the rules in file order; the first period that cannot be read
      raises. The count is the one the program logs, with its "year/month" overcount. The existing rows keep their place, label and coordinates, and a value
      survives exactly when no rule blanks it; a rule for a station the table lacks
      leaves an empty row behind. */
  function FilterByRules(t: Table, rules: seq<Rule>): (r: Result<(Table, nat)>)
    requires WellFormed(t)
    ensures r.Failure? <==> !AllRulesRead(rules, |t.cols| > 0)
    ensures r.Success? ==> RulesApplied(t, rules, r.value.0) && r.value.1 == TotalDropped(t.cols, rules)
    decreases |rules|
  {
    if |rules| == 0 then Success((t, 0))
    else
      match ApplyRule(t, rules[0])
      case Failure(e) => Failure(e)
      case Success((t1, n)) =>
        match FilterByRules(t1, rules[1..])
        case Failure(e) =>
          AllRulesReadCons(rules, |t.cols| > 0);
          Failure(e)
        case Success((t2, m)) =>
          AllRulesReadCons(rules, |t.cols| > 0);
          RulesAppliedStep(t, rules, t1, t2);
          Success((t2, n + m))
  }

  /** `out` is `t` after `rules`: same columns, the existing rows keep their place, label
      and coordinates, a value survives exactly when no rule blanks it, and every added
      row is empty. */
  predicate RulesApplied(t: Table, rules: seq<Rule>, out: Table)
    requires WellFormed(t)
  {
    && out.cols == t.cols && WellFormed(out) && |out.rows| >= |t.rows|
    && (forall i :: 0 <= i < |t.rows| ==>
          out.rows[i].id == t.rows[i].id && out.rows[i].lat == t.rows[i].lat && out.rows[i].lon == t.rows[i].lon)
    && (forall i, k :: 0 <= i < |t.rows| && 0 <= k < |t.cols| ==>
          out.rows[i].series[k] ==
            if AnyRuleBlanks(rules, t.rows[i].id, t.cols[k], |t.cols| > 0) then None else t.rows[i].series[k])
    && (forall i :: |t.rows| <= i < |out.rows| ==> out.rows[i] == EmptyRow(out.rows[i].id, t.cols))
  }

  /** The inductive step of `FilterByRules`: the first rule, then the rest. */
  lemma RulesAppliedStep(t: Table, rules: seq<Rule>, t1: Table, t2: Table)
    requires WellFormed(t) && |rules| > 0
    requires ParsePeriod(rules[0].period, |t.cols| > 0).Success?
    requires t1 == BlankStation(t, rules[0].station, ParsePeriod(rules[0].period, |t.cols| > 0).value)
    requires RulesApplied(t1, rules[1..], t2)
    ensures RulesApplied(t, rules, t2)
  {
    FilterByRulesStep(t, rules, t1, t2);
    FilterByRulesStepAdded(t, rules, t1, t2);
    forall i | 0 <= i < |t.rows|
      ensures t2.rows[i].id == t.rows[i].id && t2.rows[i].lat == t.rows[i].lat && t2.rows[i].lon == t.rows[i].lon
    {
      assert t1.rows[i].id == t.rows[i].id && t1.rows[i].lat == t.rows[i].lat && t1.rows[i].lon == t.rows[i].lon;
    }
  }

  /** The inductive step of `FilterByRules` for the existing rows: a value is blanked by
      the first rule or by one of the rest. */
  lemma {:induction false} FilterByRulesStep(t: Table, rules: seq<Rule>, t1: Table, t2: Table)
    requires WellFormed(t) && |rules| > 0
    requires ParsePeriod(rules[0].period, |t.cols| > 0).Success?
    requires t1 == BlankStation(t, rules[0].station, ParsePeriod(rules[0].period, |t.cols| > 0).value)
    requires t2.cols == t.cols && WellFormed(t2) && |t2.rows| >= |t1.rows|
    requires forall i, k :: 0 <= i < |t1.rows| && 0 <= k < |t.cols| ==>
               t2.rows[i].series[k] ==
                 if AnyRuleBlanks(rules[1..], t1.rows[i].id, t.cols[k], |t.cols| > 0) then None else t1.rows[i].series[k]
    ensures forall i, k :: 0 <= i < |t.rows| && 0 <= k < |t.cols| ==>
              t2.rows[i].series[k] ==
                if AnyRuleBlanks(rules, t.rows[i].id, t.cols[k], |t.cols| > 0) then None else t.rows[i].series[k]
  {
    var h := |t.cols| > 0;
    forall i, k | 0 <= i < |t.rows| && 0 <= k < |t.cols|
      ensures t2.rows[i].series[k] ==
                if AnyRuleBlanks(rules, t.rows[i].id, t.cols[k], h) then None else t.rows[i].series[k]
    {
      RuleCell(t, rules[0], i, k);
      assert t1.rows[i].id == t.rows[i].id;
    }
  }

  /** One rule on one cell: blanked when the rule names the station and omits the column. */
  lemma RuleCell(t: Table, rule: Rule, i: nat, k: nat)
    requires WellFormed(t) && i < |t.rows| && k < |t.cols|
    requires ParsePeriod(rule.period, |t.cols| > 0).Success?
    ensures var t1 := BlankStation(t, rule.station, ParsePeriod(rule.period, |t.cols| > 0).value);
            t1.rows[i].series[k] == if RuleBlanks(rule, t.rows[i].id, t.cols[k], |t.cols| > 0) then None else t.rows[i].series[k]
  {
  }

  /** The inductive step of `FilterByRules` for the added rows: each is empty. */
  lemma {:induction false} FilterByRulesStepAdded(t: Table, rules: seq<Rule>, t1: Table, t2: Table)
    requires WellFormed(t) && |rules| > 0
    requires ParsePeriod(rules[0].period, |t.cols| > 0).Success?
    requires t1 == BlankStation(t, rules[0].station, ParsePeriod(rules[0].period, |t.cols| > 0).value)
    requires t2.cols == t.cols && WellFormed(t2) && |t2.rows| >= |t1.rows|
    requires forall i, k :: 0 <= i < |t1.rows| && 0 <= k < |t.cols| ==>
               t2.rows[i].series[k] ==
                 if AnyRuleBlanks(rules[1..], t1.rows[i].id, t.cols[k], |t.cols| > 0) then None else t1.rows[i].series[k]
    requires forall i :: 0 <= i < |t1.rows| ==>
               t2.rows[i].id == t1.rows[i].id && t2.rows[i].lat == t1.rows[i].lat && t2.rows[i].lon == t1.rows[i].lon
    requires forall i :: |t1.rows| <= i < |t2.rows| ==> t2.rows[i] == EmptyRow(t2.rows[i].id, t.cols)
    ensures forall i :: |t.rows| <= i < |t2.rows| ==> t2.rows[i] == EmptyRow(t2.rows[i].id, t.cols)
  {
    forall i | |t.rows| <= i < |t2.rows| ensures t2.rows[i] == EmptyRow(t2.rows[i].id, t.cols) {
      if i < |t1.rows| {
        assert rules[0].station !in Ids(t.rows) && i == |t.rows|;
        var e := t1.rows[i];
        assert e == EmptyRow(rules[0].station, t.cols);
        forall k | 0 <= k < |t.cols| ensures t2.rows[i].series[k] == e.series[k] {
          assert e.series[k].None?;
          assert t2.rows[i].series[k] ==
                   if AnyRuleBlanks(rules[1..], t1.rows[i].id, t.cols[k], |t.cols| > 0) then None else t1.rows[i].series[k];
        }
        assert t2.rows[i].series == e.series;
      }
    }
  }

  // ---------------------------------------------------------------------------
  // filter_by_stations

  /** The value of column `c` in a station's series, when the table has that column. */
  function Cell(cols: seq<Col>, series: seq<Option<real>>, c: Col): Option<real>
    requires |series| == |cols|
  {
    match IndexOf(cols, c)
    case Some(k) => series[k]
    case None => None
  }

  /** The values of calendar month `m` over the analysis years, one per year. */
  function MonthSeries(cols: seq<Col>, series: seq<Option<real>>, m: int, start: int, end: int)
    : (xs: seq<Option<real>>)
    requires |series| == |cols|
    ensures |xs| == if start <= end then end - start + 1 else 0
    ensures forall j :: 0 <= j < |xs| ==> xs[j] == Cell(cols, series, Col(m, start + j))
  {
    seq(if start <= end then end - start + 1 else 0, j requires 0 <= j => Cell(cols, series, Col(m, start + j)))
  }

  /** The station has at least 20 values for calendar month `m` over the analysis years. */
  predicate EnoughData(cols: seq<Col>, series: seq<Option<real>>, m: int, start: int, end: int)
    requires |series| == |cols|
  {
    CountPresent(MonthSeries(cols, series, m, start, end)) >= 20
  }

  /** A station's row after the filter: its months in year-major order, each month kept
      only when it has enough data. */
  function StationRow(cols: seq<Col>, row: Row, start: int, end: int): (r: Row)
    requires |row.series| == |cols|
    ensures r.id == row.id && r.lat == row.lat && r.lon == row.lon
    ensures |r.series| == |TimeColumns(start, end)|
    ensures forall k :: 0 <= k < |r.series| ==>
              var c := TimeColumns(start, end)[k];
              r.series[k] == if EnoughData(cols, row.series, c.month, start, end) then Cell(cols, row.series, c) else None
  {
    var tc := TimeColumns(start, end);
    Row(row.id, row.lat, row.lon,
        seq(|tc|, k requires 0 <= k < |tc| =>
              if EnoughData(cols, row.series, tc[k].month, start, end) then Cell(cols, row.series, tc[k]) else None))
  }

  /** `filter_by_stations`: selecting the month columns of the analysis years raises when
      one is missing; otherwise every station keeps a calendar month with at least 20
      values and loses one with fewer, and the columns come out year-major. */
  function FilterByStations(t: Table, start: int, end: int): (r: Result<Table>)
    requires WellFormed(t)
    ensures r.Failure? <==> exists k :: 0 <= k < |TimeColumns(start, end)| && TimeColumns(start, end)[k] !in t.cols
    ensures r.Success? ==> r.value.cols == TimeColumns(start, end) && WellFormed(r.value)
    ensures r.Success? ==> |r.value.rows| == |t.rows|
    ensures r.Success? ==> forall i :: 0 <= i < |t.rows| ==> r.value.rows[i] == StationRow(t.cols, t.rows[i], start, end)
  {
    var tc := TimeColumns(start, end);
    if exists k :: 0 <= k < |tc| && tc[k] !in t.cols then Failure("KeyError")
    else Success(Table(tc, seq(|t.rows|, i requires 0 <= i < |t.rows| => StationRow(t.cols, t.rows[i], start, end))))
  }

  /** In the filtered table, the month-`m` values of a station are its original ones when
      it had enough of them, and all missing otherwise. */
  lemma StationMonthAfterFilter(cols: seq<Col>, row: Row, start: int, end: int, m: int)
    requires |row.series| == |cols| && 1 <= m <= 12
    ensures var after := StationRow(cols, row, start, end);
            MonthSeries(TimeColumns(start, end), after.series, m, start, end) ==
              if EnoughData(cols, row.series, m, start, end) then MonthSeries(cols, row.series, m, start, end)
              else seq(|MonthSeries(cols, row.series, m, start, end)|, j => None)
  {
    var xs := MonthSeries(TimeColumns(start, end), StationRow(cols, row, start, end).series, m, start, end);
    var orig := MonthSeries(cols, row.series, m, start, end);
    var enough := EnoughData(cols, row.series, m, start, end);
    assert |xs| == |orig|;
    forall j | 0 <= j < |xs|
      ensures xs[j] == if enough then orig[j] else None
    {
      FilteredMonthAt(cols, row, start, end, m, j);
    }
    if enough {
      assert xs == orig;
    } else {
      assert xs == seq(|orig|, j => None);
    }
  }

  /** Year `start + j` of month `m` in the filtered table: the original value when the
      station month had enough data, missing otherwise. */
  lemma FilteredMonthAt(cols: seq<Col>, row: Row, start: int, end: int, m: int, j: nat)
    requires |row.series| == |cols| && 1 <= m <= 12 && j < |MonthSeries(cols, row.series, m, start, end)|
    ensures var xs := MonthSeries(TimeColumns(start, end), StationRow(cols, row, start, end).series, m, start, end);
            j < |xs| && xs[j] == if EnoughData(cols, row.series, m, start, end)
                                 then MonthSeries(cols, row.series, m, start, end)[j] else None
  {
    var after := StationRow(cols, row, start, end);
    var k := 12 * j + m - 1;
    MonthOfTimeColumns(start, end, after.series, m, j);
    assert after.series[k] == if EnoughData(cols, row.series, m, start, end)
                              then MonthSeries(cols, row.series, m, start, end)[j] else None;
  }

  /** Year `start + j` of month `m` over the analysis columns is element `12 j + m - 1`. */
  lemma MonthOfTimeColumns(start: int, end: int, series: seq<Option<real>>, m: int, j: nat)
    requires |series| == |TimeColumns(start, end)| && 1 <= m <= 12 && j < end - start + 1
    ensures 12 * j + m - 1 < |series|
    ensures TimeColumns(start, end)[12 * j + m - 1] == Col(m, start + j)
    ensures j < |MonthSeries(TimeColumns(start, end), series, m, start, end)|
    ensures MonthSeries(TimeColumns(start, end), series, m, start, end)[j] == series[12 * j + m - 1]
  {
    var k := 12 * j + m - 1;
    assert 12 * (start + j - start) + m - 1 == k;
    CellOfTimeColumn(start, end, series, m, start + j);
    assert MonthSeries(TimeColumns(start, end), series, m, start, end)[j]
           == Cell(TimeColumns(start, end), series, Col(m, start + j));
  }

  /** Month `m` of year `y` of a series over the analysis columns is its element
      `12 * (y - start) + m - 1`. */
  lemma CellOfTimeColumn(start: int, end: int, series: seq<Option<real>>, m: int, y: int)
    requires |series| == |TimeColumns(start, end)| && 1 <= m <= 12 && start <= y <= end
    ensures 12 * (y - start) + m - 1 < |series|
    ensures TimeColumns(start, end)[12 * (y - start) + m - 1] == Col(m, y)
    ensures Cell(TimeColumns(start, end), series, Col(m, y)) == series[12 * (y - start) + m - 1]
  {
    IndexOfTimeColumn(start, end, m, y);
  }

  /** After the filter, every station month has at least 20 values or none at all. */
  lemma FilteredMonthsHaveEnoughOrNothing(cols: seq<Col>, row: Row, start: int, end: int, m: int)
    requires |row.series| == |cols| && 1 <= m <= 12
    ensures var after := StationRow(cols, row, start, end);
            var n := CountPresent(MonthSeries(TimeColumns(start, end), after.series, m, start, end));
            n >= 20 || n == 0
  {
    StationMonthAfterFilter(cols, row, start, end, m);
    if !EnoughData(cols, row.series, m, start, end) {
      AllMissingCount(MonthSeries(TimeColumns(start, end), StationRow(cols, row, start, end).series, m, start, end));
    }
  }

  lemma {:induction false} AllMissingCount(xs: seq<Option<real>>)
    requires forall j :: 0 <= j < |xs| ==> xs[j].None?
    ensures CountPresent(xs) == 0
  {
    if |xs| > 0 {
      AllMissingCount(xs[1..]);
    }
  }

  /** Filtering a filtered table changes nothing. */
  lemma FilterByStationsIdempotent(t: Table, start: int, end: int)
    requires WellFormed(t) && FilterByStations(t, start, end).Success?
    ensures FilterByStations(FilterByStations(t, start, end).value, start, end) == FilterByStations(t, start, end)
  {
    var once := FilterByStations(t, start, end).value;
    var tc := TimeColumns(start, end);
    assert forall k :: 0 <= k < |tc| ==> tc[k] in once.cols;
    forall i | 0 <= i < |once.rows| ensures StationRow(tc, once.rows[i], start, end) == once.rows[i] {
      StationRowFixed(t.cols, t.rows[i], start, end);
    }
    var again := FilterByStations(once, start, end).value;
    assert again.rows == once.rows;
  }

  lemma StationRowFixed(cols: seq<Col>, row: Row, start: int, end: int)
    requires |row.series| == |cols|
    ensures var after := StationRow(cols, row, start, end);
            StationRow(TimeColumns(start, end), after, start, end) == after
  {
    var tc := TimeColumns(start, end);
    var after := StationRow(cols, row, start, end);
    var again := StationRow(tc, after, start, end);
    forall k | 0 <= k < |tc| ensures again.series[k] == after.series[k] {
      var c := tc[k];
      assert 1 <= c.month <= 12 && start <= c.year <= end;
      IndexOfTimeColumn(start, end, c.month, c.year);
      StationMonthAfterFilter(cols, row, start, end, c.month);
      if !EnoughData(cols, row.series, c.month, start, end) {
        AllMissingCount(MonthSeries(tc, after.series, c.month, start, end));
      }
    }
    assert again.series == after.series;
  }

  // ---------------------------------------------------------------------------
  // step1

  /** `step1`: coordinates, then the omission rules, then the station-month filter. */
  function Step1(t: Table, rules: seq<Rule>, start: int, end: int): (r: Result<Table>)
    requires WellFormed(t)
    ensures r.Failure? <==>
              !AllRulesRead(rules, |t.cols| > 0)
              || exists k :: 0 <= k < |TimeColumns(start, end)| && TimeColumns(start, end)[k] !in t.cols
    ensures r.Success? ==> r.value.cols == TimeColumns(start, end) && WellFormed(r.value)
  {
    var coords := FilterCoordinates(t).0;
    match FilterByRules(coords, rules)
    case Failure(e) => Failure(e)
    case Success((ruled, _)) => FilterByStations(ruled, start, end)
  }

  /** The rows of the result are first the stations with valid coordinates, in input
      order, each with the label and coordinates it came in with, and then the rows added
      for rules about absent stations, which have no coordinates. */
  lemma Step1Coordinates(t: Table, rules: seq<Rule>, start: int, end: int, i: nat)
    requires WellFormed(t) && Step1(t, rules, start, end).Success?
    requires i < |Step1(t, rules, start, end).value.rows|
    ensures var row := Step1(t, rules, start, end).value.rows[i];
            var ks := Selected(t.rows, ValidCoordinates, 0);
            && (i < |ks| ==> row.id == t.rows[ks[i]].id && row.lat == t.rows[ks[i]].lat && row.lon == t.rows[ks[i]].lon)
            && (i >= |ks| ==> row.lat.None? && row.lon.None?)
            && (ValidCoordinates(row) || (row.lat.None? && row.lon.None?))
  {
    var coords := FilterCoordinates(t).0;
    var ruled := FilterByRules(coords, rules).value.0;
    var out := Step1(t, rules, start, end).value;
    assert out == FilterByStations(ruled, start, end).value;
    assert out.rows[i] == StationRow(ruled.cols, ruled.rows[i], start, end);
    if i >= |coords.rows| {
      assert ruled.rows[i] == EmptyRow(ruled.rows[i].id, coords.cols);
    } else {
      assert ValidCoordinates(coords.rows[i]);
    }
  }

  /** The data-point counter as written overcounts a "year/month" rule: "2021/9" blanks
      the one column "9_2021" but adds 6, the length of that name. */
  lemma DroppedAsWrittenOvercounts()
    ensures ParsePeriod("2021/9", true) == Success(Month(ColumnName(Col(9, 2021))))
    ensures CountBlanked([Col(9, 2021)], Month(ColumnName(Col(9, 2021)))) == 1
    ensures DroppedAsWritten([Col(9, 2021)], Month(ColumnName(Col(9, 2021)))) == 6
  {
    var c := Col(9, 2021);
    PeriodOfSeptember2021();
    YearText2021();
    var o := Month(ColumnName(c));
    assert ParsePeriod("2021/9", true).value == o;
    assert |o.name| == 6;
    BlankedOnce([c], c);
  }

  lemma PeriodOfSeptember2021()
    ensures ParsePeriod("2021/9", true) == Success(Month(IntToStr(9) + "_" + "2021"))
    ensures IntToStr(9) == "9"
  {
    assert '-' !in "2021/9";
    SplitSeptember2021();
    ParseIntToStr(9);
    assert IntToStr(9) == "9";
  }

  lemma SplitSeptember2021()
    ensures SplitOn("2021/9", '/') == ["2021", "9"]
  {
    assert Free("2021", '/') && Free("9", '/');
    assert Join(["2021", "9"], '/') == "2021/9";
    SplitJoin(["2021", "9"], '/');
  }

  lemma YearText2021()
    ensures IntToStr(2021) == "2021"
  {
    assert NatToStr(2) == "2";
    assert NatToStr(20) == "20";
    assert NatToStr(202) == "202";
    assert NatToStr(2021) == "2021";
  }
}

=== FILE: step2.dfy ===
/** Step 2: the 2x2 degree grid and, for every grid point, the normalised weights of the
    stations within the radius. */
module Step2 {
  import opened Values
  import opened Dicts
  import opened Ranges
  import opened Utilities
  import opened Nearby

  /** One grid row: its Latitude and Longitude in degrees. */
  datatype Cell = Cell(lat: real, lon: real)

  /** A grid row after `find_nearby_stations`: the cell and its Nearby_Stations dict. */
  datatype GridPoint = GridPoint(lat: real, lon: real, nearby: Dict<string, real>)

  /** `np.arange(88.0, -90.0, -2.0)`. */
  function LatValues(): seq<int>
  {
    Arange(88, -90, -2)
  }

  /** `np.arange(0.0, 360.0, 2.0)`. */
  function LonValues(): seq<int>
  {
    Arange(0, 360, 2)
  }

  /** The latitudes are 88, 86, ..., -88 and the longitudes 0, 2, ..., 358. */
  lemma AxisValues()
    ensures |LatValues()| == 89 && forall i :: 0 <= i < 89 ==> LatValues()[i] == 88 - 2 * i
    ensures |LonValues()| == 180 && forall j :: 0 <= j < 180 ==> LonValues()[j] == 2 * j
  {
    var lat := LatValues();
    var lon := LonValues();
    assert |lat| >= 89;
    assert lat[|lat| - 1] == 88 + (|lat| - 1) * -2;
    assert |lon| >= 180;
    assert lon[|lon| - 1] == (|lon| - 1) * 2;
  }

  /** `itertools.product(as, bs)`: the first factor varies slowest. */
  function Product<A, B>(xs: seq<A>, bs: seq<B>): (r: seq<(A, B)>)
    ensures |r| == |xs| * |bs|
  {
    if |xs| == 0 then []
    else
      var row := seq(|bs|, j requires 0 <= j < |bs| => (xs[0], bs[j]));
      var rest := Product(xs[1..], bs);
      assert |xs| * |bs| == |bs| + (|xs| - 1) * |bs|;
      row + rest
  }

  lemma {:induction false} ProductIndex<A, B>(xs: seq<A>, bs: seq<B>, i: nat, j: nat)
    requires i < |xs| && j < |bs|
    ensures i * |bs| + j < |Product(xs, bs)|
    ensures Product(xs, bs)[i * |bs| + j] == (xs[i], bs[j])
  {
    var b := |bs|;
    var r := Product(xs, bs);
    var rest := Product(xs[1..], bs);
    var row := seq(b, j requires 0 <= j < b => (xs[0], bs[j]));
    assert r == row + rest;
    if i > 0 {
      ProductIndex(xs[1..], bs, i - 1, j);
      MulSucc(i - 1, b);
      assert i * b + j == b + ((i - 1) * b + j);
      assert r[i * b + j] == rest[(i - 1) * b + j];
    } else {
      assert i * b + j == j;
      assert r[j] == row[j];
    }
  }

  lemma MulSucc(i: nat, b: nat)
    ensures (i + 1) * b == i * b + b
  {
  }

  /** `create_grid`: the 89 x 180 product in latitude-outer order, then the two poles. */
  function CreateGrid(): (g: seq<Cell>)
  {
    var p := Product(LatValues(), LonValues());
    seq(|p|, k requires 0 <= k < |p| => Cell(p[k].0 as real, p[k].1 as real))
      + [Cell(90.0, 0.0), Cell(-90.0, 0.0)]
  }

  /** The grid has 89 * 180 + 2 = 16022 rows: row `180 i + j` is at latitude `88 - 2 i`
      and longitude `2 j`, and the north and south poles come last. */
  lemma GridLayout()
    ensures |CreateGrid()| == 16022
    ensures forall i, j :: 0 <= i < 89 && 0 <= j < 180 ==>
              CreateGrid()[180 * i + j] == Cell((88 - 2 * i) as real, (2 * j) as real)
    ensures CreateGrid()[16020] == Cell(90.0, 0.0)
    ensures CreateGrid()[16021] == Cell(-90.0, 0.0)
  {
    GridSize();
    forall i, j | 0 <= i < 89 && 0 <= j < 180
      ensures CreateGrid()[180 * i + j] == Cell((88 - 2 * i) as real, (2 * j) as real)
    {
      GridCell(i, j);
    }
  }

  lemma GridSize()
    ensures |Product(LatValues(), LonValues())| == 16020
    ensures |CreateGrid()| == 16022
    ensures CreateGrid()[16020] == Cell(90.0, 0.0)
    ensures CreateGrid()[16021] == Cell(-90.0, 0.0)
  {
    AxisValues();
  }

  lemma GridCell(i: nat, j: nat)
    requires i < 89 && j < 180
    ensures 180 * i + j < |CreateGrid()| - 2
            && CreateGrid()[180 * i + j] == Cell((88 - 2 * i) as real, (2 * j) as real)
  {
    AxisValues();
    var k := 180 * i + j;
    ProductIndex(LatValues(), LonValues(), i, j);
    ProductAt(LatValues(), LonValues(), i, j, k);
    GridAt(k);
  }

  lemma ProductAt<A, B>(xs: seq<A>, bs: seq<B>, i: nat, j: nat, k: nat)
    requires i < |xs| && j < |bs|
    requires k == i * |bs| + j
    requires i * |bs| + j < |Product(xs, bs)| && Product(xs, bs)[i * |bs| + j] == (xs[i], bs[j])
    ensures k < |Product(xs, bs)| && Product(xs, bs)[k] == (xs[i], bs[j])
  {
  }

  /** Row `k` of the grid, before the poles, is pair `k` of the product. */
  lemma GridAt(k: nat)
    requires k < |Product(LatValues(), LonValues())|
    ensures k < |CreateGrid()| - 2
    ensures CreateGrid()[k] == Cell(Product(LatValues(), LonValues())[k].0 as real,
                                    Product(LatValues(), LonValues())[k].1 as real)
  {
  }

  /** Exactly two rows lie at latitude +-90: the two poles, both at longitude 0. */
  lemma GridPoles(k: nat)
    requires k < |CreateGrid()|
    ensures (CreateGrid()[k].lat == 90.0 || CreateGrid()[k].lat == -90.0) <==> k == 16020 || k == 16021
    ensures k == 16020 || k == 16021 ==> CreateGrid()[k].lon == 0.0
  {
    GridLayout();
    if k < 16020 {
      var i, j := k / 180, k % 180;
      assert k == 180 * i + j && 0 <= i < 89;
      assert CreateGrid()[180 * i + j] == Cell((88 - 2 * i) as real, (2 * j) as real);
    }
  }

  /** `find_nearby_stations`: row `i` of the grid gets the normalised map of the stations
      whose distance in row `i` of `distances` is within the radius. */
  method FindNearbyStations(grid: seq<Cell>, ids: seq<string>, distances: seq<seq<Option<real>>>, radius: real)
    returns (r: seq<GridPoint>)
    requires |distances| == |grid|
    requires forall i :: 0 <= i < |grid| ==> |distances[i]| == |ids|
    ensures |r| == |grid|
    ensures forall i :: 0 <= i < |grid| ==> r[i].lat == grid[i].lat && r[i].lon == grid[i].lon
    ensures forall i :: 0 <= i < |grid| ==> r[i].nearby == NearbyMap(ids, distances[i], radius)
  {
    r := [];
    var i := 0;
    while i < |grid|
      invariant 0 <= i <= |grid|
      invariant |r| == i
      invariant forall k :: 0 <= k < i ==>
                  r[k] == GridPoint(grid[k].lat, grid[k].lon, NearbyMap(ids, distances[k], radius))
    {
      r := r + [GridPoint(grid[i].lat, grid[i].lon, NearbyMap(ids, distances[i], radius))];
      i := i + 1;
    }
  }

  /** The station metadata as `collect_metadata` reads it. */
  datatype StationMeta = StationMeta(id: string, site: Site)

  function StationIds(stations: seq<StationMeta>): (ids: seq<string>)
    ensures |ids| == |stations|
    ensures forall j :: 0 <= j < |stations| ==> ids[j] == stations[j].id
  {
    seq(|stations|, j requires 0 <= j < |stations| => stations[j].id)
  }

  function StationSites(stations: seq<StationMeta>): (sites: seq<Site>)
    ensures |sites| == |stations|
    ensures forall j :: 0 <= j < |stations| ==> sites[j] == stations[j].site
  {
    seq(|stations|, j requires 0 <= j < |stations| => stations[j].site)
  }

  function GridSite(c: Cell): Site
  {
    Site(Some(c.lat), Some(c.lon))
  }

  /** Station `q` is within `nearbyRadius` of the point `p`, both coordinates known. */
  ghost predicate WithinRadius(t: Trig, p: Site, q: Site, earthRadius: real, nearbyRadius: real)
    requires ValidTrig(t)
  {
    var d := SiteDistance(t, p, q, earthRadius);
    d.Some? && nearbyRadius > 0.0 && d.value <= nearbyRadius
  }

  /** `step2`: the grid, the grid-to-station distance matrix and the weights, one map
      per grid row in grid order (16022 rows, by `GridLayout`). */
  method Step2(t: Trig, stations: seq<StationMeta>, nearbyRadius: real, earthRadius: real)
    returns (r: seq<GridPoint>)
    requires ValidTrig(t)
    ensures |r| == |CreateGrid()|
    ensures forall k :: 0 <= k < |r| ==> r[k].lat == CreateGrid()[k].lat && r[k].lon == CreateGrid()[k].lon
    ensures forall k :: 0 <= k < |r| ==>
              r[k].nearby == NearbyMap(StationIds(stations),
                                       DistanceRow(t, GridSite(CreateGrid()[k]), StationSites(stations), earthRadius),
                                       nearbyRadius)
  {
    var grid := CreateGrid();
    var gridSites := seq(|grid|, k requires 0 <= k < |grid| => GridSite(grid[k]));
    var distances := CalculateDistances(t, gridSites, StationSites(stations), earthRadius);
    r := FindNearbyStations(grid, StationIds(stations), distances, nearbyRadius);
  }

  /** A station is in the map of a point exactly when some station with its id lies
      within the radius of that point. */
  lemma NearbyKeysWithinRadius(t: Trig, p: Site, stations: seq<StationMeta>,
                               earthRadius: real, nearbyRadius: real, id: string)
    requires ValidTrig(t)
    requires earthRadius >= 0.0
    ensures id in Keys(NearbyMap(StationIds(stations), DistanceRow(t, p, StationSites(stations), earthRadius), nearbyRadius))
            <==> exists j :: 0 <= j < |stations| && stations[j].id == id
                   && WithinRadius(t, p, stations[j].site, earthRadius, nearbyRadius)
  {
    var ds := DistanceRow(t, p, StationSites(stations), earthRadius);
    NearbyMapKeys(StationIds(stations), ds, nearbyRadius, id);
    forall j | 0 <= j < |stations|
      ensures Included(ds[j], nearbyRadius) <==> WithinRadius(t, p, stations[j].site, earthRadius, nearbyRadius)
    {
      IncludedIffWithinRadius(ds[j], nearbyRadius);
    }
  }
}

=== FILE: step3.dfy ===
/** Step 3: station anomalies. Every value of column "m_y" loses the mean, over the
    baseline years, of the same station's values in calendar month `m`. */
module Step3 {
  import opened Values
  import opened Tables

  /** Every column "m_y" of the baseline years is a column of the table; otherwise
      `df[columns_to_average]` raises `KeyError`. */
  predicate HasBaseline(cols: seq<Col>, start: int, end: int)
  {
    forall m, y :: 1 <= m <= 12 && start <= y <= end ==> Col(m, y) in cols
  }

  /** Number of baseline years: `range(start, end + 1)` is empty when `start > end`. */
  function BaselineYears(start: int, end: int): nat
  {
    if start <= end then end - start + 1 else 0
  }

  /** The values of one station in month `m` of the baseline years, oldest year first. */
  function BaselineValues(cols: seq<Col>, series: seq<Option<real>>, m: int, start: int, end: int)
    : (b: seq<Option<real>>)
    requires |series| == |cols|
    requires HasBaseline(cols, start, end) && 1 <= m <= 12
    ensures |b| == BaselineYears(start, end)
    ensures forall k :: 0 <= k < |b| ==>
              Col(m, start + k) in cols && b[k] == series[IndexOf(cols, Col(m, start + k)).value]
  {
    var n := BaselineYears(start, end);
    seq(n, k requires 0 <= k < n =>
          assert Col(m, start + k) in cols;
          series[IndexOf(cols, Col(m, start + k)).value])
  }

  /** With each column named once, the baseline value of year `y` is the value of the
      column "m_y". */
  lemma BaselineValueAt(cols: seq<Col>, series: seq<Option<real>>, m: int, start: int, end: int, c: nat)
    requires |series| == |cols| && DistinctCols(cols)
    requires HasBaseline(cols, start, end) && 1 <= m <= 12
    requires c < |cols| && cols[c].month == m && start <= cols[c].year <= end
    ensures BaselineValues(cols, series, m, start, end)[cols[c].year - start] == series[c]
  {
    var k := cols[c].year - start;
    var c' := IndexOf(cols, Col(m, start + k)).value;
    assert cols[c'] == cols[c];
  }

  /** The twelve monthly means of one station, month `m` at position `m - 1`. */
  function StationAverages(cols: seq<Col>, series: seq<Option<real>>, start: int, end: int)
    : (a: seq<Option<real>>)
    requires |series| == |cols| && HasBaseline(cols, start, end)
    ensures |a| == 12
    ensures forall k :: 0 <= k < 12 ==> a[k] == MeanPresent(BaselineValues(cols, series, k + 1, start, end))
  {
    seq(12, k requires 0 <= k < 12 => MeanPresent(BaselineValues(cols, series, k + 1, start, end)))
  }

  /** `calculate_monthly_averages`: per station, the mean of the present baseline values of
      each calendar month, aligned with the table's rows. */
  function CalculateMonthlyAverages(t: Table, start: int, end: int): (r: Result<seq<seq<Option<real>>>>)
    requires WellFormed(t)
    ensures r.Failure? <==> !HasBaseline(t.cols, start, end)
    ensures r.Success? ==> |r.value| == |t.rows|
    ensures r.Success? ==> forall i :: 0 <= i < |t.rows| ==>
              r.value[i] == StationAverages(t.cols, t.rows[i].series, start, end)
  {
    if !HasBaseline(t.cols, start, end) then Failure("KeyError")
    else Success(seq(|t.rows|, i requires 0 <= i < |t.rows| =>
                       StationAverages(t.cols, t.rows[i].series, start, end)))
  }

  /** A month's average is missing exactly when the station has no present value in that
      month of the baseline years; otherwise it times the count is their sum. */
  lemma MonthlyAverageMeaning(t: Table, start: int, end: int, i: nat, m: int)
    requires WellFormed(t) && CalculateMonthlyAverages(t, start, end).Success?
    requires i < |t.rows| && 1 <= m <= 12
    ensures var a := CalculateMonthlyAverages(t, start, end).value[i][m - 1];
            var b := BaselineValues(t.cols, t.rows[i].series, m, start, end);
            && (a.None? <==> forall k :: 0 <= k < |b| ==> b[k].None?)
            && (a.Some? ==> Times(CountPresent(b), a.value) == SumPresent(b))
  {
    var a := CalculateMonthlyAverages(t, start, end).value[i][m - 1];
    var b := BaselineValues(t.cols, t.rows[i].series, m, start, end);
    assert a == MeanPresent(b);
  }

  /** Every column's month names one of the twelve averages; otherwise the lookup of
      "{month}_Average" raises `KeyError`. */
  predicate MonthsValid(cols: seq<Col>)
  {
    forall c :: 0 <= c < |cols| ==> 1 <= cols[c].month <= 12
  }

  /** The anomaly row: each value minus the average of its column's month. */
  function AnomalyRow(row: Row, cols: seq<Col>, avg: seq<Option<real>>): (r: Row)
    requires |row.series| == |cols| && |avg| == 12 && MonthsValid(cols)
    ensures r.id == row.id && r.lat == row.lat && r.lon == row.lon
    ensures |r.series| == |cols|
    ensures forall c :: 0 <= c < |cols| ==>
              var a := avg[cols[c].month - 1];
              && (r.series[c].Some? <==> row.series[c].Some? && a.Some?)
              && (r.series[c].Some? ==> r.series[c].value + a.value == row.series[c].value)
  {
    Row(row.id, row.lat, row.lon,
        seq(|cols|, c requires 0 <= c < |cols| => Sub(row.series[c], avg[cols[c].month - 1])))
  }

  /** `calculate_station_anomalies`: the table with every time column replaced by its
      anomalies; Latitude, Longitude, the rows and the columns stay as they are. */
  function CalculateStationAnomalies(t: Table, avgs: seq<seq<Option<real>>>): (r: Result<Table>)
    requires WellFormed(t) && |avgs| == |t.rows|
    requires forall i :: 0 <= i < |avgs| ==> |avgs[i]| == 12
    ensures r.Failure? <==> !MonthsValid(t.cols)
    ensures r.Success? ==> r.value.cols == t.cols && WellFormed(r.value)
    ensures r.Success? ==> |r.value.rows| == |t.rows|
    ensures r.Success? ==> forall i :: 0 <= i < |t.rows| ==> r.value.rows[i] == AnomalyRow(t.rows[i], t.cols, avgs[i])
  {
    if !MonthsValid(t.cols) then Failure("KeyError")
    else Success(Table(t.cols, seq(|t.rows|, i requires 0 <= i < |t.rows| =>
                                     AnomalyRow(t.rows[i], t.cols, avgs[i]))))
  }

  /** `step3`: the monthly averages, then the anomalies. */
  function Step3(t: Table, start: int, end: int): (r: Result<Table>)
    requires WellFormed(t)
    ensures r.Failure? <==> !HasBaseline(t.cols, start, end) || !MonthsValid(t.cols)
    ensures r.Success? ==> r.value.cols == t.cols && WellFormed(r.value) && |r.value.rows| == |t.rows|
    ensures r.Success? ==> forall i :: 0 <= i < |t.rows| ==>
              && r.value.rows[i].id == t.rows[i].id
              && r.value.rows[i].lat == t.rows[i].lat
              && r.value.rows[i].lon == t.rows[i].lon
  {
    match CalculateMonthlyAverages(t, start, end)
    case Failure(e) => Failure(e)
    case Success(avgs) => CalculateStationAnomalies(t, avgs)
  }

  /** Each cell of the result is the cell minus its month's baseline mean, missing when
      either is missing. */
  lemma Step3AnomalySub(t: Table, start: int, end: int, i: nat, c: nat)
    requires WellFormed(t) && Step3(t, start, end).Success?
    requires i < |t.rows| && c < |t.cols|
    ensures Step3(t, start, end).value.rows[i].series[c]
            == Sub(t.rows[i].series[c], MeanPresent(BaselineValues(t.cols, t.rows[i].series, t.cols[c].month, start, end)))
  {
    var avgs := CalculateMonthlyAverages(t, start, end).value;
    assert Step3(t, start, end).value.rows[i] == AnomalyRow(t.rows[i], t.cols, avgs[i]);
  }

  /** The anomaly of a cell is present exactly when the value is present and its month has
      baseline data, and it is then the value minus the baseline mean of that month. */
  lemma Step3Anomaly(t: Table, start: int, end: int, i: nat, c: nat)
    requires WellFormed(t) && Step3(t, start, end).Success?
    requires i < |t.rows| && c < |t.cols|
    ensures var x := t.rows[i].series[c];
            var b := BaselineValues(t.cols, t.rows[i].series, t.cols[c].month, start, end);
            var y := Step3(t, start, end).value.rows[i].series[c];
            && (y.Some? <==> x.Some? && CountPresent(b) > 0)
            && (y.Some? ==> y.value == x.value - MeanPresent(b).value)
  {
    var avgs := CalculateMonthlyAverages(t, start, end).value;
    var a := avgs[i][t.cols[c].month - 1];
    assert a == MeanPresent(BaselineValues(t.cols, t.rows[i].series, t.cols[c].month, start, end));
    var y := Step3(t, start, end).value.rows[i].series[c];
    assert y == AnomalyRow(t.rows[i], t.cols, avgs[i]).series[c];
  }

  /** A missing value stays missing, and a month without baseline data has all its
      anomalies missing. */
  lemma Step3Missing(t: Table, start: int, end: int, i: nat, c: nat)
    requires WellFormed(t) && Step3(t, start, end).Success?
    requires i < |t.rows| && c < |t.cols|
    requires t.rows[i].series[c].None? ||
             (forall y :: start <= y <= end ==>
                forall c' :: 0 <= c' < |t.cols| && t.cols[c'] == Col(t.cols[c].month, y) ==>
                  t.rows[i].series[c'].None?)
    ensures Step3(t, start, end).value.rows[i].series[c].None?
  {
    var b := BaselineValues(t.cols, t.rows[i].series, t.cols[c].month, start, end);
    Step3Anomaly(t, start, end, i, c);
    if t.rows[i].series[c].Some? {
      forall k | 0 <= k < |b| ensures b[k].None? {
        var c' := IndexOf(t.cols, Col(t.cols[c].month, start + k)).value;
        assert t.cols[c'] == Col(t.cols[c].month, start + k);
      }
    }
  }

  /** The baseline values of a month with baseline data, after step 3, are the original
      ones each lowered by the month's baseline mean. */
  lemma Step3BaselineAnomalies(t: Table, start: int, end: int, i: nat, m: int)
    requires WellFormed(t) && DistinctCols(t.cols) && Step3(t, start, end).Success?
    requires i < |t.rows| && 1 <= m <= 12
    requires CountPresent(BaselineValues(t.cols, t.rows[i].series, m, start, end)) > 0
    ensures var b := BaselineValues(t.cols, t.rows[i].series, m, start, end);
            BaselineValues(t.cols, Step3(t, start, end).value.rows[i].series, m, start, end)
              == SubAll(b, MeanPresent(b).value)
  {
    var out := Step3(t, start, end).value;
    var b := BaselineValues(t.cols, t.rows[i].series, m, start, end);
    var mean := MeanPresent(b).value;
    var b' := BaselineValues(t.cols, out.rows[i].series, m, start, end);
    forall k | 0 <= k < |b| ensures b'[k] == Sub(b[k], Some(mean)) {
      Step3BaselineCell(t, start, end, i, m, k);
    }
    assert b' == SubAll(b, mean);
  }

  lemma Step3BaselineCell(t: Table, start: int, end: int, i: nat, m: int, k: nat)
    requires WellFormed(t) && DistinctCols(t.cols) && Step3(t, start, end).Success?
    requires i < |t.rows| && 1 <= m <= 12 && k < BaselineYears(start, end)
    requires CountPresent(BaselineValues(t.cols, t.rows[i].series, m, start, end)) > 0
    ensures var b := BaselineValues(t.cols, t.rows[i].series, m, start, end);
            BaselineValues(t.cols, Step3(t, start, end).value.rows[i].series, m, start, end)[k]
              == Sub(b[k], Some(MeanPresent(b).value))
  {
    var out := Step3(t, start, end).value;
    var b := BaselineValues(t.cols, t.rows[i].series, m, start, end);
    var c := IndexOf(t.cols, Col(m, start + k)).value;
    assert t.cols[c] == Col(m, start + k);
    var x, y := t.rows[i].series[c], out.rows[i].series[c];
    assert b[k] == x;
    BaselineValueAt(t.cols, out.rows[i].series, m, start, end, c);
    assert BaselineValues(t.cols, out.rows[i].series, m, start, end)[k] == y;
    Step3AnomalySub(t, start, end, i, c);
  }

  /** Over the baseline years of a month with baseline data, the present anomalies
      average to exactly 0. */
  lemma Step3BaselineMeanZero(t: Table, start: int, end: int, i: nat, m: int)
    requires WellFormed(t) && DistinctCols(t.cols) && Step3(t, start, end).Success?
    requires i < |t.rows| && 1 <= m <= 12
    requires CountPresent(BaselineValues(t.cols, t.rows[i].series, m, start, end)) > 0
    ensures MeanPresent(BaselineValues(t.cols, Step3(t, start, end).value.rows[i].series, m, start, end)) == Some(0.0)
  {
    Step3BaselineAnomalies(t, start, end, i, m);
    DeviationsFromMeanAverageZero(BaselineValues(t.cols, t.rows[i].series, m, start, end));
  }
}

=== FILE: step4.dfy ===
/** Step 4: night-brightness lookup, the urban/rural split, rural neighbour weights for the
    urban stations, and the replacement of an urban station's series by the weighted sum
    of its rural neighbours. */
module Step4 {
  import opened Values
  import opened Text
  import opened Dicts
  import opened Seqs
  import opened Utilities
  import opened Nearby
  import opened Tables

  // ---------------------------------------------------------------------------
  // read_night_file

  /** The brightness dict: `(i, j)` grid indices, as text, to the brightness text. */
  type BrightnessDict = Dict<(string, string), string>

  predicate WellFormedLine(line: string)
  {
    |SplitWhitespace(line)| >= 3
  }

  /** The entry one line contributes: its first two tokens as the key, the third as value. */
  function LineEntry(line: string): ((string, string), string)
    requires WellFormedLine(line)
  {
    var tokens := SplitWhitespace(line);
    ((tokens[0], tokens[1]), tokens[2])
  }

  function LineEntries(lines: seq<string>): (ps: seq<((string, string), string)>)
    requires forall k :: 0 <= k < |lines| ==> WellFormedLine(lines[k])
    ensures |ps| == |lines|
    ensures forall k :: 0 <= k < |lines| ==> ps[k] == LineEntry(lines[k])
  {
    seq(|lines|, k requires 0 <= k < |lines| => LineEntry(lines[k]))
  }

  /** `read_night_file` on a response with status `status` and text `text`: nothing
      unless the status is 200; otherwise the text is split with `splitlines`, a line with
      fewer than three tokens raises `IndexError`, and the dict holds every line's entry,
      a later line overwriting an earlier one. */
  method ReadNightFile(status: int, text: string) returns (r: Result<BrightnessDict>)
    ensures status != 200 ==> r == Success([])
    ensures status == 200 ==>
              (r.Failure? <==> exists k :: 0 <= k < |SplitLines(text)| && !WellFormedLine(SplitLines(text)[k]))
    ensures status == 200 && r.Success? ==>
              (forall k :: 0 <= k < |SplitLines(text)| ==> WellFormedLine(SplitLines(text)[k]))
              && r.value == FromPairs(LineEntries(SplitLines(text)))
  {
    if status != 200 {
      return Success([]);
    }
    var lines := SplitLines(text);
    var d: BrightnessDict := [];
    var i := 0;
    while i < |lines|
      invariant 0 <= i <= |lines|
      invariant forall k :: 0 <= k < i ==> WellFormedLine(lines[k])
      invariant d == FromPairs(LineEntries(lines[..i]))
    {
      var tokens := SplitWhitespace(lines[i]);
      if |tokens| < 3 {
        assert !WellFormedLine(SplitLines(text)[i]);
        return Failure("IndexError: list index out of range");
      }
      NightFileStep(lines, i);
      d := Insert(d, (tokens[0], tokens[1]), tokens[2]);
      i := i + 1;
    }
    assert lines[..i] == lines;
    r := Success(d);
  }

  /** Reading one more line inserts its entry into the dict read so far. */
  lemma NightFileStep(lines: seq<string>, i: nat)
    requires i < |lines|
    requires forall k :: 0 <= k <= i ==> WellFormedLine(lines[k])
    ensures FromPairs(LineEntries(lines[..i + 1])) == Insert(FromPairs(LineEntries(lines[..i])), LineEntry(lines[i]).0, LineEntry(lines[i]).1)
  {
    var a, b := LineEntries(lines[..i]), LineEntries(lines[..i + 1]);
    assert b == a + [LineEntry(lines[i])] by {
      assert |b| == |a| + 1;
      forall k | 0 <= k < |b| ensures b[k] == (a + [LineEntry(lines[i])])[k] {
        assert lines[..i + 1][k] == lines[k];
        if k < i {
          assert lines[..i][k] == lines[k];
        }
      }
    }
    FromPairsSnoc(a, LineEntry(lines[i]));
  }

  /** Each key maps to the value of the last line that carries it. */
  lemma NightFileLookup(lines: seq<string>, key: (string, string))
    requires forall k :: 0 <= k < |lines| ==> WellFormedLine(lines[k])
    ensures Get(FromPairs(LineEntries(lines)), key) == LastValue(LineEntries(lines), key)
  {
  }

  /** A line `"i j v"` written from three tokens reads back as the entry `(i, j) -> v`. */
  lemma NightLineRoundTrip(i: string, j: string, v: string)
    requires |i| > 0 && |j| > 0 && |v| > 0
    requires NoSpace(i) && NoSpace(j) && NoSpace(v)
    ensures WellFormedLine(JoinSpaces([i, j, v]))
    ensures LineEntry(JoinSpaces([i, j, v])) == ((i, j), v)
  {
    SplitWhitespaceJoin([i, j, v]);
  }

  // ---------------------------------------------------------------------------
  // process_inv_file: grid indices and lookup

  /** Python's `round` on a float: to the nearest integer, ties to the even one. */
  function RoundHalfEven(x: real): (r: int)
    ensures x - 0.5 <= r as real <= x + 0.5
    ensures (r as real - x == 0.5 || x - r as real == 0.5) ==> r % 2 == 0
  {
    var f := x.Floor;
    var frac := x - f as real;
    if frac < 0.5 then f
    else if frac > 0.5 then f + 1
    else if f % 2 == 0 then f else f + 1
  }

  /** The rounding is the nearest integer whenever that is unique. */
  lemma RoundNearest(x: real, n: int)
    requires x - 0.5 < n as real < x + 0.5
    ensures RoundHalfEven(x) == n
  {
  }

  /** `search_i` as a number: the rounded column index of the longitude, where indices from
      43200 up wrap to 1. */
  function SearchIndexI(lon: real): (i: int)
    ensures i < 43200
    ensures RoundHalfEven((lon + 180.0) * 120.0 + 1.0) < 43200 ==> i == RoundHalfEven((lon + 180.0) * 120.0 + 1.0)
    ensures RoundHalfEven((lon + 180.0) * 120.0 + 1.0) >= 43200 ==> i == 1
  {
    var raw := RoundHalfEven((lon + 180.0) * 120.0 + 1.0);
    if raw >= 43200 then 1 else raw
  }

  /** `search_j` as a number: the rounded row index of the latitude, where indices from
      21600 up become 21600. */
  function SearchIndexJ(lat: real): (j: int)
    ensures j <= 21600
    ensures RoundHalfEven(21600.0 + 0.5 - (lat + 90.0) * 120.0) < 21600 ==> j == RoundHalfEven(21600.0 + 0.5 - (lat + 90.0) * 120.0)
    ensures RoundHalfEven(21600.0 + 0.5 - (lat + 90.0) * 120.0) >= 21600 ==> j == 21600
  {
    var raw := RoundHalfEven(21600.0 + 0.5 - (lat + 90.0) * 120.0);
    if raw >= 21600 then 21600 else raw
  }

  /** `search_i` and `search_j` are kept as text and compared through `int()`, which reads
      the text of an integer back as that integer. */
  function SearchI(lon: real): (s: string)
    ensures ParseInt(s) == Some(SearchIndexI(lon))
  {
    ParseIntToStr(SearchIndexI(lon));
    IntToStr(SearchIndexI(lon))
  }

  function SearchJ(lat: real): (s: string)
    ensures ParseInt(s) == Some(SearchIndexJ(lat))
  {
    ParseIntToStr(SearchIndexJ(lat));
    IntToStr(SearchIndexJ(lat))
  }

  /** For a station inside the brightness grid the indices are the rounded formulas;
      one at the date line wraps to column 1 and one at the south pole is clamped to row 21600. */
  lemma SearchIndicesInRange(lat: real, lon: real)
    requires -180.0 <= lon <= 179.98 && -89.99 <= lat <= 90.0
    ensures SearchIndexI(lon) == RoundHalfEven((lon + 180.0) * 120.0 + 1.0)
    ensures SearchIndexJ(lat) == RoundHalfEven(21600.0 + 0.5 - (lat + 90.0) * 120.0)
    ensures SearchIndexI(180.0) == 1 && SearchIndexJ(-90.0) == 21600
  {
    assert RoundHalfEven((180.0 + 180.0) * 120.0 + 1.0) == 43201 by {
      RoundNearest((180.0 + 180.0) * 120.0 + 1.0, 43201);
    }
    assert RoundHalfEven(21600.0 + 0.5 - (-90.0 + 90.0) * 120.0) == 21600 by {
      assert 21600.0 + 0.5 - (-90.0 + 90.0) * 120.0 == 21600.5;
    }
  }

  /** The brightness of a station: the integer stored under its indices, or 0 when the key
      is absent or its value is not an integer. */
  function Brightness(dict: BrightnessDict, lat: real, lon: real): (v: int)
    ensures Get(dict, (SearchI(lon), SearchJ(lat))).None? ==> v == 0
    ensures (Get(dict, (SearchI(lon), SearchJ(lat))).Some? &&
             ParseInt(Get(dict, (SearchI(lon), SearchJ(lat))).value).None?) ==> v == 0
    ensures (Get(dict, (SearchI(lon), SearchJ(lat))).Some? &&
             ParseInt(Get(dict, (SearchI(lon), SearchJ(lat))).value).Some?) ==>
              v == ParseInt(Get(dict, (SearchI(lon), SearchJ(lat))).value).value
  {
    match Get(dict, (SearchI(lon), SearchJ(lat)))
    case None => 0
    case Some(text) =>
      match ParseInt(text)
      case Some(v) => v
      case None => 0
  }

  /** A value stored as the text of an integer gives that integer back. */
  lemma BrightnessOfStoredInt(dict: BrightnessDict, lat: real, lon: real, v: int)
    requires Get(dict, (SearchI(lon), SearchJ(lat))) == Some(IntToStr(v))
    ensures Brightness(dict, lat, lon) == v
  {
    ParseIntToStr(v);
  }

  /** An inventory line once split: Station_ID, Latitude, Longitude. */
  datatype InvRecord = InvRecord(id: string, lat: real, lon: real)

  /** A row of the data built by `process_inv_file`. */
  datatype BrightRecord = BrightRecord(id: string, lat: real, lon: real, value: int)

  /** `process_inv_file`: one record per inventory line, in order, with its brightness;
      nothing unless the status is 200. */
  function ProcessInvFile(status: int, inv: seq<InvRecord>, dict: BrightnessDict): (r: seq<BrightRecord>)
    ensures status != 200 ==> r == []
    ensures status == 200 ==> |r| == |inv|
    ensures status == 200 ==> forall k :: 0 <= k < |inv| ==>
              r[k] == BrightRecord(inv[k].id, inv[k].lat, inv[k].lon, Brightness(dict, inv[k].lat, inv[k].lon))
  {
    if status != 200 then []
    else seq(|inv|, k requires 0 <= k < |inv| =>
               BrightRecord(inv[k].id, inv[k].lat, inv[k].lon, Brightness(dict, inv[k].lat, inv[k].lon)))
  }

  /** The brightness file and the inventory together: a station whose indices appear on a
      line `"i j v"` of the file, and on no later line, gets brightness `v`. */
  lemma BrightnessFromFile(lines: seq<string>, rec: InvRecord, v: int, k: nat)
    requires forall m :: 0 <= m < |lines| ==> WellFormedLine(lines[m])
    requires k < |lines|
    requires LineEntry(lines[k]) == ((SearchI(rec.lon), SearchJ(rec.lat)), IntToStr(v))
    requires forall m :: k < m < |lines| ==> LineEntry(lines[m]).0 != (SearchI(rec.lon), SearchJ(rec.lat))
    ensures Brightness(FromPairs(LineEntries(lines)), rec.lat, rec.lon) == v
  {
    var key := (SearchI(rec.lon), SearchJ(rec.lat));
    LastValueAt(LineEntries(lines), key, k);
    BrightnessOfStoredInt(FromPairs(LineEntries(lines)), rec.lat, rec.lon, v);
  }

  lemma {:induction false} LastValueAt<K, V>(ps: seq<(K, V)>, key: K, k: nat)
    requires k < |ps| && ps[k].0 == key
    requires forall m :: k < m < |ps| ==> ps[m].0 != key
    ensures LastValue(ps, key) == Some(ps[k].1)
  {
    if k < |ps| - 1 {
      LastValueAt(ps[..|ps| - 1], key, k);
    }
  }

  // ---------------------------------------------------------------------------
  // find_nearby_rural_stations

  /** A station row with its brightness Value. */
  datatype Station = Station(row: Row, value: int)

  predicate IsUrban(s: Station, threshold: real)
  {
    s.value as real > threshold
  }

  function UrbanStations(stations: seq<Station>, threshold: real): seq<Station>
  {
    Filter(stations, (s: Station) => IsUrban(s, threshold))
  }

  function RuralStations(stations: seq<Station>, threshold: real): seq<Station>
  {
    Filter(stations, (s: Station) => !IsUrban(s, threshold))
  }

  /** Every station is urban (Value above the threshold) or rural, never both, and the two
      selections together hold every station exactly as often as the input does. */
  lemma UrbanRuralPartition(stations: seq<Station>, threshold: real)
    ensures forall s :: s in UrbanStations(stations, threshold) <==> s in stations && s.value as real > threshold
    ensures forall s :: s in RuralStations(stations, threshold) <==> s in stations && s.value as real <= threshold
    ensures multiset(UrbanStations(stations, threshold)) + multiset(RuralStations(stations, threshold)) == multiset(stations)
    ensures |UrbanStations(stations, threshold)| + |RuralStations(stations, threshold)| == |stations|
  {
    FilterPartition(stations, (s: Station) => IsUrban(s, threshold), (s: Station) => !IsUrban(s, threshold));
  }

  function StationSite(s: Station): Site
  {
    Site(s.row.lat, s.row.lon)
  }

  function Sites(ss: seq<Station>): (r: seq<Site>)
    ensures |r| == |ss|
    ensures forall k :: 0 <= k < |ss| ==> r[k] == StationSite(ss[k])
  {
    seq(|ss|, k requires 0 <= k < |ss| => StationSite(ss[k]))
  }

  function StationIds(ss: seq<Station>): (r: seq<string>)
    ensures |r| == |ss|
    ensures forall k :: 0 <= k < |ss| ==> r[k] == ss[k].row.id
  {
    seq(|ss|, k requires 0 <= k < |ss| => ss[k].row.id)
  }

  function RowsOf(ss: seq<Station>): (r: seq<Row>)
    ensures |r| == |ss|
    ensures forall k :: 0 <= k < |ss| ==> r[k] == ss[k].row
  {
    seq(|ss|, k requires 0 <= k < |ss| => ss[k].row)
  }

  /** An urban station and its normalised rural-neighbour weights (Rural_Station_Weights). */
  datatype UrbanWeights = UrbanWeights(station: Station, weights: Dict<string, real>)

  /** The weights of every urban station, before the minimum-count filter: entry `i`
      belongs to the `i`-th urban station. */
  function AllUrbanWeights(t: Trig, stations: seq<Station>, threshold: real, radius: real, earthRadius: real)
    : (r: seq<UrbanWeights>)
    requires ValidTrig(t)
    ensures |r| == |UrbanStations(stations, threshold)|
    ensures forall i :: 0 <= i < |r| ==> r[i].station == UrbanStations(stations, threshold)[i]
    ensures forall u :: u in r ==> u.station in stations && IsUrban(u.station, threshold)
  {
    var urban := UrbanStations(stations, threshold);
    var rural := RuralStations(stations, threshold);
    var distances := DistanceMatrix(t, Sites(urban), Sites(rural), earthRadius);
    seq(|urban|, i requires 0 <= i < |urban| =>
          UrbanWeights(urban[i], NearbyMap(StationIds(rural), distances[i], radius)))
  }

  /** The test `len(weights) >= minCount` of `find_nearby_rural_stations`. */
  function Retained(minCount: int): UrbanWeights -> bool
  {
    (u: UrbanWeights) => |u.weights| >= minCount
  }

  /** `find_nearby_rural_stations`: the urban stations whose map has at least `minCount`
      entries, in order, each with its map. */
  function FindNearbyRuralStations(t: Trig, stations: seq<Station>, threshold: real, radius: real,
                                   minCount: int, earthRadius: real): (r: seq<UrbanWeights>)
    requires ValidTrig(t)
    ensures forall k :: 0 <= k < |r| ==>
              r[k].station in stations && IsUrban(r[k].station, threshold) && |r[k].weights| >= minCount
  {
    Filter(AllUrbanWeights(t, stations, threshold, radius, earthRadius), Retained(minCount))
  }

  /** The retained entries keep their order: entry `k` is the entry of the urban station at
      the `k`-th retained position of the full list. */
  lemma RetainedInOrder(t: Trig, stations: seq<Station>, threshold: real, radius: real,
                        minCount: int, earthRadius: real)
    requires ValidTrig(t)
    ensures var r := FindNearbyRuralStations(t, stations, threshold, radius, minCount, earthRadius);
            var all := AllUrbanWeights(t, stations, threshold, radius, earthRadius);
            var ks := Selected(all, Retained(minCount), 0);
            |r| == |ks| && forall k :: 0 <= k < |r| ==> r[k] == all[ks[k]]
  {
    var all := AllUrbanWeights(t, stations, threshold, radius, earthRadius);
    assert all[0..] == all;
    FilterSelects(all, Retained(minCount), 0);
  }

  /** An urban station is retained iff its map has at least `minCount` entries: a count of
      neighbours, whatever their weights. */
  lemma RetainedIffEnoughNeighbours(t: Trig, stations: seq<Station>, threshold: real, radius: real,
                                    minCount: int, earthRadius: real, i: nat)
    requires ValidTrig(t)
    requires i < |AllUrbanWeights(t, stations, threshold, radius, earthRadius)|
    ensures AllUrbanWeights(t, stations, threshold, radius, earthRadius)[i]
              in FindNearbyRuralStations(t, stations, threshold, radius, minCount, earthRadius)
            <==> |AllUrbanWeights(t, stations, threshold, radius, earthRadius)[i].weights| >= minCount
  {
  }

  /** The neighbours of an urban station are the rural stations within `radius`. */
  lemma UrbanWeightKeys(t: Trig, stations: seq<Station>, threshold: real, radius: real, earthRadius: real,
                        i: nat, id: string)
    requires ValidTrig(t) && earthRadius >= 0.0
    requires i < |AllUrbanWeights(t, stations, threshold, radius, earthRadius)|
    ensures var u := AllUrbanWeights(t, stations, threshold, radius, earthRadius)[i];
            var rural := RuralStations(stations, threshold);
            id in Keys(u.weights) <==>
              exists j :: 0 <= j < |rural| && rural[j].row.id == id
                && var d := SiteDistance(t, StationSite(u.station), StationSite(rural[j]), earthRadius);
                   d.Some? && radius > 0.0 && d.value <= radius
  {
    var urban := UrbanStations(stations, threshold);
    var rural := RuralStations(stations, threshold);
    var ds := DistanceMatrix(t, Sites(urban), Sites(rural), earthRadius)[i];
    NearbyMapKeys(StationIds(rural), ds, radius, id);
    forall j | 0 <= j < |rural|
      ensures Included(ds[j], radius) <==>
                var d := SiteDistance(t, StationSite(urban[i]), StationSite(rural[j]), earthRadius);
                d.Some? && radius > 0.0 && d.value <= radius
    {
      IncludedIffWithinRadius(ds[j], radius);
    }
  }

  /** Every neighbour of a retained urban station is a rural station. */
  lemma RetainedKeysAreRural(t: Trig, stations: seq<Station>, threshold: real, radius: real,
                             minCount: int, earthRadius: real)
    requires ValidTrig(t)
    ensures forall u, id :: (u in FindNearbyRuralStations(t, stations, threshold, radius, minCount, earthRadius)
                             && id in Keys(u.weights)) ==> id in Ids(RowsOf(RuralStations(stations, threshold)))
  {
    var all := AllUrbanWeights(t, stations, threshold, radius, earthRadius);
    forall u, id | u in FindNearbyRuralStations(t, stations, threshold, radius, minCount, earthRadius)
                   && id in Keys(u.weights)
      ensures id in Ids(RowsOf(RuralStations(stations, threshold)))
    {
      var i :| 0 <= i < |all| && all[i] == u;
      UrbanKeyIsRural(t, stations, threshold, radius, earthRadius, i, id);
    }
  }

  /** Every key of an urban station's map is the id of a rural station. */
  lemma UrbanKeyIsRural(t: Trig, stations: seq<Station>, threshold: real, radius: real, earthRadius: real,
                        i: nat, id: string)
    requires ValidTrig(t)
    requires i < |AllUrbanWeights(t, stations, threshold, radius, earthRadius)|
    requires id in Keys(AllUrbanWeights(t, stations, threshold, radius, earthRadius)[i].weights)
    ensures id in Ids(RowsOf(RuralStations(stations, threshold)))
  {
    var rural := RuralStations(stations, threshold);
    var urban := UrbanStations(stations, threshold);
    var distances := DistanceMatrix(t, Sites(urban), Sites(rural), earthRadius);
    NearbyMapKeys(StationIds(rural), distances[i], radius, id);
    var j :| 0 <= j < |rural| && StationIds(rural)[j] == id && Included(distances[i][j], radius);
    assert RowsOf(rural)[j].id == id;
  }

  // ---------------------------------------------------------------------------
  // adjust_urban_anomalies

  predicate StationsFit(stations: seq<Station>, cols: seq<Col>)
  {
    forall i :: 0 <= i < |stations| ==> |stations[i].row.series| == |cols|
  }

  /** `rural_station_timeseries` exists: every time column is a column of the table and
      every neighbour is a rural station. Otherwise `.loc` raises `KeyError`. */
  predicate Lookups(stations: seq<Station>, cols: seq<Col>, valid: seq<UrbanWeights>, start: int, end: int, threshold: real)
  {
    && (forall c :: c in TimeColumns(start, end) ==> c in cols)
    && (forall k, id :: 0 <= k < |valid| && id in Keys(valid[k].weights) ==>
          id in Ids(RowsOf(RuralStations(stations, threshold))))
  }

  /** Every neighbour of `u` lies in the rural rows, and so does every time column. */
  predicate EntryFound(stations: seq<Station>, cols: seq<Col>, u: UrbanWeights, start: int, end: int, threshold: real)
  {
    && (forall c :: c in TimeColumns(start, end) ==> c in cols)
    && (forall id :: id in Keys(u.weights) ==> id in Ids(RowsOf(RuralStations(stations, threshold))))
  }

  /** Number of stations labelled `id`. */
  function LabelCount(ss: seq<Station>, id: string): nat
  {
    if |ss| == 0 then 0 else (if ss[0].row.id == id then 1 else 0) + LabelCount(ss[1..], id)
  }

  /** `df_rural.loc[rural_stations]` finds each neighbour of `u` in at most one rural row,
      so that the rows line up with the weights for `multiply`. */
  predicate NeighboursUnique(rural: seq<Station>, u: UrbanWeights)
  {
    forall id :: id in Keys(u.weights) ==> LabelCount(rural, id) <= 1
  }

  predicate AllNeighboursUnique(stations: seq<Station>, valid: seq<UrbanWeights>, threshold: real)
  {
    forall k :: 0 <= k < |valid| ==> NeighboursUnique(RuralStations(stations, threshold), valid[k])
  }

  /** The error of the first entry the loop cannot process: `KeyError` from `.loc` for an
      absent column or neighbour, then `ValueError` from `multiply` when a neighbour's label
      names several rural rows, which gives more rows than weights. */
  function LoopError(stations: seq<Station>, cols: seq<Col>, valid: seq<UrbanWeights>,
                     start: int, end: int, threshold: real): Option<string>
  {
    if |valid| == 0 then None
    else if !EntryFound(stations, cols, valid[0], start, end, threshold) then Some("KeyError")
    else if !NeighboursUnique(RuralStations(stations, threshold), valid[0]) then Some("ValueError")
    else LoopError(stations, cols, valid[1..], start, end, threshold)
  }

  /** The loop fails exactly when some entry cannot be looked up or has a neighbour label
      naming several rural rows; `KeyError` only in the first case, `ValueError` only in
      the second. */
  lemma {:induction false} LoopErrorMeaning(stations: seq<Station>, cols: seq<Col>, valid: seq<UrbanWeights>,
                                            start: int, end: int, threshold: real)
    ensures var e := LoopError(stations, cols, valid, start, end, threshold);
            && (e.None? <==> (|valid| == 0 || Lookups(stations, cols, valid, start, end, threshold))
                             && AllNeighboursUnique(stations, valid, threshold))
            && (e.Some? ==> e.value == "KeyError" || e.value == "ValueError")
            && (e == Some("KeyError") ==> |valid| > 0 && !Lookups(stations, cols, valid, start, end, threshold))
            && (e == Some("ValueError") ==> !AllNeighboursUnique(stations, valid, threshold))
  {
    if |valid| > 0 {
      var rest := valid[1..];
      LoopErrorMeaning(stations, cols, rest, start, end, threshold);
      forall k | 0 <= k < |rest| ensures rest[k] == valid[k + 1] { }
      assert valid == [valid[0]] + rest;
      LookupsCons(stations, cols, valid, start, end, threshold);
      if !EntryFound(stations, cols, valid[0], start, end, threshold) {
      } else if !NeighboursUnique(RuralStations(stations, threshold), valid[0]) {
        assert !AllNeighboursUnique(stations, valid, threshold);
      } else {
        assert AllNeighboursUnique(stations, valid, threshold) <==> AllNeighboursUnique(stations, rest, threshold);
      }
    }
  }

  /** Lookups hold for a nonempty list exactly when they hold for its head and its tail. */
  lemma LookupsCons(stations: seq<Station>, cols: seq<Col>, valid: seq<UrbanWeights>,
                    start: int, end: int, threshold: real)
    requires |valid| > 0
    ensures Lookups(stations, cols, valid, start, end, threshold)
            <==> EntryFound(stations, cols, valid[0], start, end, threshold)
                 && (|valid| == 1 || Lookups(stations, cols, valid[1..], start, end, threshold))
  {
    var rest := valid[1..];
    forall k | 0 <= k < |rest| ensures rest[k] == valid[k + 1] { }
  }

  /** A filter of stations with distinct labels keeps at most one station of each label. */
  lemma {:induction false} DistinctLabelCount(ss: seq<Station>, p: Station -> bool, id: string)
    requires DistinctIds(RowsOf(ss))
    ensures LabelCount(Filter(ss, p), id) <= 1
  {
    if |ss| > 0 {
      var rest := ss[1..];
      assert DistinctIds(RowsOf(rest)) by {
        forall i, j | 0 <= i < j < |rest| ensures RowsOf(rest)[i].id != RowsOf(rest)[j].id {
          assert RowsOf(ss)[i + 1].id != RowsOf(ss)[j + 1].id;
        }
      }
      DistinctLabelCount(rest, p, id);
      var f := Filter(rest, p);
      if p(ss[0]) {
        assert Filter(ss, p) == [ss[0]] + f;
        assert ([ss[0]] + f)[1..] == f;
        if ss[0].row.id == id {
          forall x | x in f ensures x.row.id != id {
            var j :| 0 <= j < |rest| && rest[j] == x;
            assert RowsOf(ss)[0].id != RowsOf(ss)[j + 1].id;
          }
          LabelCountAbsent(f, id);
        }
      }
    }
  }

  lemma {:induction false} LabelCountAbsent(ss: seq<Station>, id: string)
    requires forall x :: x in ss ==> x.row.id != id
    ensures LabelCount(ss, id) == 0
  {
    if |ss| > 0 {
      assert forall x :: x in ss[1..] ==> x in ss;
      LabelCountAbsent(ss[1..], id);
    }
  }

  /** The urban station id to its weights; a station listed twice keeps its last weights. */
  function ValidMap(valid: seq<UrbanWeights>): Dict<string, Dict<string, real>>
  {
    FromPairs(seq(|valid|, k requires 0 <= k < |valid| => (valid[k].station.row.id, valid[k].weights)))
  }

  /** The new series of an urban station with weights `w`: every time column becomes the
      weighted sum of the rural series, with 0 turned into missing; the others are kept. */
  function AdjustedSeries(s: Station, w: Dict<string, real>, rural: seq<Station>, cols: seq<Col>,
                          start: int, end: int): (r: seq<Option<real>>)
    requires |s.row.series| == |cols|
    requires StationsFit(rural, cols)
    ensures |r| == |cols|
  {
    var rows := RowsOf(rural);
    seq(|cols|, p requires 0 <= p < |cols| =>
          if cols[p] in TimeColumns(start, end) then ZeroToMissing(WeightedSum(w, rows, p))
          else s.row.series[p])
  }

  function AdjustStation(s: Station, vm: Dict<string, Dict<string, real>>, rural: seq<Station>, cols: seq<Col>,
                         start: int, end: int): Station
    requires |s.row.series| == |cols|
    requires StationsFit(rural, cols)
  {
    match Get(vm, s.row.id)
    case None => s
    case Some(w) => Station(s.row.(series := AdjustedSeries(s, w, rural, cols, start, end)), s.value)
  }

  /** `adjust_urban_anomalies`: replace the time columns of every retained urban station by
      the weighted sum of its rural neighbours, leaving every other cell as it was. */
  function AdjustUrbanAnomalies(stations: seq<Station>, cols: seq<Col>, valid: seq<UrbanWeights>,
                                start: int, end: int, threshold: real): (r: Result<seq<Station>>)
    requires StationsFit(stations, cols)
    requires DistinctCols(cols)
    requires forall k :: 0 <= k < |valid| ==> valid[k].station.row.id in Ids(RowsOf(stations))
    ensures r.Failure? <==> (|valid| > 0 && !Lookups(stations, cols, valid, start, end, threshold))
                            || !AllNeighboursUnique(stations, valid, threshold)
    ensures r.Failure? ==> r.error == "KeyError" || r.error == "ValueError"
    ensures r.Failure? && Lookups(stations, cols, valid, start, end, threshold) ==> r.error == "ValueError"
    ensures r.Failure? && AllNeighboursUnique(stations, valid, threshold) ==> r.error == "KeyError"
    ensures r.Success? ==> |r.value| == |stations|
    ensures r.Success? ==> forall i :: 0 <= i < |stations| ==>
              && r.value[i].row.id == stations[i].row.id
              && r.value[i].row.lat == stations[i].row.lat
              && r.value[i].row.lon == stations[i].row.lon
              && r.value[i].value == stations[i].value
              && |r.value[i].row.series| == |cols|
  {
    LoopErrorMeaning(stations, cols, valid, start, end, threshold);
    match LoopError(stations, cols, valid, start, end, threshold)
    case Some(e) => Failure(e)
    case None =>
      var rural := RuralStations(stations, threshold);
      assert StationsFit(rural, cols) by {
        forall k | 0 <= k < |rural| ensures |rural[k].row.series| == |cols| {
          assert rural[k] in stations;
        }
      }
      var vm := ValidMap(valid);
      Success(seq(|stations|, i requires 0 <= i < |stations| =>
                    AdjustStation(stations[i], vm, rural, cols, start, end)))
  }

  /** Stations that are not retained urban stations come back unchanged, and so does
      every column outside the analysis period. */
  lemma AdjustLeavesOthers(stations: seq<Station>, cols: seq<Col>, valid: seq<UrbanWeights>,
                           start: int, end: int, threshold: real, i: nat, p: nat)
    requires StationsFit(stations, cols)
    requires DistinctCols(cols)
    requires forall k :: 0 <= k < |valid| ==> valid[k].station.row.id in Ids(RowsOf(stations))
    requires AdjustUrbanAnomalies(stations, cols, valid, start, end, threshold).Success?
    requires i < |stations| && p < |cols|
    ensures (forall k :: 0 <= k < |valid| ==> valid[k].station.row.id != stations[i].row.id) ==>
              AdjustUrbanAnomalies(stations, cols, valid, start, end, threshold).value[i] == stations[i]
    ensures cols[p] !in TimeColumns(start, end) ==>
              AdjustUrbanAnomalies(stations, cols, valid, start, end, threshold).value[i].row.series[p]
                == stations[i].row.series[p]
  {
    var vm := ValidMap(valid);
    var pairs := seq(|valid|, k requires 0 <= k < |valid| => (valid[k].station.row.id, valid[k].weights));
    if forall k :: 0 <= k < |valid| ==> valid[k].station.row.id != stations[i].row.id {
      assert stations[i].row.id !in PairKeys(pairs);
    }
  }

  /** A retained urban station's time column `p` becomes the weighted sum of its last
      listed weights over the rural series, an exact 0 becoming missing. */
  lemma AdjustReplacesUrban(stations: seq<Station>, cols: seq<Col>, valid: seq<UrbanWeights>,
                            start: int, end: int, threshold: real, i: nat, k: nat, p: nat)
    requires StationsFit(stations, cols)
    requires DistinctCols(cols)
    requires forall m :: 0 <= m < |valid| ==> valid[m].station.row.id in Ids(RowsOf(stations))
    requires AdjustUrbanAnomalies(stations, cols, valid, start, end, threshold).Success?
    requires i < |stations| && k < |valid| && p < |cols|
    requires valid[k].station.row.id == stations[i].row.id
    requires forall m :: k < m < |valid| ==> valid[m].station.row.id != stations[i].row.id
    requires cols[p] in TimeColumns(start, end)
    ensures HasColumn(RowsOf(RuralStations(stations, threshold)), p)
    ensures AdjustUrbanAnomalies(stations, cols, valid, start, end, threshold).value[i].row.series[p]
              == ZeroToMissing(WeightedSum(valid[k].weights, RowsOf(RuralStations(stations, threshold)), p))
  {
    var rural := RuralStations(stations, threshold);
    forall m | 0 <= m < |rural| ensures |rural[m].row.series| == |cols| {
      assert rural[m] in stations;
    }
    var pairs := seq(|valid|, m requires 0 <= m < |valid| => (valid[m].station.row.id, valid[m].weights));
    LastValueAt(pairs, stations[i].row.id, k);
  }

  /** With normalised weights whose neighbours all hold the same nonzero value `v` in
      column `p`, the adjusted urban value is `v`; with no neighbour value present, it is
      missing. */
  lemma AdjustedValueOfUniformNeighbours(w: Dict<string, real>, rural: seq<Station>, p: nat, v: real)
    requires HasColumn(RowsOf(rural), p)
    requires Keys(w) <= Ids(RowsOf(rural))
    requires Total(w) == 1.0 && v != 0.0
    requires forall m :: 0 <= m < |rural| && rural[m].row.id in Keys(w) ==> rural[m].row.series[p] == Some(v)
    ensures ZeroToMissing(WeightedSum(w, RowsOf(rural), p)) == Some(v)
  {
    var rows := RowsOf(rural);
    forall i | 0 <= i < |rows| && rows[i].id in Keys(w) ensures rows[i].series[p] == Some(v) {
      assert rows[i] == rural[i].row;
    }
    WeightedSumOfConstant(w, rows, p, v);
    var s := WeightedSum(w, rows, p);
    assert s == v * 1.0;
    assert s == v;
  }

  lemma AdjustedValueOfMissingNeighbours(w: Dict<string, real>, rural: seq<Station>, p: nat)
    requires HasColumn(RowsOf(rural), p)
    requires forall m :: 0 <= m < |rural| && rural[m].row.id in Keys(w) ==> rural[m].row.series[p].None?
    ensures ZeroToMissing(WeightedSum(w, RowsOf(rural), p)) == None
  {
    WeightedSumAllMissing(w, RowsOf(rural), p);
  }

  /** In the pipeline the weights come from `find_nearby_rural_stations` on the same table,
      so the adjustment fails only when an analysis-period column is absent. */
  lemma Step4Succeeds(t: Trig, stations: seq<Station>, cols: seq<Col>, threshold: real, radius: real,
                      minCount: int, earthRadius: real, start: int, end: int)
    requires ValidTrig(t)
    requires StationsFit(stations, cols)
    requires DistinctCols(cols)
    requires DistinctIds(RowsOf(stations))
    requires forall c :: c in TimeColumns(start, end) ==> c in cols
    ensures var valid := FindNearbyRuralStations(t, stations, threshold, radius, minCount, earthRadius);
            (forall k :: 0 <= k < |valid| ==> valid[k].station.row.id in Ids(RowsOf(stations)))
            && AdjustUrbanAnomalies(stations, cols, valid, start, end, threshold).Success?
  {
    var valid := FindNearbyRuralStations(t, stations, threshold, radius, minCount, earthRadius);
    RetainedKeysAreRural(t, stations, threshold, radius, minCount, earthRadius);
    var rural := RuralStations(stations, threshold);
    forall id ensures LabelCount(rural, id) <= 1 {
      DistinctLabelCount(stations, (s: Station) => !IsUrban(s, threshold), id);
    }
    assert AllNeighboursUnique(stations, valid, threshold) by {
      forall k | 0 <= k < |valid| ensures NeighboursUnique(rural, valid[k]) { }
    }
    assert Lookups(stations, cols, valid, start, end, threshold) by {
      forall k, id | 0 <= k < |valid| && id in Keys(valid[k].weights) ensures id in Ids(RowsOf(rural)) {
        assert valid[k] in valid;
      }
    }
    forall k | 0 <= k < |valid| ensures valid[k].station.row.id in Ids(RowsOf(stations)) {
      var j :| 0 <= j < |stations| && stations[j] == valid[k].station;
      assert RowsOf(stations)[j].id == valid[k].station.row.id;
    }
  }
}

=== FILE: step5.dfy ===
/** Step 5: sea surface temperature anomalies. Each grid point's value loses the mean of
    that point's baseline values in the same calendar month; anomalies below the ice
    cutoff then become missing. */
module Step5 {
  import opened Values
  import opened Tables

  /** A monthly gridded field: one series per grid point, aligned with `times`. */
  datatype Field = Field(times: seq<Date>, cells: seq<seq<Option<real>>>)

  predicate FieldShape(f: Field)
  {
    forall p :: 0 <= p < |f.cells| ==> |f.cells[p]| == |f.times|
  }

  /** `sel(time=slice(start, end))`: both ends of the slice are included. */
  predicate InSlice(t: Date, start: Date, end: Date)
  {
    DateLeq(start, t) && DateLeq(t, end)
  }

  /** Time `t` falls into the baseline group of calendar month `month`. */
  predicate InGroup(t: Date, start: Date, end: Date, month: int)
  {
    InSlice(t, start, end) && t.month == month
  }

  /** The positions of the baseline times of calendar month `month`, ascending. */
  function GroupIndices(times: seq<Date>, start: Date, end: Date, month: int, lo: nat): (ks: seq<nat>)
    requires lo <= |times|
    ensures forall j :: 0 <= j < |ks| ==> lo <= ks[j] < |times| && InGroup(times[ks[j]], start, end, month)
    ensures forall k :: lo <= k < |times| && InGroup(times[k], start, end, month) ==> k in ks
    ensures forall a, b :: 0 <= a < b < |ks| ==> ks[a] < ks[b]
    decreases |times| - lo
  {
    if lo == |times| then []
    else if InGroup(times[lo], start, end, month) then [lo] + GroupIndices(times, start, end, month, lo + 1)
    else GroupIndices(times, start, end, month, lo + 1)
  }

  /** The values of one series at the baseline times of calendar month `month`. */
  function GroupValues(times: seq<Date>, xs: seq<Option<real>>, start: Date, end: Date, month: int)
    : (g: seq<Option<real>>)
    requires |xs| == |times|
  {
    var ks := GroupIndices(times, start, end, month, 0);
    seq(|ks|, j requires 0 <= j < |ks| => xs[ks[j]])
  }

  /** `baseline_da.groupby("time.month").mean(dim="time")` for one grid point: missing
      when the month has no present baseline value, or no baseline time at all. */
  function Climatology(times: seq<Date>, xs: seq<Option<real>>, start: Date, end: Date, month: int)
    : Option<real>
    requires |xs| == |times|
  {
    MeanPresent(GroupValues(times, xs, start, end, month))
  }

  /** One grid point's anomaly series: each value minus the climatology of its month. */
  function AnomalySeries(times: seq<Date>, xs: seq<Option<real>>, start: Date, end: Date)
    : (ys: seq<Option<real>>)
    requires |xs| == |times|
    ensures |ys| == |xs|
    ensures forall k :: 0 <= k < |xs| ==>
              var c := Climatology(times, xs, start, end, times[k].month);
              && (ys[k].Some? <==> xs[k].Some? && c.Some?)
              && (ys[k].Some? ==> ys[k].value + c.value == xs[k].value)
  {
    seq(|xs|, k requires 0 <= k < |xs| => Sub(xs[k], Climatology(times, xs, start, end, times[k].month)))
  }

  /** `sst_anomaly`: the anomaly of every grid point, on the same times. */
  function SstAnomaly(f: Field, start: Date, end: Date): (r: Field)
    requires FieldShape(f)
    ensures FieldShape(r) && r.times == f.times && |r.cells| == |f.cells|
    ensures forall p :: 0 <= p < |f.cells| ==> r.cells[p] == AnomalySeries(f.times, f.cells[p], start, end)
  {
    Field(f.times, seq(|f.cells|, p requires 0 <= p < |f.cells| => AnomalySeries(f.times, f.cells[p], start, end)))
  }

  /** An anomaly is present exactly when the value is present and its calendar month has
      present baseline values, and it is then the value minus their mean. */
  lemma SstAnomalyCell(f: Field, start: Date, end: Date, p: nat, k: nat)
    requires FieldShape(f) && p < |f.cells| && k < |f.times|
    ensures var g := GroupValues(f.times, f.cells[p], start, end, f.times[k].month);
            var y := SstAnomaly(f, start, end).cells[p][k];
            && (y.Some? <==> f.cells[p][k].Some? && CountPresent(g) > 0)
            && (y.Some? ==> y.value == f.cells[p][k].value - MeanPresent(g).value)
  {
    assert SstAnomaly(f, start, end).cells[p] == AnomalySeries(f.times, f.cells[p], start, end);
  }

  /** The baseline values of a month, after subtracting `a` wherever the month is that month,
      are the original baseline values each lowered by `a`. */
  lemma GroupOfShifted(times: seq<Date>, xs: seq<Option<real>>, ys: seq<Option<real>>,
                       start: Date, end: Date, month: int, a: real)
    requires |xs| == |times| && |ys| == |times|
    requires forall k :: 0 <= k < |times| && times[k].month == month ==> ys[k] == Sub(xs[k], Some(a))
    ensures GroupValues(times, ys, start, end, month) == SubAll(GroupValues(times, xs, start, end, month), a)
  {
  }

  /** Over the baseline of a calendar month with present data, the anomalies of a grid point
      average to exactly 0. */
  lemma SstBaselineMeanZero(f: Field, start: Date, end: Date, p: nat, month: int)
    requires FieldShape(f) && p < |f.cells|
    requires CountPresent(GroupValues(f.times, f.cells[p], start, end, month)) > 0
    ensures MeanPresent(GroupValues(f.times, SstAnomaly(f, start, end).cells[p], start, end, month)) == Some(0.0)
  {
    var g := GroupValues(f.times, f.cells[p], start, end, month);
    var ys := SstAnomaly(f, start, end).cells[p];
    forall k | 0 <= k < |f.times| && f.times[k].month == month
      ensures ys[k] == Sub(f.cells[p][k], Some(MeanPresent(g).value))
    {
      SstAnomalyCell(f, start, end, p, k);
    }
    GroupOfShifted(f.times, f.cells[p], ys, start, end, month, MeanPresent(g).value);
    DeviationsFromMeanAverageZero(g);
  }

  // ---------------------------------------------------------------------------
  // remove_ice_values

  /** `da.where(da >= threshold, np.nan)` on one cell: NaN compares false and stays NaN. */
  function IceCut(x: Option<real>, threshold: real): Option<real>
  {
    if x.Some? && x.value >= threshold then x else None
  }

  /** Number of present values below the threshold: the values the cutoff removes. */
  function CountBelow(xs: seq<Option<real>>, threshold: real): nat
  {
    if |xs| == 0 then 0
    else (if xs[0].Some? && xs[0].value < threshold then 1 else 0) + CountBelow(xs[1..], threshold)
  }

  function CutSeries(xs: seq<Option<real>>, threshold: real): (ys: seq<Option<real>>)
    ensures |ys| == |xs|
    ensures forall k :: 0 <= k < |xs| ==> ys[k] == IceCut(xs[k], threshold)
  {
    seq(|xs|, k requires 0 <= k < |xs| => IceCut(xs[k], threshold))
  }

  /** The cutoff keeps exactly the present values at or above the threshold. */
  lemma {:induction false} CutSeriesCount(xs: seq<Option<real>>, threshold: real)
    ensures CountPresent(xs) == CountPresent(CutSeries(xs, threshold)) + CountBelow(xs, threshold)
  {
    if |xs| > 0 {
      CutSeriesCount(xs[1..], threshold);
      assert CutSeries(xs, threshold)[1..] == CutSeries(xs[1..], threshold);
    }
  }

  /** `np.sum(~np.isnan(da.values))`: the present values of the whole field. */
  function CountValid(cells: seq<seq<Option<real>>>): nat
  {
    if |cells| == 0 then 0 else CountPresent(cells[0]) + CountValid(cells[1..])
  }

  function CountBelowAll(cells: seq<seq<Option<real>>>, threshold: real): nat
  {
    if |cells| == 0 then 0 else CountBelow(cells[0], threshold) + CountBelowAll(cells[1..], threshold)
  }

  function CutCells(cells: seq<seq<Option<real>>>, threshold: real): (r: seq<seq<Option<real>>>)
    ensures |r| == |cells|
    ensures forall p :: 0 <= p < |cells| ==> r[p] == CutSeries(cells[p], threshold)
  {
    seq(|cells|, p requires 0 <= p < |cells| => CutSeries(cells[p], threshold))
  }

  lemma {:induction false} CutCellsCount(cells: seq<seq<Option<real>>>, threshold: real)
    ensures CountValid(cells) == CountValid(CutCells(cells, threshold)) + CountBelowAll(cells, threshold)
  {
    if |cells| > 0 {
      CutCellsCount(cells[1..], threshold);
      CutSeriesCount(cells[0], threshold);
      assert CutCells(cells, threshold)[1..] == CutCells(cells[1..], threshold);
    }
  }

  /** `remove_ice_values`: values below the threshold become missing, the rest are kept;
      the second component is the reported number of converted values, valid values
      before minus valid values after. The percentage it prints divides by the number of
      valid values before, so a field without any present value raises
      `ZeroDivisionError`. */
  function RemoveIceValues(f: Field, threshold: real): (r: Result<(Field, int)>)
    requires FieldShape(f)
    ensures r.Failure? <==> CountValid(f.cells) == 0
    ensures r.Success? ==> FieldShape(r.value.0) && r.value.0.times == f.times && |r.value.0.cells| == |f.cells|
    ensures r.Success? ==> forall p, k :: 0 <= p < |f.cells| && 0 <= k < |f.times| ==>
              var x, y := f.cells[p][k], r.value.0.cells[p][k];
              && (y.Some? <==> x.Some? && x.value >= threshold)
              && (y.Some? ==> y == x)
    ensures r.Success? ==> r.value.1 >= 0 && r.value.1 == CountBelowAll(f.cells, threshold)
  {
    if CountValid(f.cells) == 0 then Failure("ZeroDivisionError")
    else
      var after := Field(f.times, CutCells(f.cells, threshold));
      CutCellsCount(f.cells, threshold);
      Success((after, CountValid(f.cells) - CountValid(after.cells)))
  }

  /** `step5` after the download: the anomalies, then the ice cutoff on them, which fails
      when no anomaly is present. */
  function Step5(f: Field, start: Date, end: Date, threshold: real): (r: Result<(Field, int)>)
    requires FieldShape(f)
    ensures r.Failure? <==> CountValid(SstAnomaly(f, start, end).cells) == 0
    ensures r.Success? ==> FieldShape(r.value.0) && r.value.0.times == f.times && |r.value.0.cells| == |f.cells|
  {
    RemoveIceValues(SstAnomaly(f, start, end), threshold)
  }

  /** The cutoff acts on the anomaly, not on the raw temperature: a value survives exactly
      when its anomaly exists and reaches the threshold, and it is then that anomaly. */
  lemma Step5CutsAnomalies(f: Field, start: Date, end: Date, threshold: real, p: nat, k: nat)
    requires FieldShape(f) && p < |f.cells| && k < |f.times|
    requires Step5(f, start, end, threshold).Success?
    ensures var g := GroupValues(f.times, f.cells[p], start, end, f.times[k].month);
            var x := f.cells[p][k];
            var y := Step5(f, start, end, threshold).value.0.cells[p][k];
            && (y.Some? <==> x.Some? && CountPresent(g) > 0 && x.value - MeanPresent(g).value >= threshold)
            && (y.Some? ==> y.value == x.value - MeanPresent(g).value)
  {
    SstAnomalyCell(f, start, end, p, k);
  }
}

=== FILE: step6.dfy ===
/** Step 6: grid-cell anomalies from the weighted station anomalies, their conversion to
    a dated field, and the blend of the land field with the ocean field. */
module Step6 {
  import opened Values
  import opened Dicts
  import opened Text
  import opened Tables
  import opened Step2
  import opened Step5

  // ---------------------------------------------------------------------------
  // calculate_grid_anomalies

  /** The two labels the weighting loop refuses to weight (`exclude_columns`). */
  predicate LocationLabel(id: string)
  {
    id == "Latitude" || id == "Longitude"
  }

  /** The factor a selected row is multiplied by: its station's weight, or 1 for a row
      labelled like a location column. */
  function RowFactor(w: Dict<string, real>, id: string): real
    requires id in Keys(w)
  {
    if LocationLabel(id) then 1.0 else Get(w, id).value
  }

  /** `grid_stations_df.sum()` for column `c`: the rows whose label is a key of the map,
      in table order, each multiplied by its factor, missing values skipped. */
  function RowSum(w: Dict<string, real>, rows: seq<Row>, c: nat): real
    requires HasColumn(rows, c)
  {
    if |rows| == 0 then 0.0
    else
      (if rows[0].id in Keys(w) then RowFactor(w, rows[0].id) * OrZero(rows[0].series[c]) else 0.0)
        + RowSum(w, rows[1..], c)
  }

  /** A cell of the land grid: the grid point's coordinates and one value per time column. */
  datatype GridCell = GridCell(lat: real, lon: real, series: seq<Option<real>>)

  /** `calculate_grid_anomalies`: one row per grid point in grid order, each time column the
      weighted sum of the stations in the point's map with 0 turned into missing, and the
      point's coordinates copied from the grid. */
  function CalculateGridAnomalies(t: Table, grid: seq<GridPoint>): (r: seq<GridCell>)
    requires WellFormed(t)
    ensures |r| == |grid|
    ensures forall i :: 0 <= i < |grid| ==>
              r[i].lat == grid[i].lat && r[i].lon == grid[i].lon && |r[i].series| == |t.cols|
    ensures forall i, c :: 0 <= i < |grid| && 0 <= c < |t.cols| ==>
              r[i].series[c] == ZeroToMissing(RowSum(grid[i].nearby, t.rows, c))
  {
    seq(|grid|, i requires 0 <= i < |grid| =>
          GridCell(grid[i].lat, grid[i].lon,
                   seq(|t.cols|, c requires 0 <= c < |t.cols| => ZeroToMissing(RowSum(grid[i].nearby, t.rows, c)))))
  }

  /** Rows whose label is not in the map contribute nothing. */
  lemma {:induction false} RowSumNoKeys(w: Dict<string, real>, rows: seq<Row>, c: nat)
    requires HasColumn(rows, c)
    requires forall i :: 0 <= i < |rows| ==> rows[i].id !in Keys(w)
    ensures RowSum(w, rows, c) == 0.0
  {
    if |rows| > 0 {
      RowSumNoKeys(w, rows[1..], c);
    }
  }

  /** A one-entry map picks out the one row with its label. */
  lemma {:induction false} RowSumSingle(e: (string, real), rows: seq<Row>, c: nat)
    requires HasColumn(rows, c) && DistinctIds(rows) && !LocationLabel(e.0)
    ensures RowSum([e], rows, c) == Term(e, rows, c)
  {
    if |rows| > 0 {
      KeysCons([e]);
      if rows[0].id == e.0 {
        RowSumNoKeys([e], rows[1..], c);
      } else {
        RowSumSingle(e, rows[1..], c);
        match RowIndex(rows[1..], e.0)
        case Some(k) =>
          assert RowIndex(rows, e.0) == Some(k + 1);
        case None =>
      }
    }
  }

  /** With distinct keys, the sum over a map is the sum for its first entry plus the sum
      over the rest. */
  lemma {:induction false} RowSumSplit(e: (string, real), w: Dict<string, real>, rows: seq<Row>, c: nat)
    requires HasColumn(rows, c)
    requires DistinctKeys([e] + w) && !LocationLabel(e.0)
    ensures RowSum([e] + w, rows, c) == RowSum([e], rows, c) + RowSum(w, rows, c)
  {
    if |rows| > 0 {
      RowSumSplit(e, w, rows[1..], c);
      var d := [e] + w;
      KeysCons(d);
      assert d[1..] == w;
      KeysCons([e]);
      var id := rows[0].id;
      if id != e.0 {
        assert Get(d, id) == Get(w, id);
      }
    }
  }

  /** With distinct station ids and a map keyed by station ids only, the row-order sum is
      the map-order weighted sum: each station in both the map and the table adds weight
      times value, the others add nothing. */
  lemma {:induction false} RowSumIsWeightedSum(w: Dict<string, real>, rows: seq<Row>, c: nat)
    requires HasColumn(rows, c) && DistinctIds(rows) && DistinctKeys(w)
    requires forall k :: 0 <= k < |w| ==> !LocationLabel(w[k].0)
    ensures RowSum(w, rows, c) == WeightedSum(w, rows, c)
  {
    if |w| == 0 {
      RowSumNoKeys(w, rows, c);
    } else {
      assert w == [w[0]] + w[1..];
      RowSumSplit(w[0], w[1..], rows, c);
      RowSumSingle(w[0], rows, c);
      RowSumIsWeightedSum(w[1..], rows, c);
    }
  }

  /** The value of a grid cell is the composite of its stations; stations of the map that
      are not in the table add nothing, and the remaining weights are not renormalised. */
  lemma GridCellIsComposite(t: Table, grid: seq<GridPoint>, i: nat, c: nat)
    requires WellFormed(t) && DistinctIds(t.rows)
    requires i < |grid| && c < |t.cols|
    requires DistinctKeys(grid[i].nearby)
    requires forall k :: 0 <= k < |grid[i].nearby| ==> !LocationLabel(grid[i].nearby[k].0)
    ensures CalculateGridAnomalies(t, grid)[i].series[c]
            == ZeroToMissing(WeightedSum(Restrict(grid[i].nearby, Ids(t.rows)), t.rows, c))
  {
    RowSumIsWeightedSum(grid[i].nearby, t.rows, c);
    WeightedSumIgnoresAbsent(grid[i].nearby, t.rows, c);
  }

  /** A grid point with an empty map, or whose stations all miss a column, is missing
      there. */
  lemma GridCellWithoutData(t: Table, grid: seq<GridPoint>, i: nat, c: nat)
    requires WellFormed(t)
    requires i < |grid| && c < |t.cols|
    requires forall j :: 0 <= j < |t.rows| && t.rows[j].id in Keys(grid[i].nearby) ==> t.rows[j].series[c].None?
    ensures CalculateGridAnomalies(t, grid)[i].series[c].None?
  {
    RowSumAllMissing(grid[i].nearby, t.rows, c);
  }

  lemma {:induction false} RowSumAllMissing(w: Dict<string, real>, rows: seq<Row>, c: nat)
    requires HasColumn(rows, c)
    requires forall j :: 0 <= j < |rows| && rows[j].id in Keys(w) ==> rows[j].series[c].None?
    ensures RowSum(w, rows, c) == 0.0
  {
    if |rows| > 0 {
      RowSumAllMissing(w, rows[1..], c);
    }
  }

  // ---------------------------------------------------------------------------
  // dataframe_to_dataset: column name to date

  /** The range of `pd.Timestamp`: 1677-09-21 to 2262-04-11. */
  predicate TimestampInRange(d: Date)
  {
    DateLeq(Date(1677, 9, 21), d) && DateLeq(d, Date(2262, 4, 11))
  }

  /** The date of a melted column name "m_y": the name split at "_" into exactly a month and
      a year, both read as integers, then `pd.to_datetime("{y}-{m}-01")`. */
  function ColumnDate(name: string): (r: Result<Date>)
    ensures r.Success? ==> 1 <= r.value.month <= 12 && r.value.day == 1 && TimestampInRange(r.value)
  {
    var parts := SplitOn(name, '_');
    if |parts| != 2 then Failure("ValueError")
    else
      match (ParseInt(parts[0]), ParseInt(parts[1]))
      case (Some(m), Some(y)) =>
        if 1 <= m <= 12 && TimestampInRange(Date(y, m, 1)) then Success(Date(y, m, 1))
        else Failure("ValueError")
      case _ => Failure("ValueError")
  }

  /** Column "m_y" maps to the first day of month `m` of year `y`, whenever that is a valid
      timestamp; otherwise the conversion raises. */
  lemma ColumnDateOfName(c: Col)
    ensures ColumnDate(ColumnName(c)).Success? <==> 1 <= c.month <= 12 && TimestampInRange(Date(c.year, c.month, 1))
    ensures ColumnDate(ColumnName(c)).Success? ==> ColumnDate(ColumnName(c)).value == Date(c.year, c.month, 1)
  {
    SplitColumnName(c);
    ParseIntToStr(c.month);
    ParseIntToStr(c.year);
  }

  /** The year-major time columns give strictly increasing dates. */
  lemma TimeColumnDatesIncrease(start: int, end: int, a: nat, b: nat)
    requires a < b < |TimeColumns(start, end)|
    ensures var ca, cb := TimeColumns(start, end)[a], TimeColumns(start, end)[b];
            DateLeq(Date(ca.year, ca.month, 1), Date(cb.year, cb.month, 1))
            && Date(ca.year, ca.month, 1) != Date(cb.year, cb.month, 1)
  {
    var cs := TimeColumns(start, end);
    assert a / 12 <= b / 12;
    if a / 12 == b / 12 {
      assert a % 12 < b % 12;
    }
  }

  /** `pd.to_datetime` over all the column names: it raises as soon as one of them has
      no date. */
  function ColumnDates(cols: seq<Col>): (r: Result<seq<Date>>)
    ensures r.Failure? <==> exists k :: 0 <= k < |cols| && ColumnDate(ColumnName(cols[k])).Failure?
    ensures r.Success? ==> |r.value| == |cols|
    ensures r.Success? ==> forall k :: 0 <= k < |cols| ==> r.value[k] == ColumnDate(ColumnName(cols[k])).value
  {
    var rs := seq(|cols|, k requires 0 <= k < |cols| => ColumnDate(ColumnName(cols[k])));
    var r := Collect(rs);
    if r.Failure? then
      var k :| 0 <= k < |rs| && rs[k].Failure?;
      assert ColumnDate(ColumnName(cols[k])).Failure?;
      r
    else
      assert forall k :: 0 <= k < |cols| ==> rs[k] == ColumnDate(ColumnName(cols[k]));
      r
  }

  /** When the conversion succeeds, column "m_y" has the date y-m-01, so the times follow
      the columns one to one. */
  lemma ColumnDatesAreFirstOfMonth(cols: seq<Col>)
    requires ColumnDates(cols).Success?
    ensures forall k :: 0 <= k < |cols| ==> ColumnDates(cols).value[k] == Date(cols[k].year, cols[k].month, 1)
  {
    forall k | 0 <= k < |cols| ensures ColumnDates(cols).value[k] == Date(cols[k].year, cols[k].month, 1) {
      ColumnDateOfName(cols[k]);
    }
  }

  /** `dataframe_to_dataset` for the value columns: the field whose times are the dates of
      the columns, in column order, and whose series are the grid rows'. */
  function DataframeToDataset(cells: seq<GridCell>, cols: seq<Col>): (r: Result<Field>)
    requires forall i :: 0 <= i < |cells| ==> |cells[i].series| == |cols|
    ensures r.Failure? <==> ColumnDates(cols).Failure?
    ensures r.Success? ==> FieldShape(r.value) && |r.value.cells| == |cells| && r.value.times == ColumnDates(cols).value
    ensures r.Success? ==> forall i :: 0 <= i < |cells| ==> r.value.cells[i] == cells[i].series
  {
    match ColumnDates(cols)
    case Failure(e) => Failure(e)
    case Success(times) => Success(Field(times, seq(|cells|, i requires 0 <= i < |cells| => cells[i].series)))
  }

  // ---------------------------------------------------------------------------
  // combine_land_ocean_anomalies

  predicate DistinctTimes(times: seq<Date>)
  {
    forall a, b :: 0 <= a < b < |times| ==> times[a] != times[b]
  }

  /** The positions of the times not after `last`, ascending: `sel(time=slice(None, last))`. */
  function UpTo(times: seq<Date>, last: Date, lo: nat): (ks: seq<nat>)
    requires lo <= |times|
    ensures forall j :: 0 <= j < |ks| ==> lo <= ks[j] < |times| && DateLeq(times[ks[j]], last)
    ensures forall a, b :: 0 <= a < b < |ks| ==> ks[a] < ks[b]
    decreases |times| - lo
  {
    if lo == |times| then []
    else if DateLeq(times[lo], last) then [lo] + UpTo(times, last, lo + 1)
    else UpTo(times, last, lo + 1)
  }

  /** Every position from `lo` on whose time is not after `last` is kept. */
  lemma {:induction false} UpToComplete(times: seq<Date>, last: Date, lo: nat, k: nat)
    requires lo <= k < |times| && DateLeq(times[k], last)
    ensures k in UpTo(times, last, lo)
    decreases |times| - lo
  {
    if k > lo {
      UpToComplete(times, last, lo + 1, k);
    }
  }

  /** The field restricted to the times not after `last`, in the same order. */
  function Truncate(f: Field, last: Date): (r: Field)
    requires FieldShape(f)
    ensures FieldShape(r) && |r.cells| == |f.cells|
    ensures |r.times| == |UpTo(f.times, last, 0)|
    ensures forall j :: 0 <= j < |r.times| ==> r.times[j] == f.times[UpTo(f.times, last, 0)[j]]
    ensures forall p, j :: 0 <= p < |f.cells| && 0 <= j < |r.times| ==>
              r.cells[p][j] == f.cells[p][UpTo(f.times, last, 0)[j]]
  {
    var ks := UpTo(f.times, last, 0);
    Field(seq(|ks|, j requires 0 <= j < |ks| => f.times[ks[j]]),
          seq(|f.cells|, p requires 0 <= p < |f.cells| =>
                seq(|ks|, j requires 0 <= j < |ks| => f.cells[p][ks[j]])))
  }

  /** The times kept by the cut are exactly the times not after `last`. */
  lemma TruncateTimes(f: Field, last: Date, t: Date)
    requires FieldShape(f)
    ensures t in Truncate(f, last).times <==> t in f.times && DateLeq(t, last)
  {
    var ks := UpTo(f.times, last, 0);
    var r := Truncate(f, last);
    if t in f.times && DateLeq(t, last) {
      var k :| 0 <= k < |f.times| && f.times[k] == t;
      UpToComplete(f.times, last, 0, k);
      var j :| 0 <= j < |ks| && ks[j] == k;
      assert r.times[j] == t;
    }
  }

  /** The confidence weight `1 - missing / length`. */
  function MissingWeight(missing: nat, length: nat): real
    requires length > 0
  {
    1.0 - (missing as real) / (length as real)
  }

  /** The positions of the land times that are also ocean times: the inner join on time. */
  function Joined(landTimes: seq<Date>, oceanTimes: seq<Date>, lo: nat): (ks: seq<nat>)
    requires lo <= |landTimes|
    ensures forall j :: 0 <= j < |ks| ==> lo <= ks[j] < |landTimes| && landTimes[ks[j]] in oceanTimes
    ensures forall k :: lo <= k < |landTimes| && landTimes[k] in oceanTimes ==> k in ks
    ensures forall a, b :: 0 <= a < b < |ks| ==> ks[a] < ks[b]
    decreases |landTimes| - lo
  {
    if lo == |landTimes| then []
    else if landTimes[lo] in oceanTimes then [lo] + Joined(landTimes, oceanTimes, lo + 1)
    else Joined(landTimes, oceanTimes, lo + 1)
  }

  /** One blended value: both sides weighted, missing read as 0, an exact 0 made missing. */
  function Blend(l: Option<real>, o: Option<real>, wl: real, wo: real): Option<real>
  {
    ZeroToMissing(OrZero(l) * wl + OrZero(o) * wo)
  }

  /** The blended series of one grid point, over the joined times. */
  function BlendSeries(land: Field, ocean: Field, p: nat): (ys: seq<Option<real>>)
    requires FieldShape(land) && FieldShape(ocean) && p < |land.cells| && p < |ocean.cells|
    requires |ocean.times| > 0
  {
    var ks := Joined(land.times, ocean.times, 0);
    var wl := MissingWeight(CountMissing(land.cells[p]), |ocean.times|);
    var wo := MissingWeight(CountMissing(ocean.cells[p]), |ocean.times|);
    seq(|ks|, j requires 0 <= j < |ks| =>
          Blend(land.cells[p][ks[j]], ocean.cells[p][IndexOf(ocean.times, land.times[ks[j]]).value], wl, wo))
  }

  /** The joined times: the land times that are also ocean times, in land order. */
  function JoinedTimes(landTimes: seq<Date>, oceanTimes: seq<Date>): (ts: seq<Date>)
    ensures |ts| == |Joined(landTimes, oceanTimes, 0)|
    ensures forall j :: 0 <= j < |ts| ==> ts[j] == landTimes[Joined(landTimes, oceanTimes, 0)[j]]
  {
    var ks := Joined(landTimes, oceanTimes, 0);
    seq(|ks|, j requires 0 <= j < |ks| => landTimes[ks[j]])
  }

  /** A time is joined exactly when it is a land time and an ocean time. */
  lemma JoinedTimesMembers(landTimes: seq<Date>, oceanTimes: seq<Date>, t: Date)
    ensures t in JoinedTimes(landTimes, oceanTimes) <==> t in landTimes && t in oceanTimes
  {
    var ks := Joined(landTimes, oceanTimes, 0);
    var ts := JoinedTimes(landTimes, oceanTimes);
    if t in landTimes && t in oceanTimes {
      var k :| 0 <= k < |landTimes| && landTimes[k] == t;
      var j :| 0 <= j < |ks| && ks[j] == k;
      assert ts[j] == t;
    }
  }

  /** `combine_land_ocean_anomalies` on fields over the same grid points: land cut to the
      last ocean time, both sides weighted by their share of present values over the
      number of ocean times, and joined on time. Without ocean times `isel(time=-1)`
      raises. */
  function CombineLandOcean(land: Field, ocean: Field): (r: Result<Field>)
    requires FieldShape(land) && FieldShape(ocean) && |land.cells| == |ocean.cells|
    ensures r.Failure? <==> |ocean.times| == 0
    ensures r.Success? ==> FieldShape(r.value) && |r.value.cells| == |land.cells|
  {
    if |ocean.times| == 0 then Failure("IndexError")
    else
      var cut := Truncate(land, ocean.times[|ocean.times| - 1]);
      Success(Field(JoinedTimes(cut.times, ocean.times),
                    seq(|land.cells|, p requires 0 <= p < |land.cells| => BlendSeries(cut, ocean, p))))
  }

  /** The result's times are exactly the land times that are ocean times and not after the
      last ocean time. */
  lemma CombinedTimes(land: Field, ocean: Field, t: Date)
    requires FieldShape(land) && FieldShape(ocean) && |land.cells| == |ocean.cells|
    requires |ocean.times| > 0
    ensures t in CombineLandOcean(land, ocean).value.times <==>
              t in land.times && t in ocean.times && DateLeq(t, ocean.times[|ocean.times| - 1])
  {
    var cut := Truncate(land, ocean.times[|ocean.times| - 1]);
    JoinedTimesMembers(cut.times, ocean.times, t);
    TruncateTimes(land, ocean.times[|ocean.times| - 1], t);
  }

  /** The land weight of grid point `p`: its share of present values over the cut land
      times, counted against the number of ocean times. */
  function LandWeight(land: Field, ocean: Field, p: nat): real
    requires FieldShape(land) && p < |land.cells| && |ocean.times| > 0
  {
    MissingWeight(CountMissing(Truncate(land, ocean.times[|ocean.times| - 1]).cells[p]), |ocean.times|)
  }

  function OceanWeight(ocean: Field, p: nat): real
    requires p < |ocean.cells| && |ocean.times| > 0
  {
    MissingWeight(CountMissing(ocean.cells[p]), |ocean.times|)
  }

  /** The value at a joined time is the land value and the ocean value at that time, each
      weighted, missing read as 0, an exact 0 made missing. */
  lemma CombinedValue(land: Field, ocean: Field, p: nat, j: nat)
    requires FieldShape(land) && FieldShape(ocean) && |land.cells| == |ocean.cells|
    requires |ocean.times| > 0
    requires p < |land.cells| && j < |CombineLandOcean(land, ocean).value.times|
    ensures var r := CombineLandOcean(land, ocean).value;
            r.times[j] in ocean.times &&
            exists k :: 0 <= k < |land.times| && land.times[k] == r.times[j] &&
              r.cells[p][j] == Blend(land.cells[p][k], ocean.cells[p][IndexOf(ocean.times, r.times[j]).value],
                                     LandWeight(land, ocean, p), OceanWeight(ocean, p))
  {
    var r := CombineLandOcean(land, ocean).value;
    var cut := Truncate(land, ocean.times[|ocean.times| - 1]);
    var ks := Joined(cut.times, ocean.times, 0);
    var i := ks[j];
    var k := UpTo(land.times, ocean.times[|ocean.times| - 1], 0)[i];
    assert r.times[j] == cut.times[i] == land.times[k];
    assert r.cells[p] == BlendSeries(cut, ocean, p);
    assert cut.cells[p][i] == land.cells[p][k];
  }

  /** A confidence weight lies in `[0, 1]` when at most `length` values are missing; it is
      1 exactly when none is and 0 exactly when all are. */
  lemma MissingWeightBounds(missing: nat, length: nat)
    requires 0 < length && missing <= length
    ensures 0.0 <= MissingWeight(missing, length) <= 1.0
    ensures MissingWeight(missing, length) == 1.0 <==> missing == 0
    ensures MissingWeight(missing, length) == 0.0 <==> missing == length
  {
    var n := length as real;
    var m := missing as real;
    var q := m / n;
    assert q * n == m;
    if missing == 0 {
      assert q == 0.0;
    } else if missing == length {
      assert q == 1.0;
    } else {
      assert 0.0 < m < n;
      assert q <= 0.0 ==> q * n <= 0.0;
      assert q >= 1.0 ==> q * n >= n;
      assert 0.0 < q < 1.0;
    }
  }

  /** The ocean weight lies in `[0, 1]`: it is 1 when the ocean series has no missing value
      and 0 when it has no present one. */
  lemma OceanWeightBounds(ocean: Field, p: nat)
    requires p < |ocean.cells| && |ocean.times| > 0 && |ocean.cells[p]| == |ocean.times|
    ensures 0.0 <= OceanWeight(ocean, p) <= 1.0
    ensures OceanWeight(ocean, p) == 1.0 <==> CountMissing(ocean.cells[p]) == 0
    ensures OceanWeight(ocean, p) == 0.0 <==> CountPresent(ocean.cells[p]) == 0
  {
    MissingWeightBounds(CountMissing(ocean.cells[p]), |ocean.times|);
  }

  /** When the cut land series is no longer than the ocean series, the land weight lies in
      `[0, 1]` too. */
  lemma LandWeightBounds(land: Field, ocean: Field, p: nat)
    requires FieldShape(land) && p < |land.cells| && |ocean.times| > 0
    requires |Truncate(land, ocean.times[|ocean.times| - 1]).times| <= |ocean.times|
    ensures 0.0 <= LandWeight(land, ocean, p) <= 1.0
  {
    CutMissingAtMost(land, ocean, p);
    MissingWeightInUnit(CountMissing(Truncate(land, ocean.times[|ocean.times| - 1]).cells[p]), |ocean.times|);
  }

  lemma MissingWeightInUnit(missing: nat, length: nat)
    requires 0 < length && missing <= length
    ensures 0.0 <= MissingWeight(missing, length) <= 1.0
  {
    MissingWeightBounds(missing, length);
  }

  lemma CutMissingAtMost(land: Field, ocean: Field, p: nat)
    requires FieldShape(land) && p < |land.cells| && |ocean.times| > 0
    requires |Truncate(land, ocean.times[|ocean.times| - 1]).times| <= |ocean.times|
    ensures CountMissing(Truncate(land, ocean.times[|ocean.times| - 1]).cells[p]) <= |ocean.times|
  {
    var cut := Truncate(land, ocean.times[|ocean.times| - 1]);
    assert |cut.cells[p]| == |cut.times|;
  }

  /** A land series fully present, against an all-missing ocean series, comes through as
      the land value itself (an exact 0 still becomes missing). */
  lemma LandOnlyGivesLand(land: Field, ocean: Field, p: nat, j: nat)
    requires FieldShape(land) && FieldShape(ocean) && |land.cells| == |ocean.cells|
    requires |ocean.times| > 0 && p < |land.cells|
    requires forall k :: 0 <= k < |land.times| ==> land.cells[p][k].Some?
    requires forall q :: 0 <= q < |ocean.times| ==> ocean.cells[p][q].None?
    requires j < |CombineLandOcean(land, ocean).value.times|
    ensures exists k :: 0 <= k < |land.times| && land.times[k] == CombineLandOcean(land, ocean).value.times[j] &&
              CombineLandOcean(land, ocean).value.cells[p][j] == ZeroToMissing(land.cells[p][k].value)
  {
    LandOnlyWeights(land, ocean, p);
    CombinedValue(land, ocean, p, j);
  }

  lemma LandOnlyWeights(land: Field, ocean: Field, p: nat)
    requires FieldShape(land) && FieldShape(ocean) && |land.cells| == |ocean.cells|
    requires |ocean.times| > 0 && p < |land.cells|
    requires forall k :: 0 <= k < |land.times| ==> land.cells[p][k].Some?
    requires forall q :: 0 <= q < |ocean.times| ==> ocean.cells[p][q].None?
    ensures LandWeight(land, ocean, p) == 1.0 && OceanWeight(ocean, p) == 0.0
  {
    var cut := Truncate(land, ocean.times[|ocean.times| - 1]);
    var ks := UpTo(land.times, ocean.times[|ocean.times| - 1], 0);
    forall j | 0 <= j < |cut.cells[p]| ensures cut.cells[p][j].Some? {
      assert cut.cells[p][j] == land.cells[p][ks[j]];
    }
    CountAllPresent(cut.cells[p]);
    CountNonePresent(ocean.cells[p]);
    MissingWeightBounds(CountMissing(cut.cells[p]), |ocean.times|);
    MissingWeightBounds(CountMissing(ocean.cells[p]), |ocean.times|);
  }

  /** A series with no present value counts every value as missing. */
  lemma CountNonePresent(xs: seq<Option<real>>)
    requires forall k :: 0 <= k < |xs| ==> xs[k].None?
    ensures CountMissing(xs) == |xs|
  {
  }

  /** A series with no missing value counts every value as present. */
  lemma {:induction false} CountAllPresent(xs: seq<Option<real>>)
    requires forall k :: 0 <= k < |xs| ==> xs[k].Some?
    ensures CountPresent(xs) == |xs|
  {
    if |xs| > 0 {
      CountAllPresent(xs[1..]);
    }
  }

  /** When no time lies after `last`, the cut keeps every position. */
  lemma {:induction false} UpToAll(times: seq<Date>, last: Date, lo: nat)
    requires lo <= |times|
    requires forall k :: lo <= k < |times| ==> DateLeq(times[k], last)
    ensures |UpTo(times, last, lo)| == |times| - lo
    ensures forall j :: 0 <= j < |times| - lo ==> UpTo(times, last, lo)[j] == lo + j
    decreases |times| - lo
  {
    if lo == |times| {
      assert UpTo(times, last, lo) == [];
    } else {
      UpToAll(times, last, lo + 1);
      UpToCons(times, last, lo);
      ConsRange(lo, UpTo(times, last, lo + 1));
    }
  }

  lemma UpToCons(times: seq<Date>, last: Date, lo: nat)
    requires lo < |times| && DateLeq(times[lo], last)
    ensures UpTo(times, last, lo) == [lo] + UpTo(times, last, lo + 1)
  {
  }

  /** Prefixing `lo` to the positions `lo + 1, lo + 2, ...` gives `lo, lo + 1, ...`. */
  lemma ConsRange(lo: nat, rest: seq<nat>)
    requires forall j :: 0 <= j < |rest| ==> rest[j] == lo + 1 + j
    ensures forall j :: 0 <= j < |rest| + 1 ==> ([lo] + rest)[j] == lo + j
  {
    forall j | 0 <= j < |rest| + 1 ensures ([lo] + rest)[j] == lo + j {
      if j > 0 {
        assert ([lo] + rest)[j] == rest[j - 1];
      }
    }
  }

  /** When no time lies after `last`, the cut leaves the field as it is. */
  lemma TruncateNothing(f: Field, last: Date)
    requires FieldShape(f)
    requires forall k :: 0 <= k < |f.times| ==> DateLeq(f.times[k], last)
    ensures Truncate(f, last) == f
  {
    UpToAll(f.times, last, 0);
    var ks := UpTo(f.times, last, 0);
    var r := Truncate(f, last);
    assert r.times == f.times by {
      forall j | 0 <= j < |f.times| ensures r.times[j] == f.times[j] {
        assert ks[j] == j;
      }
    }
    forall p | 0 <= p < |f.cells| ensures r.cells[p] == f.cells[p] {
      assert |r.cells[p]| == |f.cells[p]|;
      forall j | 0 <= j < |f.times| ensures r.cells[p][j] == f.cells[p][j] {
        assert ks[j] == j;
      }
    }
    assert r.cells == f.cells;
  }

  /** The land weight is not bounded below: with three land times, two of them missing,
      and one ocean time, it is -1, and a land anomaly of 1 is reported as -1. */
  lemma LandWeightCanBeNegative()
    ensures var d1, d2, d3 := Date(2000, 1, 1), Date(2000, 2, 1), Date(2000, 3, 1);
            var land := Field([d1, d2, d3], [[None, None, Some(1.0)]]);
            var ocean := Field([d3], [[None]]);
            && LandWeight(land, ocean, 0) == -1.0
            && CombineLandOcean(land, ocean).value.times == [d3]
            && CombineLandOcean(land, ocean).value.cells[0] == [Some(-1.0)]
  {
    var d1, d2, d3 := Date(2000, 1, 1), Date(2000, 2, 1), Date(2000, 3, 1);
    var land := Field([d1, d2, d3], [[None, None, Some(1.0)]]);
    var ocean := Field([d3], [[None]]);
    NegativeLandWeight(land, ocean);
    NegativeCombined(land, ocean);
  }

  lemma NegativeLandWeight(land: Field, ocean: Field)
    requires land == Field([Date(2000, 1, 1), Date(2000, 2, 1), Date(2000, 3, 1)], [[None, None, Some(1.0)]])
    requires ocean == Field([Date(2000, 3, 1)], [[None]])
    ensures LandWeight(land, ocean, 0) == -1.0
  {
    TruncateNothing(land, Date(2000, 3, 1));
    NegativeWeights(land, ocean);
  }

  lemma NegativeCombined(land: Field, ocean: Field)
    requires land == Field([Date(2000, 1, 1), Date(2000, 2, 1), Date(2000, 3, 1)], [[None, None, Some(1.0)]])
    requires ocean == Field([Date(2000, 3, 1)], [[None]])
    ensures CombineLandOcean(land, ocean).value.times == [Date(2000, 3, 1)]
    ensures CombineLandOcean(land, ocean).value.cells[0] == [Some(-1.0)]
  {
    CombineParts(land, ocean, 0);
    TruncateNothing(land, Date(2000, 3, 1));
    NegativeJoin(land.times, ocean.times);
    NegativeBlend(land, ocean);
  }

  lemma CombineParts(land: Field, ocean: Field, p: nat)
    requires FieldShape(land) && FieldShape(ocean) && |land.cells| == |ocean.cells|
    requires |ocean.times| > 0 && p < |land.cells|
    ensures var cut := Truncate(land, ocean.times[|ocean.times| - 1]);
            && CombineLandOcean(land, ocean).value.times == JoinedTimes(cut.times, ocean.times)
            && CombineLandOcean(land, ocean).value.cells[p] == BlendSeries(cut, ocean, p)
  {
  }

  lemma NegativeBlend(land: Field, ocean: Field)
    requires land == Field([Date(2000, 1, 1), Date(2000, 2, 1), Date(2000, 3, 1)], [[None, None, Some(1.0)]])
    requires ocean == Field([Date(2000, 3, 1)], [[None]])
    ensures BlendSeries(land, ocean, 0) == [Some(-1.0)]
  {
    NegativeWeights(land, ocean);
    NegativeJoin(land.times, ocean.times);
    assert IndexOf(ocean.times, Date(2000, 3, 1)) == Some(0);
    assert BlendSeries(land, ocean, 0) == [Blend(Some(1.0), None, -1.0, 0.0)];
  }

  lemma NegativeWeights(land: Field, ocean: Field)
    requires land == Field([Date(2000, 1, 1), Date(2000, 2, 1), Date(2000, 3, 1)], [[None, None, Some(1.0)]])
    requires ocean == Field([Date(2000, 3, 1)], [[None]])
    ensures MissingWeight(CountMissing(land.cells[0]), |ocean.times|) == -1.0
    ensures MissingWeight(CountMissing(ocean.cells[0]), |ocean.times|) == 0.0
  {
    assert CountPresent(land.cells[0][2..]) == 1;
    assert CountPresent(land.cells[0][1..]) == 1;
    assert CountPresent(land.cells[0]) == 1;
  }

  lemma NegativeJoin(landTimes: seq<Date>, oceanTimes: seq<Date>)
    requires landTimes == [Date(2000, 1, 1), Date(2000, 2, 1), Date(2000, 3, 1)]
    requires oceanTimes == [Date(2000, 3, 1)]
    ensures Joined(landTimes, oceanTimes, 0) == [2]
    ensures JoinedTimes(landTimes, oceanTimes) == [Date(2000, 3, 1)]
  {
    assert Joined(landTimes, oceanTimes, 3) == [];
    assert Joined(landTimes, oceanTimes, 2) == [2];
    assert Joined(landTimes, oceanTimes, 1) == [2];
  }
}

=== FILE: tables.dfy ===
/** Station tables as the steps pass them along: one row per station, indexed by
    Station_ID, with Latitude, Longitude and one column "m_y" per month m of year y. */
module Tables {
  import opened Values
  import opened Dicts
  import opened Text

  /** The time column named "{month}_{year}". */
  datatype Col = Col(month: int, year: int)

  /** A point on the time axis. */
  datatype Date = Date(year: int, month: int, day: int)

  /** Chronological order of dates. */
  predicate DateLeq(a: Date, b: Date)
  {
    a.year < b.year || (a.year == b.year && (a.month < b.month || (a.month == b.month && a.day <= b.day)))
  }

  /** A station row: its index label, coordinates (possibly NaN) and the values of the
      time columns, aligned with the table's `cols`. */
  datatype Row = Row(id: string, lat: Option<real>, lon: Option<real>, series: seq<Option<real>>)

  datatype Table = Table(cols: seq<Col>, rows: seq<Row>)

  predicate WellFormed(t: Table)
  {
    forall i :: 0 <= i < |t.rows| ==> |t.rows[i].series| == |t.cols|
  }

  /** The index holds each Station_ID once, as it does after `pivot`. */
  predicate DistinctIds(rows: seq<Row>)
  {
    forall i, j :: 0 <= i < j < |rows| ==> rows[i].id != rows[j].id
  }

  /** Each column name occurs once. */
  predicate DistinctCols(cols: seq<Col>)
  {
    forall p, q :: 0 <= p < q < |cols| ==> cols[p] != cols[q]
  }

  function Ids(rows: seq<Row>): set<string>
  {
    set i | 0 <= i < |rows| :: rows[i].id
  }

  /** `f"{month}_{year}"`. */
  function ColumnName(c: Col): string
  {
    IntToStr(c.month) + "_" + IntToStr(c.year)
  }

  lemma IntToStrUnderscoreFree(n: int)
    ensures Free(IntToStr(n), '_')
  {
  }

  /** Splitting a column name at "_" gives back the month and the year text. */
  lemma SplitColumnName(c: Col)
    ensures SplitOn(ColumnName(c), '_') == [IntToStr(c.month), IntToStr(c.year)]
  {
    IntToStrUnderscoreFree(c.month);
    IntToStrUnderscoreFree(c.year);
    var parts := [IntToStr(c.month), IntToStr(c.year)];
    assert Join(parts[1..], '_') == IntToStr(c.year);
    assert Join(parts, '_') == ColumnName(c);
    SplitJoin(parts, '_');
  }

  /** Different columns have different names. */
  lemma ColumnNameInjective(a: Col, b: Col)
    requires ColumnName(a) == ColumnName(b)
    ensures a == b
  {
    SplitColumnName(a);
    SplitColumnName(b);
    IntToStrInjective(a.month, b.month);
    IntToStrInjective(a.year, b.year);
  }

  /** The twelve columns of year `y`, months 1 to 12. */
  function MonthsOf(y: int): (cs: seq<Col>)
    ensures |cs| == 12
    ensures forall m :: 0 <= m < 12 ==> cs[m] == Col(m + 1, y)
  {
    seq(12, m requires 0 <= m < 12 => Col(m + 1, y))
  }

  /** For each year in turn, its twelve month columns: the year-major layout. */
  function YearColumns(years: seq<int>): (cs: seq<Col>)
    ensures |cs| == 12 * |years|
    ensures forall k :: 0 <= k < |cs| ==> cs[k] == Col(k % 12 + 1, years[k / 12])
  {
    if |years| == 0 then []
    else
      var rest := YearColumns(years[1..]);
      var cs := MonthsOf(years[0]) + rest;
      assert forall k :: 12 <= k < |cs| ==> cs[k] == rest[k - 12];
      assert forall k :: 12 <= k < |cs| ==> (k - 12) % 12 == k % 12 && (k - 12) / 12 == k / 12 - 1;
      cs
  }

  /** The time columns of the analysis period `[start, end]`: years outer, months inner. */
  function TimeColumns(start: int, end: int): (cs: seq<Col>)
    ensures |cs| == if start <= end then 12 * (end - start + 1) else 0
    ensures forall k :: 0 <= k < |cs| ==> cs[k] == Col(k % 12 + 1, start + k / 12)
  {
    var years := seq(if start <= end then end - start + 1 else 0, i => start + i);
    YearColumns(years)
  }

  /** Month `m` of year `y` sits at position `12 * (y - start) + m - 1`, and nowhere else. */
  lemma TimeColumnPosition(start: int, end: int, m: int, y: int, k: int)
    requires 1 <= m <= 12 && start <= y <= end
    requires 0 <= k < |TimeColumns(start, end)|
    ensures TimeColumns(start, end)[k] == Col(m, y) <==> k == 12 * (y - start) + m - 1
  {
  }

  /** Position of the first element equal to `c`: a column lookup by name, or a time
      lookup on a time index. */
  function IndexOf<T(==)>(cols: seq<T>, c: T): (r: Option<nat>)
    ensures r.Some? ==> r.value < |cols| && cols[r.value] == c
    ensures r.Some? ==> forall k :: 0 <= k < r.value ==> cols[k] != c
    ensures r.None? <==> c !in cols
  {
    if |cols| == 0 then None
    else if cols[0] == c then Some(0)
    else
      match IndexOf(cols[1..], c)
      case Some(k) => Some(k + 1)
      case None => None
  }

  lemma IndexOfTimeColumn(start: int, end: int, m: int, y: int)
    requires 1 <= m <= 12 && start <= y <= end
    ensures IndexOf(TimeColumns(start, end), Col(m, y)) == Some(12 * (y - start) + m - 1)
  {
    var cs := TimeColumns(start, end);
    var k := 12 * (y - start) + m - 1;
    assert cs[k] == Col(m, y);
    assert Col(m, y) in cs;
    var r := IndexOf(cs, Col(m, y)).value;
    TimeColumnPosition(start, end, m, y, r);
  }

  /** Position of the first row with index label `id`: `df.loc[id]`. */
  function RowIndex(rows: seq<Row>, id: string): (r: Option<nat>)
    ensures r.Some? ==> r.value < |rows| && rows[r.value].id == id
    ensures r.None? <==> id !in Ids(rows)
  {
    if |rows| == 0 then None
    else if rows[0].id == id then Some(0)
    else
      match RowIndex(rows[1..], id)
      case Some(k) => Some(k + 1)
      case None =>
        assert forall i :: 1 <= i < |rows| ==> rows[i] == rows[1..][i - 1];
        None
  }

  predicate HasColumn(rows: seq<Row>, c: nat)
  {
    forall i :: 0 <= i < |rows| ==> c < |rows[i].series|
  }

  /** Contribution of one weighted station to column `c`: weight times value, 0 when the
      station is not in the table or its value is missing. */
  function Term(e: (string, real), rows: seq<Row>, c: nat): real
    requires HasColumn(rows, c)
  {
    match RowIndex(rows, e.0)
    case Some(i) => e.1 * OrZero(rows[i].series[c])
    case None => 0.0
  }

  /** Column `c` of the stations in `w`, each multiplied by its weight, then summed
      with missing values skipped (`multiply` then `sum`). */
  function WeightedSum(w: Dict<string, real>, rows: seq<Row>, c: nat): real
    requires HasColumn(rows, c)
  {
    if |w| == 0 then 0.0 else Term(w[0], rows, c) + WeightedSum(w[1..], rows, c)
  }

  /** The weighted sum of every time column, with an exact 0 turned into missing. */
  function Composite(w: Dict<string, real>, rows: seq<Row>, n: nat): (s: seq<Option<real>>)
    requires forall c :: 0 <= c < n ==> HasColumn(rows, c)
    ensures |s| == n
    ensures forall c :: 0 <= c < n ==> s[c] == ZeroToMissing(WeightedSum(w, rows, c))
  {
    seq(n, c requires 0 <= c < n && HasColumn(rows, c) => ZeroToMissing(WeightedSum(w, rows, c)))
  }

  /** Stations of `w` that are absent from the table add nothing, and the weights of the
      others are used as they are, without renormalising. */
  lemma {:induction false} WeightedSumIgnoresAbsent(w: Dict<string, real>, rows: seq<Row>, c: nat)
    requires HasColumn(rows, c)
    ensures WeightedSum(w, rows, c) == WeightedSum(Restrict(w, Ids(rows)), rows, c)
  {
    if |w| > 0 {
      WeightedSumIgnoresAbsent(w[1..], rows, c);
      if w[0].0 in Ids(rows) {
        assert Restrict(w, Ids(rows)) == [w[0]] + Restrict(w[1..], Ids(rows));
        assert ([w[0]] + Restrict(w[1..], Ids(rows)))[1..] == Restrict(w[1..], Ids(rows));
      }
    }
  }

  /** With no present value among the stations of `w`, the sum is 0 and so missing. */
  lemma {:induction false} WeightedSumAllMissing(w: Dict<string, real>, rows: seq<Row>, c: nat)
    requires HasColumn(rows, c)
    requires forall i :: 0 <= i < |rows| && rows[i].id in Keys(w) ==> rows[i].series[c].None?
    ensures WeightedSum(w, rows, c) == 0.0
  {
    if |w| > 0 {
      KeysCons(w);
      WeightedSumAllMissing(w[1..], rows, c);
    }
  }

  /** When every station of `w` is in the table with the same present value `v`, the weighted
      sum is `v` times the total weight; with normalised weights, it is `v` itself. */
  lemma {:induction false} WeightedSumOfConstant(w: Dict<string, real>, rows: seq<Row>, c: nat, v: real)
    requires HasColumn(rows, c)
    requires Keys(w) <= Ids(rows)
    requires forall i :: 0 <= i < |rows| && rows[i].id in Keys(w) ==> rows[i].series[c] == Some(v)
    ensures WeightedSum(w, rows, c) == v * Total(w)
  {
    if |w| > 0 {
      KeysCons(w);
      WeightedSumOfConstant(w[1..], rows, c, v);
      assert w[0].0 in Ids(rows);
    }
  }
}

=== FILE: text.dfy ===
/** The Python string primitives the pipeline leans on: `str.strip`, `str.split`
    (with and without a separator), `str.splitlines`, slicing, `str(int)` and `int(str)`. */
module Text {
  import opened Values

  /** Python's `str.isspace`: the characters of Unicode category Zs or of bidirectional
      class WS, B or S. */
  predicate IsSpace(c: char)
  {
    c == ' ' || c == '\t' || c == '\n' || c == '\r' || c == '\U{000B}' || c == '\U{000C}'
    || c == '\U{001C}' || c == '\U{001D}' || c == '\U{001E}' || c == '\U{001F}'
    || c == '\U{0085}' || c == '\U{00A0}' || c == '\U{1680}'
    || ('\U{2000}' <= c <= '\U{200A}')
    || c == '\U{2028}' || c == '\U{2029}' || c == '\U{202F}' || c == '\U{205F}' || c == '\U{3000}'
  }

  predicate NoSpace(s: string)
  {
    forall i :: 0 <= i < |s| ==> !IsSpace(s[i])
  }

  predicate IsDigit(c: char)
  {
    '0' <= c <= '9'
  }

  predicate AllDigits(s: string)
  {
    forall i :: 0 <= i < |s| ==> IsDigit(s[i])
  }

  // ---------------------------------------------------------------------------
  // str.strip()

  function StripLeft(s: string): (r: string)
    ensures |r| <= |s| && r == s[|s| - |r|..]
    ensures |r| > 0 ==> !IsSpace(r[0])
  {
    if |s| > 0 && IsSpace(s[0]) then StripLeft(s[1..]) else s
  }

  function StripRight(s: string): (r: string)
    ensures |r| <= |s| && r == s[..|r|]
    ensures |r| > 0 ==> !IsSpace(r[|r| - 1])
  {
    if |s| > 0 && IsSpace(s[|s| - 1]) then StripRight(s[..|s| - 1]) else s
  }

  /** `s.strip()`: drop leading and trailing whitespace. */
  function Strip(s: string): (r: string)
    ensures |r| > 0 ==> !IsSpace(r[0]) && !IsSpace(r[|r| - 1])
    ensures (forall i :: 0 <= i < |s| ==> IsSpace(s[i])) <==> |r| == 0
  {
    var r := StripRight(StripLeft(s));
    assert |r| == 0 ==> forall i :: 0 <= i < |s| ==> IsSpace(s[i]) by {
      if |r| == 0 {
        BlankPrefixOfStripLeft(s, StripLeft(s));
        BlankStripRight(StripLeft(s));
      }
    }
    r
  }

  lemma {:induction false} BlankPrefixOfStripLeft(s: string, l: string)
    requires l == StripLeft(s)
    ensures forall i :: 0 <= i < |s| - |l| ==> IsSpace(s[i])
    decreases |s|
  {
    if |s| > 0 && IsSpace(s[0]) {
      var t := s[1..];
      assert StripLeft(s) == StripLeft(t);
      BlankPrefixOfStripLeft(t, l);
      forall i | 1 <= i < |s| - |l| ensures IsSpace(s[i]) {
        assert s[i] == t[i - 1];
      }
    }
  }

  lemma {:induction false} BlankStripRight(s: string)
    requires |StripRight(s)| == 0
    ensures forall i :: 0 <= i < |s| ==> IsSpace(s[i])
    decreases |s|
  {
    if |s| > 0 {
      BlankStripRight(s[..|s| - 1]);
    }
  }

  lemma StripOfSpaceFree(s: string)
    requires NoSpace(s)
    ensures Strip(s) == s
  {
  }

  /** Leading spaces in front of a space-free text are all that `strip` removes. */
  lemma {:induction false} StripPadded(pad: string, s: string)
    requires forall i :: 0 <= i < |pad| ==> pad[i] == ' '
    requires NoSpace(s) && |s| > 0
    ensures Strip(pad + s) == s
  {
    StripLeftPadded(pad, s);
    assert !IsSpace(s[0]) && !IsSpace(s[|s| - 1]);
    assert StripLeft(s) == s;
    assert StripRight(s) == s;
    assert Strip(pad + s) == StripRight(StripLeft(pad + s));
  }

  lemma {:induction false} StripLeftPadded(pad: string, s: string)
    requires forall i :: 0 <= i < |pad| ==> pad[i] == ' '
    requires NoSpace(s) && |s| > 0
    ensures StripLeft(pad + s) == StripLeft(s)
  {
    if |pad| > 0 {
      assert (pad + s)[1..] == pad[1..] + s;
      StripLeftPadded(pad[1..], s);
    } else {
      assert pad + s == s;
    }
  }

  // ---------------------------------------------------------------------------
  // Python slicing s[i:j] with non-negative bounds, which clamps to the string

  function Slice(s: string, i: nat, j: nat): (r: string)
    ensures |r| <= |s|
    ensures i <= j && j <= |s| ==> r == s[i..j]
  {
    var a := if i <= |s| then i else |s|;
    var b := if j <= |s| then j else |s|;
    if a <= b then s[a..b] else ""
  }

  // ---------------------------------------------------------------------------
  // str.split(sep) and its inverse sep.join(parts)

  function Occurrences(s: string, c: char): nat
  {
    if |s| == 0 then 0 else (if s[0] == c then 1 else 0) + Occurrences(s[1..], c)
  }

  predicate Free(s: string, c: char)
  {
    forall i :: 0 <= i < |s| ==> s[i] != c
  }

  /** `s.split(c)`: the pieces between occurrences of `c`; never empty. */
  function SplitOn(s: string, c: char): (r: seq<string>)
    ensures |r| == Occurrences(s, c) + 1
    ensures forall k :: 0 <= k < |r| ==> Free(r[k], c)
  {
    if |s| == 0 then [""]
    else if s[0] == c then [""] + SplitOn(s[1..], c)
    else
      var rest := SplitOn(s[1..], c);
      [[s[0]] + rest[0]] + rest[1..]
  }

  /** `c.join(parts)`. */
  function Join(parts: seq<string>, c: char): string
    requires |parts| > 0
  {
    if |parts| == 1 then parts[0] else parts[0] + [c] + Join(parts[1..], c)
  }

  /** Splitting and then joining on the same separator gives the string back. */
  lemma {:induction false} JoinSplit(s: string, c: char)
    ensures Join(SplitOn(s, c), c) == s
  {
    if |s| == 0 {
    } else if s[0] == c {
      JoinSplit(s[1..], c);
      var rest := SplitOn(s[1..], c);
      assert SplitOn(s, c) == [""] + rest;
      assert ([""] + rest)[1..] == rest;
    } else {
      JoinSplit(s[1..], c);
      var rest := SplitOn(s[1..], c);
      var r := SplitOn(s, c);
      assert r == [[s[0]] + rest[0]] + rest[1..];
      if |rest| == 1 {
        assert r == [[s[0]] + rest[0]];
      } else {
        assert r[1..] == rest[1..];
        assert Join(rest, c) == rest[0] + [c] + Join(rest[1..], c);
      }
    }
  }

  /** Joining separator-free pieces and splitting again gives the pieces back. */
  lemma {:induction false} SplitJoin(parts: seq<string>, c: char)
    requires |parts| > 0
    requires forall k :: 0 <= k < |parts| ==> Free(parts[k], c)
    ensures SplitOn(Join(parts, c), c) == parts
    decreases |parts|, |parts[0]|
  {
    if |parts| == 1 {
      SplitFree(parts[0], c);
    } else if |parts[0]| == 0 {
      SplitJoin(parts[1..], c);
      var j := Join(parts, c);
      assert j == [c] + Join(parts[1..], c);
      assert j[1..] == Join(parts[1..], c);
      assert parts == [""] + parts[1..];
    } else {
      var p0 := parts[0];
      var shorter := [p0[1..]] + parts[1..];
      assert shorter[1..] == parts[1..];
      SplitJoin(shorter, c);
      var j := Join(parts, c);
      assert Join(shorter, c) == p0[1..] + [c] + Join(parts[1..], c);
      assert j == [p0[0]] + Join(shorter, c);
      assert j[1..] == Join(shorter, c);
      assert [p0[0]] + p0[1..] == p0;
    }
  }

  /** A string holding the separator splits into at least two pieces. */
  lemma {:induction false} SplitAtOccurrence(s: string, c: char)
    requires c in s
    ensures |SplitOn(s, c)| >= 2
  {
    if s[0] != c {
      assert c in s[1..];
      SplitAtOccurrence(s[1..], c);
    }
  }

  /** Two separator-free pieces joined by the separator split back into those two. */
  lemma SplitPair(a: string, b: string, c: char)
    requires Free(a, c) && Free(b, c)
    ensures c in a + [c] + b
    ensures SplitOn(a + [c] + b, c) == [a, b]
  {
    assert (a + [c] + b)[|a|] == c;
    assert Join([a, b][1..], c) == b;
    assert Join([a, b], c) == a + [c] + b;
    SplitJoin([a, b], c);
  }

  /** Text free of `c` on either side of a `c` holds no character of `d` other than `c`. */
  lemma JoinedFree(a: string, b: string, c: char, d: char)
    requires Free(a, d) && Free(b, d) && c != d
    ensures Free(a + [c] + b, d)
  {
    var p := a + [c] + b;
    forall i | 0 <= i < |p| ensures p[i] != d {
      if i < |a| {
        assert p[i] == a[i];
      } else if i > |a| {
        assert p[i] == b[i - |a| - 1];
      }
    }
  }

  lemma {:induction false} SplitFree(s: string, c: char)
    requires Free(s, c)
    ensures SplitOn(s, c) == [s]
  {
    if |s| > 0 {
      SplitFree(s[1..], c);
      assert [s[0]] + s[1..] == s;
    }
  }

  // ---------------------------------------------------------------------------
  // str.split() without a separator

  /** Length of the leading run of non-space characters. */
  function RunLength(s: string): (k: nat)
    ensures k <= |s|
    ensures NoSpace(s[..k])
    ensures k < |s| ==> IsSpace(s[k])
  {
    if |s| == 0 || IsSpace(s[0]) then 0
    else
      var k := RunLength(s[1..]);
      assert s[..k + 1] == [s[0]] + s[1..][..k];
      k + 1
  }

  /** `s.split()`: the maximal runs of non-whitespace characters, in order. */
  function SplitWhitespace(s: string): (r: seq<string>)
    ensures forall k :: 0 <= k < |r| ==> |r[k]| > 0 && NoSpace(r[k])
    decreases |s|
  {
    if |s| == 0 then []
    else if IsSpace(s[0]) then SplitWhitespace(s[1..])
    else
      var k := RunLength(s);
      [s[..k]] + SplitWhitespace(s[k..])
  }

  /** `" ".join(tokens)`. */
  function JoinSpaces(tokens: seq<string>): string
  {
    if |tokens| == 0 then ""
    else if |tokens| == 1 then tokens[0]
    else tokens[0] + " " + JoinSpaces(tokens[1..])
  }

  /** Whitespace-splitting a line built from non-empty space-free tokens recovers the tokens. */
  lemma {:induction false} SplitWhitespaceJoin(tokens: seq<string>)
    requires forall k :: 0 <= k < |tokens| ==> |tokens[k]| > 0 && NoSpace(tokens[k])
    ensures SplitWhitespace(JoinSpaces(tokens)) == tokens
  {
    if |tokens| == 0 {
    } else {
      var t := tokens[0];
      var rest := if |tokens| == 1 then "" else " " + JoinSpaces(tokens[1..]);
      var s := JoinSpaces(tokens);
      assert s == t + rest;
      RunLengthOfToken(t, rest);
      assert s[..|t|] == t;
      assert s[|t|..] == rest;
      if |tokens| == 1 {
        assert tokens == [t];
      } else {
        SplitWhitespaceJoin(tokens[1..]);
        assert rest[1..] == JoinSpaces(tokens[1..]);
        assert SplitWhitespace(rest) == SplitWhitespace(rest[1..]);
        assert tokens == [t] + tokens[1..];
      }
    }
  }

  lemma {:induction false} RunLengthOfToken(t: string, rest: string)
    requires NoSpace(t)
    requires |rest| == 0 || IsSpace(rest[0])
    ensures RunLength(t + rest) == |t|
  {
    if |t| > 0 {
      assert (t + rest)[1..] == t[1..] + rest;
      RunLengthOfToken(t[1..], rest);
    } else {
      assert t + rest == rest;
    }
  }

  // ---------------------------------------------------------------------------
  // str.splitlines()

  /** The line boundaries of `str.splitlines`. */
  predicate IsLineBreak(c: char)
  {
    c == '\n' || c == '\r' || c == '\U{000B}' || c == '\U{000C}' || c == '\U{001C}' || c == '\U{001D}'
    || c == '\U{001E}' || c == '\U{0085}' || c == '\U{2028}' || c == '\U{2029}'
  }

  predicate NoLineBreak(s: string)
  {
    forall i :: 0 <= i < |s| ==> !IsLineBreak(s[i])
  }

  /** Length of the text before the first line boundary. */
  function LineLength(s: string): (n: nat)
    ensures n <= |s|
    ensures n < |s| ==> IsLineBreak(s[n])
    ensures forall i :: 0 <= i < n ==> !IsLineBreak(s[i])
  {
    if |s| == 0 || IsLineBreak(s[0]) then 0 else 1 + LineLength(s[1..])
  }

  /** `s.splitlines()`: the lines without their boundaries, where "\r\n" is one boundary
      and a boundary at the very end starts no further line. */
  function SplitLines(s: string): (r: seq<string>)
    ensures forall k :: 0 <= k < |r| ==> NoLineBreak(r[k])
    decreases |s|
  {
    if |s| == 0 then []
    else
      var n := LineLength(s);
      if n == |s| then [s]
      else
        var next := if s[n] == '\r' && n + 1 < |s| && s[n + 1] == '\n' then n + 2 else n + 1;
        [s[..n]] + SplitLines(s[next..])
  }

  /** Lines written each followed by "\n". */
  function JoinLines(lines: seq<string>): string
  {
    if |lines| == 0 then "" else lines[0] + "\n" + JoinLines(lines[1..])
  }

  /** Lines without boundaries, each written with a trailing "\n", split back into exactly
      those lines: no empty line appears after the last boundary. */
  lemma {:induction false} SplitLinesJoin(lines: seq<string>)
    requires forall k :: 0 <= k < |lines| ==> NoLineBreak(lines[k])
    ensures SplitLines(JoinLines(lines)) == lines
  {
    if |lines| > 0 {
      var l, rest := lines[0], JoinLines(lines[1..]);
      var s := JoinLines(lines);
      assert s == l + ("\n" + rest);
      LineLengthOf(l, "\n" + rest);
      assert s[..|l|] == l;
      assert s[|l| + 1..] == rest;
      SplitLinesJoin(lines[1..]);
      assert lines == [l] + lines[1..];
    }
  }

  /** A boundary-free text followed by a boundary is one line of that length. */
  lemma {:induction false} LineLengthOf(l: string, rest: string)
    requires NoLineBreak(l) && |rest| > 0 && IsLineBreak(rest[0])
    ensures LineLength(l + rest) == |l|
  {
    if |l| > 0 {
      assert (l + rest)[1..] == l[1..] + rest;
      LineLengthOf(l[1..], rest);
    } else {
      assert l + rest == rest;
    }
  }

  /** "\r\n" is a single boundary: "a\r\nb" gives the two lines "a" and "b", not an empty
      line between them. */
  lemma SplitLinesCrLf(a: string, b: string)
    requires NoLineBreak(a) && NoLineBreak(b) && |b| > 0
    ensures SplitLines(a + "\r\n" + b) == [a, b]
  {
    var s := a + "\r\n" + b;
    assert s == a + ("\r\n" + b);
    LineLengthOf(a, "\r\n" + b);
    assert s[|a|] == '\r' && s[|a| + 1] == '\n';
    assert s[..|a|] == a;
    assert s[|a| + 2..] == b;
    assert SplitLines(s) == [a] + SplitLines(b);
    SplitLinesWhole(b);
  }

  /** A nonempty text without a boundary is a single line. */
  lemma SplitLinesWhole(b: string)
    requires NoLineBreak(b) && |b| > 0
    ensures SplitLines(b) == [b]
  {
    assert LineLength(b) == |b|;
  }

  // ---------------------------------------------------------------------------
  // str(n) and int(s)

  function DigitChar(d: nat): (c: char)
    requires d < 10
    ensures IsDigit(c)
  {
    ['0', '1', '2', '3', '4', '5', '6', '7', '8', '9'][d]
  }

  function DigitValue(c: char): (d: nat)
    requires IsDigit(c)
    ensures d < 10
  {
    (c as int - '0' as int) as nat
  }

  function NatToStr(n: nat): (s: string)
    ensures |s| > 0 && AllDigits(s)
  {
    if n < 10 then [DigitChar(n)] else NatToStr(n / 10) + [DigitChar(n % 10)]
  }

  /** `str(n)`: optional minus sign, then decimal digits without leading zeros. */
  function IntToStr(n: int): (s: string)
    ensures |s| > 0 && NoSpace(s)
    ensures forall i :: 0 <= i < |s| ==> s[i] == '-' || IsDigit(s[i])
  {
    var s := if n < 0 then "-" + NatToStr(-n) else NatToStr(n);
    assert forall i :: 0 <= i < |s| ==> s[i] == '-' || IsDigit(s[i]);
    s
  }

  /** Value of a string of decimal digits, most significant first. */
  function DigitsValue(s: string): nat
    requires AllDigits(s)
  {
    if |s| == 0 then 0 else DigitsValue(s[..|s| - 1]) * 10 + DigitValue(s[|s| - 1])
  }

  /** `int(s)` for a string: surrounding whitespace, an optional sign, then one or more
      decimal digits. `None` stands for the `ValueError` Python raises otherwise. */
  function ParseInt(s: string): (r: Option<int>)
    ensures r.Some? ==> |Strip(s)| > 0
  {
    ParseSigned(Strip(s))
  }

  /** An optional sign followed by one or more decimal digits. */
  function ParseSigned(t: string): (r: Option<int>)
    ensures r.Some? ==> |t| > 0
  {
    if |t| == 0 then None
    else
      var body := if t[0] == '-' || t[0] == '+' then t[1..] else t;
      if |body| == 0 || !AllDigits(body) then None
      else if t[0] == '-' then Some(-(DigitsValue(body) as int))
      else Some(DigitsValue(body) as int)
  }

  lemma {:induction false} DigitsOfNat(n: nat)
    ensures DigitsValue(NatToStr(n)) == n
  {
    var s := NatToStr(n);
    if n < 10 {
    } else {
      DigitsOfNat(n / 10);
      assert s[..|s| - 1] == NatToStr(n / 10);
      assert s[|s| - 1] == DigitChar(n % 10);
    }
  }

  /** `int(str(n)) == n` for every integer. */
  lemma ParseIntToStr(n: int)
    ensures ParseInt(IntToStr(n)) == Some(n)
  {
    var s := IntToStr(n);
    StripOfSpaceFree(s);
    ParseSignedToStr(n);
  }

  lemma ParseSignedToStr(n: int)
    ensures ParseSigned(IntToStr(n)) == Some(n)
  {
    IntToStrShape(n);
    if n < 0 {
      ParseSignedNat(-n);
    } else {
      ParseSignedNat(n);
    }
  }

  /** The digits of `m` read back as `m`, and after a minus sign as `-m`. */
  lemma ParseSignedNat(m: nat)
    ensures ParseSigned(NatToStr(m)) == Some(m)
    ensures ParseSigned("-" + NatToStr(m)) == Some(-(m as int))
  {
    DigitsOfNat(m);
    ParseSignedOfDigits(NatToStr(m));
  }

  /** `str(n)` is the digits of `|n|`, after a minus sign when `n` is negative. */
  lemma IntToStrShape(n: int)
    ensures n < 0 ==> IntToStr(n) == "-" + NatToStr(-n)
    ensures n >= 0 ==> IntToStr(n) == NatToStr(n)
  {
  }

  /** A nonempty run of digits reads as its value, and with a leading minus as its negation. */
  lemma ParseSignedOfDigits(d: string)
    requires |d| > 0 && AllDigits(d)
    ensures ParseSigned(d) == Some(DigitsValue(d) as int)
    ensures ParseSigned("-" + d) == Some(-(DigitsValue(d) as int))
  {
    assert IsDigit(d[0]) && d[0] != '-' && d[0] != '+';
    var m := "-" + d;
    assert m[0] == '-' && m[1..] == d;
  }

  /** A natural number prints as decimal digits only, so it holds no separator. */
  lemma NatTextDigits(n: nat)
    ensures IntToStr(n) == NatToStr(n)
    ensures forall c :: !IsDigit(c) ==> Free(IntToStr(n), c)
  {
  }

  /** Two different integers print differently. */
  lemma IntToStrInjective(a: int, b: int)
    requires IntToStr(a) == IntToStr(b)
    ensures a == b
  {
    ParseIntToStr(a);
    ParseIntToStr(b);
  }

  /** Equivalently, different integers never print alike. */
  lemma NumberTextOther(a: int, b: int)
    requires a != b
    ensures IntToStr(a) != IntToStr(b)
  {
    if IntToStr(a) == IntToStr(b) {
      IntToStrInjective(a, b);
    }
  }

  // ---------------------------------------------------------------------------
  // Python's ordering of strings: lexicographic by code point

  predicate LexLess(a: string, b: string)
  {
    if |a| == 0 then |b| > 0
    else if |b| == 0 then false
    else if a[0] != b[0] then a[0] < b[0]
    else LexLess(a[1..], b[1..])
  }

  lemma {:induction false} LexLessIrreflexive(a: string)
    ensures !LexLess(a, a)
  {
    if |a| > 0 {
      LexLessIrreflexive(a[1..]);
    }
  }

  lemma {:induction false} LexLessTransitive(a: string, b: string, c: string)
    requires LexLess(a, b) && LexLess(b, c)
    ensures LexLess(a, c)
  {
    if |a| > 0 && |b| > 0 && |c| > 0 && a[0] == b[0] && b[0] == c[0] {
      LexLessTransitive(a[1..], b[1..], c[1..]);
    }
  }

  lemma {:induction false} LexLessTotal(a: string, b: string)
    ensures a == b || LexLess(a, b) || LexLess(b, a)
  {
    if |a| > 0 && |b| > 0 && a[0] == b[0] {
      LexLessTotal(a[1..], b[1..]);
      if a[1..] == b[1..] {
        assert a == [a[0]] + a[1..] && b == [b[0]] + b[1..];
      }
    }
  }
}

=== FILE: utilities.dfy ===
/** The helpers shared by the steps: weight normalisation and great-circle distances.
    Trigonometry is not interpreted: a `Trig` value supplies sin, cos, sqrt, atan2 and pi,
    and `ValidTrig` states the few facts about them the properties need. */
module Utilities {
  import opened Values
  import opened Dicts

  // ---------------------------------------------------------------------------
  // normalize_dict_values

  /** Every value divided by `t`, keys and order unchanged. */
  function Scale<K>(d: Dict<K, real>, t: real): (r: Dict<K, real>)
    requires t != 0.0
    ensures |r| == |d|
    ensures forall i :: 0 <= i < |d| ==> r[i] == (d[i].0, d[i].1 / t)
    ensures Total(r) == Total(d) / t
  {
    if |d| == 0 then []
    else
      var rest := Scale(d[1..], t);
      var r := [(d[0].0, d[0].1 / t)] + rest;
      assert r[1..] == rest;
      DivAdd(d[0].1, Total(d[1..]), t);
      r
  }

  /** Division by `t` distributes over a sum. */
  lemma DivAdd(a: real, b: real, t: real)
    requires t != 0.0
    ensures a / t + b / t == (a + b) / t
  {
    var x, y, z := a / t, b / t, (a + b) / t;
    assert x * t == a && y * t == b && z * t == a + b;
    assert (x + y - z) * t == 0.0;
  }

  /** `normalize_dict_values`: divide every value by the total, or return the dict
      unchanged when the total is 0 (the empty dict included). */
  function NormalizeDictValues<K>(d: Dict<K, real>): (r: Dict<K, real>)
    ensures |r| == |d|
    ensures forall i :: 0 <= i < |d| ==> r[i].0 == d[i].0
    ensures Total(d) != 0.0 ==> forall i :: 0 <= i < |d| ==> r[i].1 == d[i].1 / Total(d)
    ensures Total(d) != 0.0 ==> Total(r) == 1.0
    ensures Total(d) == 0.0 ==> r == d
  {
    var t := Total(d);
    if t != 0.0 then
      assert t / t == 1.0;
      Scale(d, t)
    else d
  }

  /** Normalisation keeps the key set, so it never adds or drops a station. */
  lemma NormalizeKeepsKeys<K>(d: Dict<K, real>)
    ensures Keys(NormalizeDictValues(d)) == Keys(d)
  {
    var r := NormalizeDictValues(d);
    forall k | k in Keys(d) ensures k in Keys(r) {
      var i :| 0 <= i < |d| && d[i].0 == k;
      assert r[i].0 == k;
    }
    forall k | k in Keys(r) ensures k in Keys(d) {
      var i :| 0 <= i < |r| && r[i].0 == k;
      assert d[i].0 == k;
    }
  }

  /** A dict whose values already sum to 1 comes back equal. */
  lemma NormalizeFixesNormalised<K>(d: Dict<K, real>)
    requires Total(d) == 1.0
    ensures NormalizeDictValues(d) == d
  {
    var r := NormalizeDictValues(d);
    assert forall i :: 0 <= i < |d| ==> r[i] == d[i];
  }

  /** Normalising twice is the same as normalising once. */
  lemma NormalizeIdempotent<K>(d: Dict<K, real>)
    ensures NormalizeDictValues(NormalizeDictValues(d)) == NormalizeDictValues(d)
  {
    if Total(d) != 0.0 {
      NormalizeFixesNormalised(NormalizeDictValues(d));
    }
  }

  /** A dict whose nonzero total is not 1 comes back different. */
  lemma NormalizeChangesUnnormalised<K>(d: Dict<K, real>)
    requires Total(d) != 0.0 && Total(d) != 1.0
    ensures NormalizeDictValues(d) != d
  {
  }

  // ---------------------------------------------------------------------------
  // haversine_distance

  /** Uninterpreted trigonometry: sine, cosine, square root, two-argument arctangent and pi. */
  datatype Trig = Trig(sin: real -> real, cos: real -> real, sqrt: real -> real,
                       atan2: (real, real) -> real, pi: real)

  /** The facts about the trigonometric functions the distance properties rely on. */
  ghost predicate ValidTrig(t: Trig)
  {
    && t.pi > 0.0
    && t.sin(0.0) == 0.0
    && t.sqrt(0.0) == 0.0
    && t.sqrt(1.0) == 1.0
    && (forall x :: 0.0 <= x ==> 0.0 <= t.sqrt(x))
    && t.atan2(0.0, 1.0) == 0.0
    && (forall y, x :: 0.0 <= y && 0.0 <= x ==> 0.0 <= t.atan2(y, x) <= t.pi / 2.0)
  }

  function Abs(x: real): (r: real)
    ensures r >= 0.0 && (r == x || r == -x)
  {
    if x < 0.0 then -x else x
  }

  /** `np.clip(a, lo, hi)`. */
  function Clip(a: real, lo: real, hi: real): (r: real)
    requires lo <= hi
    ensures lo <= r <= hi
    ensures lo <= a <= hi ==> r == a
  {
    if a < lo then lo else if a > hi then hi else a
  }

  /** The clamped haversine term `a` for two points given in radians. */
  function HaversineTerm(t: Trig, lat1: real, lon1: real, lat2: real, lon2: real): (a: real)
    ensures 0.0 <= a <= 1.0
  {
    var s1 := t.sin(Abs(lat2 - lat1) / 2.0);
    var s2 := t.sin(Abs(lon2 - lon1) / 2.0);
    Clip(s1 * s1 + t.cos(lat1) * t.cos(lat2) * s2 * s2, 0.0, 1.0)
  }

  /** `haversine_distance` for one pair of points given in radians. */
  function Haversine(t: Trig, lat1: real, lon1: real, lat2: real, lon2: real, radius: real): (d: real)
    requires ValidTrig(t)
    ensures radius >= 0.0 ==> 0.0 <= d <= t.pi * radius
    ensures lat1 == lat2 && lon1 == lon2 ==> d == 0.0
  {
    var a := HaversineTerm(t, lat1, lon1, lat2, lon2);
    var c := 2.0 * t.atan2(t.sqrt(a), t.sqrt(1.0 - a));
    assert 0.0 <= c <= t.pi;
    assert lat1 == lat2 && lon1 == lon2 ==> c == 0.0 by {
      if lat1 == lat2 && lon1 == lon2 {
        assert Abs(lat2 - lat1) / 2.0 == 0.0 && Abs(lon2 - lon1) / 2.0 == 0.0;
        assert a == 0.0;
      }
    }
    ScaledBetween(radius, c, t.pi);
    radius * c
  }

  lemma ScaledBetween(radius: real, c: real, hi: real)
    requires 0.0 <= c <= hi
    ensures radius >= 0.0 ==> 0.0 <= radius * c <= hi * radius
  {
  }

  /** The distance does not depend on which point comes first. */
  lemma HaversineSymmetric(t: Trig, lat1: real, lon1: real, lat2: real, lon2: real, radius: real)
    requires ValidTrig(t)
    ensures Haversine(t, lat1, lon1, lat2, lon2, radius) == Haversine(t, lat2, lon2, lat1, lon1, radius)
  {
    HaversineTermSymmetric(t, lat1, lon1, lat2, lon2);
  }

  lemma HaversineTermSymmetric(t: Trig, lat1: real, lon1: real, lat2: real, lon2: real)
    ensures HaversineTerm(t, lat1, lon1, lat2, lon2) == HaversineTerm(t, lat2, lon2, lat1, lon1)
  {
    var s1 := t.sin(Abs(lat2 - lat1) / 2.0);
    var s2 := t.sin(Abs(lon2 - lon1) / 2.0);
    assert t.sin(Abs(lat1 - lat2) / 2.0) == s1;
    assert t.sin(Abs(lon1 - lon2) / 2.0) == s2;
    var c1 := t.cos(lat1);
    var c2 := t.cos(lat2);
    assert c1 * c2 * s2 * s2 == c2 * c1 * s2 * s2;
  }

  // ---------------------------------------------------------------------------
  // calculate_distances

  /** The Latitude and Longitude columns of a row, in degrees; either may be NaN. */
  datatype Site = Site(lat: Option<real>, lon: Option<real>)

  /** `np.radians`. */
  function Radians(t: Trig, deg: real): real
  {
    deg * t.pi / 180.0
  }

  /** Distance between two rows: NaN (`None`) as soon as one coordinate is NaN. */
  function SiteDistance(t: Trig, p: Site, q: Site, radius: real): (d: Option<real>)
    requires ValidTrig(t)
    ensures d.Some? <==> p.lat.Some? && p.lon.Some? && q.lat.Some? && q.lon.Some?
    ensures d.Some? && radius >= 0.0 ==> 0.0 <= d.value <= t.pi * radius
  {
    if p.lat.Some? && p.lon.Some? && q.lat.Some? && q.lon.Some? then
      Some(Haversine(t, Radians(t, p.lat.value), Radians(t, p.lon.value),
                     Radians(t, q.lat.value), Radians(t, q.lon.value), radius))
    else None
  }

  /** A row with both coordinates is at distance 0 from itself. */
  lemma SiteDistanceToSelf(t: Trig, p: Site, radius: real)
    requires ValidTrig(t)
    requires p.lat.Some? && p.lon.Some?
    ensures SiteDistance(t, p, p, radius) == Some(0.0)
  {
  }

  /** One row of the matrix: the vectorised `haversine_distance` of `p` against `qs`. */
  function DistanceRow(t: Trig, p: Site, qs: seq<Site>, radius: real): (row: seq<Option<real>>)
    requires ValidTrig(t)
    ensures |row| == |qs|
    ensures forall j :: 0 <= j < |qs| ==> row[j] == SiteDistance(t, p, qs[j], radius)
  {
    seq(|qs|, j requires 0 <= j < |qs| => SiteDistance(t, p, qs[j], radius))
  }

  /** The `len(ps)` by `len(qs)` matrix of distances, row `i` for `ps[i]`. */
  function DistanceMatrix(t: Trig, ps: seq<Site>, qs: seq<Site>, radius: real): (m: seq<seq<Option<real>>>)
    requires ValidTrig(t)
    ensures |m| == |ps|
    ensures forall i :: 0 <= i < |ps| ==> m[i] == DistanceRow(t, ps[i], qs, radius)
  {
    seq(|ps|, i requires 0 <= i < |ps| => DistanceRow(t, ps[i], qs, radius))
  }

  /** `calculate_distances`: fill the matrix one row at a time. Entry `[i][j]` is the
      distance between `ps[i]` and `qs[j]`, within `[0, pi * radius]`, and NaN only
      when a coordinate is NaN. */
  method CalculateDistances(t: Trig, ps: seq<Site>, qs: seq<Site>, radius: real)
    returns (m: seq<seq<Option<real>>>)
    requires ValidTrig(t)
    ensures |m| == |ps|
    ensures forall i :: 0 <= i < |ps| ==> |m[i]| == |qs|
    ensures forall i, j :: 0 <= i < |ps| && 0 <= j < |qs| ==> m[i][j] == SiteDistance(t, ps[i], qs[j], radius)
    ensures forall i, j :: 0 <= i < |ps| && 0 <= j < |qs| && m[i][j].Some? && radius >= 0.0 ==>
              0.0 <= m[i][j].value <= t.pi * radius
    ensures m == DistanceMatrix(t, ps, qs, radius)
  {
    m := [];
    var i := 0;
    while i < |ps|
      invariant 0 <= i <= |ps|
      invariant |m| == i
      invariant forall k :: 0 <= k < i ==> m[k] == DistanceRow(t, ps[k], qs, radius)
    {
      m := m + [DistanceRow(t, ps[i], qs, radius)];
      i := i + 1;
    }
  }

  /** A matrix of a table against itself has zeros on the diagonal. */
  lemma DistanceMatrixDiagonal(t: Trig, ps: seq<Site>, radius: real, i: nat)
    requires ValidTrig(t)
    requires i < |ps| && ps[i].lat.Some? && ps[i].lon.Some?
    ensures DistanceMatrix(t, ps, ps, radius)[i][i] == Some(0.0)
  {
    SiteDistanceToSelf(t, ps[i], radius);
  }
}

=== FILE: values.dfy ===
/** Table cells as pandas and xarray see them: a float, or NaN. NaN is `None`.
    Reductions skip missing cells, as `sum`, `count` and `mean` do by default. */
module Values {

  /** A cell value: `Some(x)` for a float `x`, `None` for NaN. */
  datatype Option<+T> = None | Some(value: T)

  /** The outcome of an operation that can raise: its value, or the exception it raises. */
  datatype Result<+T> = Success(value: T) | Failure(error: string)

  /** All the values, or the first error among the outcomes. */
  function Collect<T>(rs: seq<Result<T>>): (r: Result<seq<T>>)
    ensures r.Failure? <==> exists k :: 0 <= k < |rs| && rs[k].Failure?
    ensures r.Success? ==> |r.value| == |rs| && forall k :: 0 <= k < |rs| ==> r.value[k] == rs[k].value
  {
    if |rs| == 0 then Success([])
    else if rs[0].Failure? then Failure(rs[0].error)
    else
      match Collect(rs[1..])
      case Failure(e) =>
        var k :| 0 <= k < |rs[1..]| && rs[1..][k].Failure?;
        assert rs[k + 1] == rs[1..][k];
        Failure(e)
      case Success(vs) =>
        assert forall k :: 1 <= k < |rs| ==> rs[k] == rs[1..][k - 1];
        Success([rs[0].value] + vs)
  }

  /** The value a missing cell takes under `fillna(0)`. */
  function OrZero(x: Option<real>): real
  {
    match x
    case Some(v) => v
    case None => 0.0
  }

  /** `sum` with missing values skipped: 0 when nothing is present. */
  function SumPresent(xs: seq<Option<real>>): real
  {
    if |xs| == 0 then 0.0 else OrZero(xs[0]) + SumPresent(xs[1..])
  }

  /** `count`: the number of present values. */
  function CountPresent(xs: seq<Option<real>>): (n: nat)
    ensures n <= |xs|
    ensures n == 0 <==> forall i :: 0 <= i < |xs| ==> xs[i].None?
  {
    if |xs| == 0 then 0
    else
      var rest := CountPresent(xs[1..]);
      assert forall i :: 1 <= i < |xs| ==> xs[i] == xs[1..][i - 1];
      (if xs[0].Some? then 1 else 0) + rest
  }

  /** `mean` with missing values skipped: missing when nothing is present. */
  function MeanPresent(xs: seq<Option<real>>): (r: Option<real>)
    ensures r.None? <==> CountPresent(xs) == 0
    ensures r.Some? ==> Times(CountPresent(xs), r.value) == SumPresent(xs)
  {
    var n := CountPresent(xs);
    if n == 0 then None
    else
      var m := SumPresent(xs) / (n as real);
      TimesIsProduct(n, m);
      Some(m)
  }

  /** The "an exact 0.0 means no data" convention: 0 becomes missing, anything else is kept. */
  function ZeroToMissing(x: real): (r: Option<real>)
    ensures r.None? <==> x == 0.0
    ensures r.Some? ==> r.value == x
  {
    if x == 0.0 then None else Some(x)
  }

  /** Elementwise subtraction of two cells: missing if either side is missing. */
  function Sub(x: Option<real>, y: Option<real>): (r: Option<real>)
    ensures r.Some? <==> x.Some? && y.Some?
    ensures r.Some? ==> r.value + y.value == x.value
  {
    if x.Some? && y.Some? then Some(x.value - y.value) else None
  }

  /** Number of missing cells, as `isnull().sum()`. */
  function CountMissing(xs: seq<Option<real>>): (n: nat)
    ensures n + CountPresent(xs) == |xs|
  {
    if |xs| == 0 then 0
    else
      assert xs == [xs[0]] + xs[1..];
      (if xs[0].None? then 1 else 0) + CountMissing(xs[1..])
  }

  lemma {:induction false} SumPresentAppend(a: seq<Option<real>>, b: seq<Option<real>>)
    ensures SumPresent(a + b) == SumPresent(a) + SumPresent(b)
  {
    if |a| == 0 {
      assert a + b == b;
    } else {
      assert (a + b)[1..] == a[1..] + b;
      SumPresentAppend(a[1..], b);
    }
  }

  lemma {:induction false} CountPresentAppend(a: seq<Option<real>>, b: seq<Option<real>>)
    ensures CountPresent(a + b) == CountPresent(a) + CountPresent(b)
  {
    if |a| == 0 {
      assert a + b == b;
    } else {
      assert (a + b)[1..] == a[1..] + b;
      CountPresentAppend(a[1..], b);
    }
  }

  /** Every cell minus the same present value `a`. */
  function SubAll(xs: seq<Option<real>>, a: real): (r: seq<Option<real>>)
    ensures |r| == |xs|
    ensures forall k :: 0 <= k < |xs| ==> r[k] == Sub(xs[k], Some(a))
  {
    if |xs| == 0 then []
    else
      var rest := SubAll(xs[1..], a);
      var r := [Sub(xs[0], Some(a))] + rest;
      assert forall k :: 1 <= k < |xs| ==> r[k] == rest[k - 1] && xs[k] == xs[1..][k - 1];
      r
  }

  /** `n` copies of `a` added up: the product `n * a` written as repeated addition, so
      that sums over cells stay linear. */
  function Times(n: nat, a: real): real
  {
    if n == 0 then 0.0 else a + Times(n - 1, a)
  }

  lemma {:induction false} TimesIsProduct(n: nat, a: real)
    ensures Times(n, a) == a * (n as real)
  {
    if n > 0 {
      TimesIsProduct(n - 1, a);
      assert a * (n as real) == a * ((n - 1) as real) + a;
    }
  }

  /** Subtracting `a` from every present value lowers their sum by `a` once per present
      value. */
  lemma {:induction false} SumOfDeviations(xs: seq<Option<real>>, a: real)
    ensures SumPresent(SubAll(xs, a)) == SumPresent(xs) - Times(CountPresent(xs), a)
  {
    if |xs| > 0 {
      var r := SubAll(xs, a);
      SumOfDeviations(xs[1..], a);
      assert r[1..] == SubAll(xs[1..], a);
      assert SumPresent(r) == OrZero(Sub(xs[0], Some(a))) + SumPresent(r[1..]);
      assert SumPresent(xs) == OrZero(xs[0]) + SumPresent(xs[1..]);
      var c := CountPresent(xs[1..]);
      if xs[0].Some? {
        assert CountPresent(xs) == c + 1;
        assert Times(c + 1, a) == a + Times(c, a);
      } else {
        assert CountPresent(xs) == c;
      }
    }
  }

  /** Subtracting a present value keeps exactly the present cells present. */
  lemma {:induction false} CountOfDeviations(xs: seq<Option<real>>, a: real)
    ensures CountPresent(SubAll(xs, a)) == CountPresent(xs)
  {
    if |xs| > 0 {
      CountOfDeviations(xs[1..], a);
      assert SubAll(xs, a)[1..] == SubAll(xs[1..], a);
    }
  }

  /** The present deviations from the mean of the present values sum to 0. */
  lemma DeviationsFromMeanSumToZero(xs: seq<Option<real>>)
    requires CountPresent(xs) > 0
    ensures SumPresent(SubAll(xs, MeanPresent(xs).value)) == 0.0
  {
    SumOfDeviations(xs, MeanPresent(xs).value);
  }

  /** ... and so they average to 0. */
  lemma DeviationsFromMeanAverageZero(xs: seq<Option<real>>)
    requires CountPresent(xs) > 0
    ensures MeanPresent(SubAll(xs, MeanPresent(xs).value)) == Some(0.0)
  {
    var d := SubAll(xs, MeanPresent(xs).value);
    DeviationsFromMeanSumToZero(xs);
    CountOfDeviations(xs, MeanPresent(xs).value);
    var n := CountPresent(d) as real;
    assert n > 0.0 && SumPresent(d) == 0.0;
    assert MeanPresent(d) == Some(0.0 / n);
  }
}
